=== FILE: README.md ===
# oneclick-copy, modelled in Dafny

A model of the core of oneclick-copy, a Next.js application. Users keep
a library of advertisement creatives, tag and filter them, and generate marketing copy
in per-tool conversations with a streamed language-model completion. The
model covers:

- **Tag actions and the tag store** (`TagActions`, `TagStore`). Tags are
  per-user rows. The duplicate-name check is an `ilike` pattern
  match (`Patterns`), which is modelled as written and beside a corrected
  check that keeps each user's names unique up to case. Ads are linked to tags
  through a join table. The model covers creating, updating and deleting
  tags, the cascade check, and reading the tags of an ad. It also covers
  the client store's optimistic list: adding, replacing and removing, and
  whether it is loaded.
- **The tag editor and the tag filters** (`TagEditor`, `TagFilter`,
  `TagFilterGroup`). The editor covers the query, the filtered options and
  the create option, keyboard navigation with JavaScript's remainder, and
  adding and removing tags. The filters are the single-select filter and
  the group that keeps the active filter in the URL query.
- **Server actions** (`ActionHandler`, `Paging`, `AdsActions`,
  `ProjectsActions`, `ConversationsActions`). These are the reusable
  validation and authorization wrapper and the page and offset arithmetic.
  They also cover the ads queries by tag, project creation and its schema,
  and saving a conversation with its two chats.
- **Bulk sign-up** (`BulkSignup`). The JSON and CSV endpoints check the
  request and create users one by one, counting successes and failures.
- **The completion relay** (`Relay`). The prompt check, the upstream
  request, and the re-framing of the upstream event stream into
  `data: {"content": c}` frames. The content object is encoded as
  `JSON.stringify` writes it (`Json`).
- **The browser consumer** (`Consumer`). The provider's `generateContent`:
  the start guard, the read loop that accumulates frame contents and
  publishes a formatted copy, and the state after every way a generation
  ends.
- **The relay and the consumer together** (`Pipeline`). Frames delivered in
  chunks that break only between whole frames give the consumer exactly the
  upstream text. A frame broken across chunks is lost, and so is one
  without the space after `data:`.
- **The content panel and its wrapper** (`ContentPanel`, `PanelWrapper`).
  Which chats are listed, when streaming text and the placeholder show,
  and how a text is classified as markdown, HTML or plain text. The
  markdown cleaning, the `$2` marker pass and the copy text are modelled
  too, as is the wrapper's list of temporary chats.
- **Navigation and small components** (`Routes`, `NavLinks`, `Pagination`,
  `Sidebar`, `UserAvatar`, `TranscriptUi`). The path builders, the active
  link, the page-number window, the sidebar's generate button, the avatar
  initials and the transcript button.

Shared definitions live in `Wrappers` (`Option`, `Result`, JavaScript
truthiness), `Seqs` (filter, map, find, flat-map), `Text` (trim, case,
split, join, replace) and `Entities` (the table rows).

Calls into code outside the model become parameters:
- the database, `fetch`, the session lookup, schema parsing and `signUp` are functions or results passed in;
- `JSON.parse` of upstream lines is a function passed in;
- clocks and `crypto.randomUUID` are plain values passed in.

Query strings are maps from key to value. Server-side ordering is left to the database.

## Model

| member | source | states |
|---|---|---|
| Patterns.Like | app/lib/actions/tags.actions.ts:157 | PostgreSQL `LIKE` with `\` as escape: `%` matches any run of characters and `_` any one character |
| Patterns.Stars | app/lib/actions/tags.actions.ts:157 | PostgREST reads every `*` of a filter value as `%` |
| Patterns.ILike | app/lib/actions/tags.actions.ts:205 | the stored name matches the filter value after both are lower-cased |
| Patterns.LikeLiteral | app/lib/actions/tags.actions.ts:157 | a pattern with no `%`, `_` or `\` matches exactly the string it spells |
| Patterns.PlainILike | app/lib/actions/tags.actions.ts:157 | for a value without special characters, `ilike` is equality up to case, in both directions |
| Patterns.PercentMatchesAll | app/lib/actions/tags.actions.ts:157 | the pattern `%` matches every string |
| Patterns.WildcardValue | app/lib/actions/tags.actions.ts:205 | a lone `%` or `*` value matches every stored name |
| Patterns.WildcardExamples | app/lib/actions/tags.actions.ts:157 | "a_c" matches "abc"; the value "a\b" matches "ab" but not the name "a\b" |
| TagActions.MaybeSingle | app/lib/actions/tags.actions.ts:158 | `.maybeSingle()`: no row, one row, or the row-count error for several |
| TagActions.FreshId | app/lib/actions/tags.actions.ts:170-174 | the id a new tag row receives is carried by no existing row |
| TagActions.Clashing | app/lib/actions/tags.actions.ts:153-158 | the user's tags the duplicate check finds for the name, in both directions; none exactly when no tag of the user matches (the `ilike` pattern as written, equality up to case corrected) |
| TagActions.ClashingOthers | app/lib/actions/tags.actions.ts:200-206 | the same for the user's tags other than the one being updated |
| TagActions.CreateTag | app/lib/actions/tags.actions.ts:141-182 | no user: "Authentication required"; a name the check finds in exactly one of the user's tags: "A tag with this name already exists"; it succeeds exactly when none matches, appending one row with the trimmed name, the color, the user and a fresh id; finding it in several fails with the row-count error of `maybeSingle` |
| TagActions.CreateKeepsValid | app/lib/actions/tags.actions.ts:141-182 | the corrected create keeps ids unique, each user's names distinct up to case, and every link pointing at an existing tag and ad |
| TagActions.AppendKeepsValid | app/lib/actions/tags.actions.ts:170-174 | a new row with a fresh id and a name none of its owner's tags has keeps the tables valid |
| TagActions.PlainCreateKeepsValid | app/lib/actions/tags.actions.ts:141-182 | for a name without `%`, `_`, `*` or `\`, the create as written keeps the tables valid |
| TagActions.UnmatchedNameTwice | app/lib/actions/tags.actions.ts:153-166 | as written, a name the pattern does not find in itself (such as `a\b`) passes the check next to tags already carrying it, and breaks distinct names |
| TagActions.CreateLeavesAlike | app/lib/actions/tags.actions.ts:165-182 | a created tag is named like every tag of the user already carrying its trimmed name |
| TagActions.UnderscoreNameRefused | app/lib/actions/tags.actions.ts:153-166 | as written, "a_c" is refused once the user has a tag named "abc" |
| TagActions.UnderscoreNameAccepted | app/lib/actions/tags.actions.ts:153-166 | the corrected check accepts "a_c" next to tags named "abc" |
| TagActions.PercentFindsAll | app/lib/actions/tags.actions.ts:153-158 | the name "%" finds any two tags of the user |
| TagActions.PercentNameRefused | app/lib/actions/tags.actions.ts:153-162 | as written, creating "%" fails with the row-count error once the user has two tags |
| TagActions.UpdateRows | app/lib/actions/tags.actions.ts:221-225 | exactly the rows with that id and owner take the new fields; all others stay as they were |
| TagActions.UpdateWith | app/lib/actions/tags.actions.ts:187-231 | no user fails; a checked name succeeds exactly when the check finds no other tag of the user, and is stored trimmed; ads and links never change |
| TagActions.UpdateTag | app/lib/actions/tags.actions.ts:187-231 | as written: only a truthy name is checked, with the `ilike` pattern; without one, the rows are updated directly |
| TagActions.UpdateTagChecked | app/lib/actions/tags.actions.ts:195-219 | corrected: every name being set, the empty one included, is checked for equality up to case and trimmed |
| TagActions.UpdateTouchesOnlyOwnedRow | app/lib/actions/tags.actions.ts:221-225 | an update changes only the row with that id owned by the user, and never an id, owner or creation time |
| TagActions.UpdateKeepsValid | app/lib/actions/tags.actions.ts:187-231 | updating with a name no other tag of the user has, up to case, keeps the tables valid |
| TagActions.UpdateCheckedKeepsValid | app/lib/actions/tags.actions.ts:195-219 | the corrected update always keeps the tables valid |
| TagActions.PlainUpdateKeepsValid | app/lib/actions/tags.actions.ts:187-231 | the update as written keeps the tables valid when it sets no name, or a non-empty one without `%`, `_`, `*` or `\` |
| TagActions.EmptyNameSkipsCheck | app/lib/actions/tags.actions.ts:196 | renaming to the empty name skips the check and leaves a user with two tags named alike |
| TagActions.UnmatchedRenameTwice | app/lib/actions/tags.actions.ts:200-219 | as written, renaming to a name the pattern does not find in itself passes the check when the user's other tags carry it, and breaks distinct names |
| TagActions.RenameLeavesAlike | app/lib/actions/tags.actions.ts:218-225 | a renamed tag is named like every other tag of the user already carrying its trimmed name |
| TagActions.DeleteTag | app/lib/actions/tags.actions.ts:236-285 | no user fails; it succeeds exactly when the user owns the tag, removes every link to it and that tag, and keeps everything else |
| TagActions.ForceDeleteCheckPasses | app/lib/actions/tags.actions.ts:347-364 | after the cascade the re-read finds no row, so the force delete's final check never throws |
| TagActions.DeleteKeepsValid | app/lib/actions/tags.actions.ts:259-280 | deleting leaves no dangling link, no tag with that id, and the tables valid |
| TagActions.TagAd | app/lib/actions/tags.actions.ts:370-430 | each ownership failure gives its own message; owning both, it succeeds exactly when the pair is linked at most once, and fails with the row-count error otherwise; on success the link is added unless it is already there, and nothing else changes |
| TagActions.SingleLink | app/lib/actions/tags.actions.ts:403-409 | when each pair is linked at most once, the duplicate check's `maybeSingle` sees at most one row |
| TagActions.TagAdIdempotent | app/lib/actions/tags.actions.ts:403-419 | tagging twice is tagging once, and the pair ends linked exactly once |
| TagActions.TagAdKeepsValid | app/lib/actions/tags.actions.ts:370-430 | tagging keeps the tables valid |
| TagActions.UntagAd | app/lib/actions/tags.actions.ts:435-475 | each ownership failure gives its own message; when both are owned it succeeds, removing every link of that pair and nothing else |
| TagActions.UntagKeepsValid | app/lib/actions/tags.actions.ts:466-469 | untagging keeps the tables valid |
| TagActions.UntagUndoesTag | app/lib/actions/tags.actions.ts:370-475 | untagging a pair that tagging just linked gives back the original tables |
| TagActions.AdsByTag | app/lib/actions/tags.actions.ts:480-520 | no user, a tag not the user's or a failing query give no ids; otherwise exactly the non-empty ad ids linked to the tag |
| TagActions.JoinedTags | app/lib/actions/tags.actions.ts:82-84 | the joined tags are existing tags, at most one per link |
| TagActions.JoinedFromLinks | app/lib/actions/tags.actions.ts:82-84 | every joined tag is the target of some link |
| TagActions.LinksJoined | app/lib/actions/tags.actions.ts:82-84 | every link to an existing tag contributes that tag |
| TagActions.TagsForAd | app/lib/actions/tags.actions.ts:37-85 | the owner is the given id, or the signed-in user when it is empty; it succeeds exactly when that owner owns the ad, with the tags joined from the ad's links |
| TagActions.TagsForAdWithOwner | app/lib/actions/tags.actions.ts:91-136 | it succeeds exactly when the given owner owns the ad, with the tags joined from the ad's links |
| TagActions.WithOwnerMatchesTagsForAd | app/lib/actions/tags.actions.ts:37-136 | for a non-empty owner the two reads agree, whoever is signed in |
| TagActions.AllTags | app/lib/actions/tags.actions.ts:17-32 | no user fails; otherwise exactly the user's tags |
| TagActions.TagsForUser | app/lib/actions/tags.actions.ts:526-540 | exactly the tags owned by the given user |
| TagActions.AllTagsAreOwnTags | app/lib/actions/tags.actions.ts:17-32 | for the signed-in user, reading all tags lists the same tags as reading that user's tags |
| TagStore.Reset | app/store/tagStore.ts:40-44 | the state and the module-level cache go back to their initial values |
| TagStore.Initialize | app/store/tagStore.ts:46-73 | returns untouched when initialized with a fresh cache; fetches only a missing or stale cache; shows the cache on success and keeps the old tags with the error on failure |
| TagStore.InitializeFetchesOnlyWhenStale | app/store/tagStore.ts:57-62 | with a fresh cache the fetch outcome makes no difference; with a stale one different fetched lists give different tags |
| TagStore.InitializeShowsCache | app/store/tagStore.ts:64-69 | after a successful initialize the store is initialized and shows exactly the cache |
| TagStore.Refresh | app/store/tagStore.ts:75-90 | always fetches; success replaces the tags and the cache, failure keeps them and records the error |
| TagStore.AddTag | app/store/tagStore.ts:92-112 | the created tag is appended to the list and to an existing cache; a failure keeps both, records the error and rethrows it |
| TagStore.Rename | app/store/tagStore.ts:123-125 | exactly the tags with that id take the new name and color |
| TagStore.UpdateTag | app/store/tagStore.ts:114-140 | the list and the cache change only after the server update succeeds; a failure keeps both and rethrows |
| TagStore.UpdateKeepsIds | app/store/tagStore.ts:122-135 | a successful update keeps every id and creation time in order, and changes only the tag with that id |
| TagStore.Without | app/store/tagStore.ts:157 | the list minus exactly the tags with that id |
| TagStore.DeleteTag | app/store/tagStore.ts:142-175 | when the regular or the forced delete succeeds the tag leaves the list and the cache; when both fail the store is refreshed, the error recorded and rethrown |
| TagStore.DeleteUndoesAdd | app/store/tagStore.ts:92-165 | deleting a tag just added with a new id gives back the list and the cache from before |
| TagStore.ActionsKeepSynced | app/store/tagStore.ts:40-175 | every action keeps an initialized store's list equal to the cache |
| TagEditor.FilteredTags | app/components/ads/AdTagEditor.tsx:52-54 | exactly the available tags whose lower-cased name contains the lower-cased query |
| TagEditor.EmptyQueryListsAll | app/components/ads/AdTagEditor.tsx:52-54 | the empty query lists every available tag, in order |
| TagEditor.FilteredAppend | app/components/ads/AdTagEditor.tsx:52-54 | filtering works tag by tag: filtering a concatenation concatenates the filtered parts |
| TagEditor.ShowCreate | app/components/ads/AdTagEditor.tsx:56-57 | the trimmed query is not empty and no filtered tag is named as the query, up to case |
| TagEditor.Options | app/components/ads/AdTagEditor.tsx:328 | the filtered tags, plus one when the create option is shown |
| TagEditor.ShowCreateIff | app/components/ads/AdTagEditor.tsx:56-57 | the create option shows exactly when the trimmed query is not empty and no available tag is named as the query up to case |
| TagEditor.JsRem | app/components/ads/AdTagEditor.tsx:332-335 | JavaScript's `%`: the remainder is smaller than the divisor in size and has the sign of the dividend |
| TagEditor.ArrowDown | app/components/ads/AdTagEditor.tsx:330-332 | with no options the index becomes NaN |
| TagEditor.ArrowUp | app/components/ads/AdTagEditor.tsx:333-335 | with no options the index becomes NaN |
| TagEditor.ArrowsCycle | app/components/ads/AdTagEditor.tsx:330-335 | from a valid index, down moves to the next option and wraps to the first; up moves to the previous and wraps to the last |
| TagEditor.ArrowsUndo | app/components/ads/AdTagEditor.tsx:330-335 | the arrows keep a valid index valid, and up undoes down and down undoes up |
| TagEditor.TagPosition | app/components/ads/AdTagEditor.tsx:341 | the highlight stands for the filtered tag one place earlier when the create option is shown |
| TagEditor.Pick | app/components/ads/AdTagEditor.tsx:338-345 | Enter creates exactly when the create option is shown and highlighted; it toggles only a filtered tag |
| TagEditor.Enter | app/components/ads/AdTagEditor.tsx:336-345 | on the editor's state: creates exactly when the create option is shown and highlighted, toggles only a filtered tag |
| TagEditor.PickTogglesHighlighted | app/components/ads/AdTagEditor.tsx:341-344 | a highlight on a tag row toggles exactly the tag shown on that row |
| TagEditor.KeyDown | app/components/ads/AdTagEditor.tsx:327-350 | the arrows move the highlight, Enter creates or toggles, Backspace on an empty query removes the last tag of the ad and only then |
| TagEditor.ToggleTag | app/components/ads/AdTagEditor.tsx:195-222 | a success removes every entry of a present tag and keeps the others in order, or appends an absent one; a failed removal leaves the others in order with the tag appended; after a failure the tag is present exactly when it was before |
| TagEditor.FailedAddIsUndone | app/components/ads/AdTagEditor.tsx:212-220 | a failed add gives back the list as it was |
| TagEditor.FailedRemoveMovesTag | app/components/ads/AdTagEditor.tsx:212-220 | a failed remove puts the tag back at the end, not where it was |
| TagEditor.ToggleTwice | app/components/ads/AdTagEditor.tsx:195-211 | toggling an absent tag twice gives back the list |
| TagEditor.RemoveTag | app/components/ads/AdTagEditor.tsx:318-325 | a failure keeps the list; a success removes every entry with the tag's id and keeps every other entry |
| TagEditor.BackspaceRemovesLast | app/components/ads/AdTagEditor.tsx:346-349 | Backspace on an empty query removes the ad's last tag, and a failed removal keeps the list |
| TagEditor.CreateTag | app/components/ads/AdTagEditor.tsx:179-193 | nothing happens for a blank query or no preview color; otherwise the trimmed query is created, and on success the query clears and the available tags are refetched |
| TagEditor.Renamed | app/components/ads/AdTagEditor.tsx:267-269 | exactly the entries with that id take the new name |
| TagEditor.RenameTag | app/components/ads/AdTagEditor.tsx:249-280 | a blank or unchanged name just ends renaming; a failure resets the typed name; a success renames the ad's entries and refetches the available tags |
| TagEditor.RenameKeepsOthers | app/components/ads/AdTagEditor.tsx:267-269 | a rename keeps every id and color and changes only the renamed tag's name |
| TagEditor.RenameBack | app/components/ads/AdTagEditor.tsx:267-269 | renaming and renaming back gives back the ad's tags |
| TagEditor.PopupStyle | app/components/ads/AdTagEditor.tsx:88-139 | no anchor, no placement; otherwise the popup is 280 wide, no taller than 400, and at least 16 from the top and the left |
| TagEditor.PopupFitsWidth | app/components/ads/AdTagEditor.tsx:100-108 | in a viewport wide enough, the popup lies inside it with the padding on both sides |
| TagEditor.PopupBelowAnchor | app/components/ads/AdTagEditor.tsx:97-98 | when it fits, the popup opens 8 below the anchor at the anchor's left, at full height |
| TagEditor.PopupAboveAnchor | app/components/ads/AdTagEditor.tsx:110-119 | without room below and with more room above, the popup opens above the anchor at full height |
| TagEditor.PopupHeightCanBeNegative | app/components/ads/AdTagEditor.tsx:120-122 | in a short viewport the constrained height can be negative |
| TagEditor.SettleAsWritten | app/components/ads/AdTagEditor.tsx:162-165 | as written: whenever the effect's dependencies change between renders, the highlight is reset to 0 |
| TagEditor.ArrowMoveIsReset | app/components/ads/AdTagEditor.tsx:162-165 | as written, an arrow key's move is reset to the first option at the next render |
| TagEditor.Settle | app/components/ads/AdTagEditor.tsx:162-165 | corrected: the highlight is kept while the filtered tags and the create option stay the same |
| TagEditor.ArrowMoveSticks | app/components/ads/AdTagEditor.tsx:162-165 | corrected: down moves the highlight and up brings it back |
| TagFilter.Click | app/components/filters/TagFilter.tsx:49-57 | clicking the selected tag deselects it; clicking any other tag selects that one |
| TagFilter.ClickTwice | app/components/filters/TagFilter.tsx:49-57 | two clicks on a tag give back the selection from before |
| TagFilter.DisplayTags | app/components/filters/TagFilter.tsx:26-32 | custom tags when given, otherwise the store's tags |
| TagFilter.Render | app/components/filters/TagFilter.tsx:34-128 | the skeleton exactly while the store loads and no custom tags are given; nothing for no tags; otherwise one button per tag, marked exactly when it is the selected one, and the clear button exactly when a tag is selected |
| TagFilter.AtMostOneSelected | app/components/filters/TagFilter.tsx:67-68 | every marked button is the selected tag |
| TagFilterGroup.ActiveOf | app/components/filters/TagFilterGroup.tsx:39-42 | the active filter is the query's `filter` value, or empty without one |
| TagFilterGroup.Unfiltered | app/components/filters/TagFilterGroup.tsx:52-55 | the query without `filter` and `page`, every other key kept with its value |
| TagFilterGroup.TypeClick | app/components/filters/TagFilterGroup.tsx:44-71 | ignored while processing; the active filter clears itself and its page; any other sets `filter` to the tag |
| TagFilterGroup.ClearFilters | app/components/filters/TagFilterGroup.tsx:73-85 | ignored while processing; otherwise drops `filter` and `page` and clears the active filter |
| TagFilterGroup.ActiveMirrorsQuery | app/components/filters/TagFilterGroup.tsx:39-85 | after a click or a clear, the active filter is the one the pushed query names |
| TagFilterGroup.ClickTwiceUnfilters | app/components/filters/TagFilterGroup.tsx:44-71 | clicking a tag twice leaves no filter and the rest of the query as it was |
| ActionHandler.Action | lib/handlers/action.ts:20-57 | a schema and parameters both given are parsed first: a `ZodError` returns its field errors, any other throw "Schema validation failed", each before anything else runs; with `authorize` true a failed or missing session is unauthorized, otherwise the parameters come back untouched, with the user only when authorized |
| ActionHandler.InvalidStopsEarly | lib/handlers/action.ts:26-38 | a failed validation returns after the parse alone: no client is created and no session is read |
| ActionHandler.NoSchemaPassesParams | lib/handlers/action.ts:26-56 | without a schema the parameters pass through whatever they are |
| ActionHandler.SessionIgnoredWithoutAuthorize | lib/handlers/action.ts:23-53 | without `authorize`, or with it false, the session makes no difference |
| Paging.Skip | app/lib/actions/ads.actions.ts:17 | `(page - 1) * pageSize`, with the defaults 1 and 10 |
| Paging.Requested | app/lib/actions/ads.actions.ts:16-35 | the requested rows start at (page - 1) * pageSize and span exactly pageSize rows, with 1 and 10 as defaults |
| Paging.DefaultsAskFirstTen | app/lib/actions/ads.actions.ts:16-35 | with the defaults the first ten rows are asked for |
| Paging.PagesAdjoin | lib/actions/projects.actions.ts:25-41 | each page starts right after the previous one ends |
| Paging.LaterPagesFurther | lib/actions/projects.actions.ts:25-41 | with a positive page size, a later page starts after an earlier one ends |
| AdsActions.FilterClause | app/lib/actions/ads.actions.ts:43-59 | "video" and "image" restrict the type and leave the order alone; "oldest" orders oldest first; everything else, "newest" included, orders newest first |
| AdsActions.TypeFilterOrOrder | app/lib/actions/ads.actions.ts:43-59 | a filter either restricts the type or orders by creation, never both, and only "oldest" orders oldest first |
| AdsActions.BuildQuery | app/lib/actions/ads.actions.ts:16-59 | the query is scoped to the user and the requested span, searches exactly when the query is truthy, and takes the filter's clause |
| AdsActions.Flatten | app/lib/actions/ads.actions.ts:71-74 | an ad keeps its fields and takes its joined tags, none when the join is missing |
| AdsActions.GetAds | app/lib/actions/ads.actions.ts:61-90 | an error reply or a throw answers 500 with its message ("Something went wrong" for an empty one); success flattens every row and reports a next page exactly when the count exceeds the rows skipped and returned |
| AdsActions.IsNextWhenRowsRemain | app/lib/actions/ads.actions.ts:76 | when the database returns the requested slice, a next page is reported exactly when the next page's first row exists |
| ProjectsActions.Clip | lib/actions/projects.actions.ts:41 | exactly the rows of the span that exist, in order: from the span's first index up to its last or the end of the table; nothing for a negative start |
| ProjectsActions.GetProjects | lib/actions/projects.actions.ts:20-54 | only the user's projects, at most one page of them; an error reply gives the empty list |
| ProjectsActions.SignedOutSeesNothing | lib/actions/projects.actions.ts:33-41 | with nobody signed in, no project matches the missing user id |
| ProjectsActions.FirstPageIsFirstProjects | lib/actions/projects.actions.ts:25-48 | with the defaults, the first ten of the user's projects, in table order |
| ProjectsActions.PageOfProjects | lib/actions/projects.actions.ts:25-48 | page `p` of size `s` lists the user's projects from index `(p - 1) * s` up to `p * s`, in table order; a page past the end is empty |
| ProjectsActions.ProjectSchema | lib/validations.ts:3-5 | passes exactly a non-empty project id; otherwise the field error "Project ID is required" |
| ProjectsActions.Single | lib/actions/projects.actions.ts:101-105 | a row comes back exactly when one row has the id, and it is that row |
| ProjectsActions.GetProject | lib/actions/projects.actions.ts:85-115 | an empty id is a validation error; otherwise the `single` row with that id |
| ProjectsActions.GetProjectIgnoresOwner | lib/actions/projects.actions.ts:101-111 | the project with an id is returned to any caller: no owner is checked |
| ProjectsActions.OnlyRow | lib/actions/projects.actions.ts:101-105 | a row whose id no other row carries is the only match |
| ProjectsActions.Apply | lib/actions/projects.actions.ts:125 | each field given in the patch replaces the project's; the others stay |
| ProjectsActions.UpdateProject | lib/actions/projects.actions.ts:118-140 | an error changes nothing and throws with the prefix; otherwise exactly the user's rows with that id are patched, and the returned row is one of them |
| ProjectsActions.UpdateScoped | lib/actions/projects.actions.ts:126-127 | a row with another id or owner is never changed |
| ProjectsActions.UpdateIdempotent | lib/actions/projects.actions.ts:118-140 | applying the same patch twice is applying it once |
| ProjectsActions.DeleteProject | lib/actions/projects.actions.ts:145-164 | an error changes nothing and throws with the prefix; otherwise exactly the user's rows with that id go |
| ProjectsActions.CreateProject | lib/actions/projects.actions.ts:169-197 | no user: "Authentication required"; an error throws with the prefix; otherwise one row with the form, the user and the new id is appended |
| ProjectsActions.DeleteUndoesCreate | lib/actions/projects.actions.ts:145-197 | deleting the project just created gives back the table |
| ConversationsActions.NewConversation | lib/actions/conversations.actions.ts:113-125 | the conversation row carries the request's project, tool and framework, the user, and the title or "New Conversation" when it is empty |
| ConversationsActions.Run | lib/actions/conversations.actions.ts:101-198 | no user answers "User not authenticated" and a failed conversation insert answers its error, both before anything is written |
| ConversationsActions.CreateAsWritten | lib/actions/conversations.actions.ts:86-199 | as written: every call fails, because the revalidation step reads an undeclared `toolSlug` |
| ConversationsActions.AsWrittenReportsFailureAfterSaving | lib/actions/conversations.actions.ts:179-197 | as written, a run whose three inserts all succeed still answers "Internal server error", with all three rows written |
| ConversationsActions.CreateConversation | lib/actions/conversations.actions.ts:86-199 | corrected: saved exactly when there is a user and no insert fails |
| ConversationsActions.InsertsInOrder | lib/actions/conversations.actions.ts:112-190 | the conversation, the user chat and the system chat are written in that order; the first failing insert answers its error and keeps only the rows before it |
| ConversationsActions.SameRowsEitherWay | lib/actions/conversations.actions.ts:101-198 | the written and the corrected versions write the same rows and differ only in the answer after the last insert |
| ConversationsActions.ToolBySlug | lib/actions/conversations.actions.ts:21-25 | a tool comes back exactly when one tool has the slug, and it is that tool |
| ConversationsActions.GetConversations | lib/actions/conversations.actions.ts:9-55 | "Tool not found" exactly when the tool query fails or no single tool has the slug; a failed conversations query answers success with no conversations; otherwise exactly the user's conversations of that project and tool |
| ConversationsActions.FailedListLooksEmpty | lib/actions/conversations.actions.ts:32-45 | as written, a failed conversations query answers exactly like a successful one over an empty table |
| ConversationsActions.GetConversationsChecked | lib/actions/conversations.actions.ts:32-45 | corrected: a failed conversations query answers "Conversations not found", and every other answer is the one as written |
| ConversationsActions.SavedConversationListed | lib/actions/conversations.actions.ts:9-199 | a conversation the corrected create saves appears in its owner's list for that project and tool |
| BulkSignup.ResultFor | app/api/auth/bulk-signup/route.ts:43-68 | one result per user, with the user's email, successful exactly when the sign-up succeeded, and with an error otherwise |
| BulkSignup.SignUpAll | app/api/auth/bulk-signup/route.ts:40-69 | the loop signs each user up in order and records one result each |
| BulkSignup.Summarize | app/api/auth/bulk-signup/route.ts:71-81 | the summary's total is the number of results, which it returns |
| BulkSignup.CountsAddUp | app/api/auth/bulk-signup/route.ts:72-79 | successful and failed add up to the total |
| BulkSignup.CredentialOf | app/api/auth/bulk-signup/route.ts:45-48 | a complete entry's email and password are the ones signed up |
| BulkSignup.Credentials | app/api/auth/bulk-signup/route.ts:43-48 | one credential per entry, in order |
| BulkSignup.FirstIncomplete | app/api/auth/bulk-signup/route.ts:29-36 | the first entry missing an email or a password, or none when all are complete |
| BulkSignup.Process | app/api/auth/bulk-signup/route.ts:38-81 | a 200 summary counting every user |
| BulkSignup.CheckEntries | app/api/auth/bulk-signup/route.ts:29-36 | the request passes exactly when every entry has a truthy email and password |
| BulkSignup.PostJson | app/api/auth/bulk-signup/route.ts:15-90 | an unreadable body answers 500; a non-array or empty one 400; a summary only for a non-empty array of complete entries, one result each |
| BulkSignup.IncompleteEntryRejects | app/api/auth/bulk-signup/route.ts:29-36 | one incomplete entry rejects the whole request; with all entries objects, it is the 400 naming the fields |
| BulkSignup.OneResultPerUser | app/api/auth/bulk-signup/route.ts:38-81 | for complete entries, one result per entry in order, successful exactly when its sign-up succeeded, and counts that add up |
| BulkSignup.ToEntry | app/api/auth/bulk-signup-csv/route.ts:48-51 | a record's `email` and `password` columns, absent when missing |
| BulkSignup.PostCsv | app/api/auth/bulk-signup-csv/route.ts:16-115 | a form that cannot be read gives 500 with its message; no file field or an empty text field 400; a non-empty text field 500, from reading `endsWith` of its undefined name; a file name not ending in ".csv" 400; a parse failure 500 with its details; a parsed row without a truthy email or password 400 with the column message; a summary comes only from an uploaded file and counts every parsed record |
| BulkSignup.EmptyUploadAccepted | app/api/auth/bulk-signup-csv/route.ts:42-106 | an empty CSV is accepted with an empty summary, where the JSON route answers 400 to an empty array |
| BulkSignup.RoutesAgree | app/api/auth/bulk-signup-csv/route.ts:48-106 | for non-empty complete records, the CSV route answers what the JSON route answers for the same entries |
| BulkSignup.CsvIncompleteRowRejects | app/api/auth/bulk-signup-csv/route.ts:53-61 | any parsed row without a truthy `email` or `password` rejects the whole upload with the column message, before any sign-up |
| Sidebar.InitialFramework | app/components/conversation/ConversationSidebar.tsx:21-23 | the initial framework is a framework's name or empty; empty without frameworks; non-empty when the first framework is named |
| Sidebar.InitialIsFirstDefault | app/components/conversation/ConversationSidebar.tsx:21-23 | with a named default framework, the first default one is chosen |
| Sidebar.SystemPrompt | app/components/conversation/ConversationSidebar.tsx:34-35 | never empty: a prompt of a framework with the selected name, or "You are a helpful assistant." |
| Sidebar.SystemPromptOfFirstMatch | app/components/conversation/ConversationSidebar.tsx:34-35 | the first framework with the selected name gives its prompt, or the default when its prompt is missing or empty |
| Sidebar.HandleGenerate | app/components/conversation/ConversationSidebar.tsx:29-52 | nothing is sent for a blank prompt or while generating; otherwise the prompt goes with the system prompt, and is cleared only when the generation resolves |
| ContentPanel.AiChats | app/components/conversation/ContentPanel.tsx:135 | the system chats, in order |
| ContentPanel.IsMarkdown | app/components/conversation/ContentPanel.tsx:147-151 | the trimmed text starts with ```` ```markdown ````, `` `markdown `` or `markdown` |
| ContentPanel.IsHtml | app/components/conversation/ContentPanel.tsx:39-42 | `/<\/?[a-z][\s\S]*>/i`: some `<`, optionally followed by `/`, is followed by a letter and later by a `>` |
| ContentPanel.PreProcess | app/components/conversation/ContentPanel.tsx:95-104 | every `$2` removed, then the break rewrite, then every `---` turned into a rule |
| ContentPanel.ShowStreaming | app/components/conversation/ContentPanel.tsx:138 | the streaming conversation is the active one and its text is not empty |
| ContentPanel.ShowPlaceholder | app/components/conversation/ContentPanel.tsx:141-144 | generating, for the active conversation, with no streaming text yet and no empty system chat |
| ContentPanel.AiChatsAreSystemChats | app/components/conversation/ContentPanel.tsx:134-135 | the panel lists exactly the system chats, in their order; listing distributes over concatenation and is idempotent |
| ContentPanel.CleanMarkdown | app/components/conversation/ContentPanel.tsx:153-164 | the cleaned text carries no surrounding white space, and text that is not markdown is only trimmed |
| ContentPanel.CleanFenced | app/components/conversation/ContentPanel.tsx:153-164 | a fenced block, indented or not, whose closing fence ends the text, is classed as markdown and reduced to its trimmed body |
| ContentPanel.FenceKeptUnlessAtEnd | app/components/conversation/ContentPanel.tsx:157 | a closing fence followed by anything, even white space alone, is not removed |
| ContentPanel.CleanBare | app/components/conversation/ContentPanel.tsx:160-161 | the bare marker at the very start is removed and the rest is trimmed |
| ContentPanel.BareMarkerKeptAfterSpace | app/components/conversation/ContentPanel.tsx:147-161 | after leading white space the bare marker makes the text markdown but is not removed, so the cleaned text still starts with it |
| ContentPanel.ScanHtml | app/components/conversation/ContentPanel.tsx:38-42 | a one-pass scan answers true exactly when some tag opening with a letter is followed later by a closing angle bracket |
| ContentPanel.Classify | app/components/conversation/ContentPanel.tsx:245-271 | the three rendering branches are exclusive and exhaustive: markdown first, then HTML, then plain text |
| ContentPanel.PreProcessPlain | app/components/conversation/ContentPanel.tsx:94-104 | text with no marker and no dash, which the break rewrite leaves alone, comes out unchanged |
| ContentPanel.PreProcessNotIdempotent | app/components/conversation/ContentPanel.tsx:97 | the single marker pass leaves a new marker in a text like `$$22`, which a second pre-processing removes |
| ContentPanel.Body | app/components/conversation/ContentPanel.tsx:245-299 | the markdown body carries no surrounding white space and the plain-text body has no line feed left |
| ContentPanel.Render | app/components/conversation/ContentPanel.tsx:134-330 | one card per system chat in order; the streaming text stands in exactly for an empty chat while the streamed conversation is active; dots exactly on empty chats while generating; placeholder and empty state as the two flags say |
| ContentPanel.CopyText | app/components/conversation/ContentPanel.tsx:106-121 | text that is neither HTML nor holds a dollar sign is copied unchanged |
| ContentPanel.CopyCanKeepMarker | app/components/conversation/ContentPanel.tsx:115-116 | copying `$$22` yields `$2`: one pass can leave a marker in the copied text |
| ContentPanel.MarkerPassLeavesMarker | app/components/conversation/ContentPanel.tsx:115-116 | removing markers from `$$22` leaves `$2` |
| ContentPanel.StreamingOrPlaceholder | app/components/conversation/ContentPanel.tsx:137-144 | streaming text and the placeholder never show together, and the streaming text only replaces an empty system chat of the active conversation |
| ContentPanel.EmptyChatSuppressesPlaceholder | app/components/conversation/ContentPanel.tsx:140-144 | any empty system chat rules out the placeholder |
| PanelWrapper.WithContent | app/components/conversation/ContentPanelWrapper.tsx:33-37 | the chats with the given id get the new content; every other chat is left as it was |
| PanelWrapper.Effect | app/components/conversation/ContentPanelWrapper.tsx:26-52 | without streaming text and a truthy streaming id the temporary chats are left as they are |
| PanelWrapper.EffectMirrorsStream | app/components/conversation/ContentPanelWrapper.tsx:26-52 | after the effect some system chat of the streaming conversation holds exactly the streaming text; with no chat of that conversation the list is replaced by one new chat |
| PanelWrapper.EffectKeepsShape | app/components/conversation/ContentPanelWrapper.tsx:26-52 | the temporary chats stay at most one, all system chats |
| PanelWrapper.AllChats | app/components/conversation/ContentPanelWrapper.tsx:54-57 | the temporary chats while a streaming id is set, the stored chats otherwise |
| PanelWrapper.Input | app/components/conversation/ContentPanelWrapper.tsx:59-70 | the active conversation is the streaming one, so streaming text shows exactly when there is some |
| PanelWrapper.StreamReachesPanel | app/components/conversation/ContentPanelWrapper.tsx:26-70 | while text streams, after the effect the panel holds a card showing exactly that text as a chat's own content |
| PanelWrapper.StoredChatsHidden | app/components/conversation/ContentPanelWrapper.tsx:54-57 | once a streaming id is set, the stored chats no longer affect what the panel receives |
| Relay.LineDelta | app/api/deepseek/route.ts:68-86 | the delta one upstream line carries: nothing for a blank line, a line without `data:`, the `[DONE]` marker, a payload that does not parse, or empty content |
| Relay.TransformChunk | app/api/deepseek/route.ts:61-92 | the frames the transform stage writes for one network chunk, split into lines on its own |
| Relay.RelayStream | app/api/deepseek/route.ts:101-119 | the frames written for a whole upstream body: each chunk through the transform stage, in order |
| Relay.PromptMissing | app/api/deepseek/route.ts:18-20 | the prompt is absent or falsy |
| Relay.UserContent | app/api/deepseek/route.ts:23-25 | the prompt, prefixed with `Project: ` and the stringified context and a blank line when the context is truthy |
| Relay.Compose | app/api/deepseek/route.ts:37-54 | the upstream request: model `deepseek-chat`, the system prompt, the user content, temperature 0.7, and whether the streaming branch is taken (lines 133-148 for the other branch) |
| Relay.Streams | app/api/deepseek/route.ts:9-31 | the default `true` only for a missing `stream` field, and JavaScript truthiness for any value present |
| Relay.Frames | app/api/deepseek/route.ts:82 | one frame per delta, in order, each the delta's normalised frame |
| Relay.FramesAppend | app/api/deepseek/route.ts:82 | framing works delta by delta: the frames of a concatenation are the concatenated frames |
| Relay.LineOutput | app/api/deepseek/route.ts:70-86 | a line contributes at most one delta, exactly when it carries one, and that delta is never empty |
| Relay.LinesDeltas | app/api/deepseek/route.ts:68-87 | no delta produced from a chunk's lines is empty |
| Relay.LinesDeltasAppend | app/api/deepseek/route.ts:70-87 | the lines are handled one by one: the deltas of concatenated lines are the concatenated deltas |
| Relay.StreamDeltas | app/api/deepseek/route.ts:63-92 | no delta of a whole upstream body is empty |
| Relay.RelayStreamFrames | app/api/deepseek/route.ts:63-92 | the relayed stream is exactly one frame per non-empty delta, in delta order |
| Relay.RelayStreamAppend | app/api/deepseek/route.ts:63-92 | no state passes between chunks: relaying a body is relaying its first part, then the rest |
| Relay.LaterLinesStillProcessed | app/api/deepseek/route.ts:68-87 | within a chunk, a line that yields nothing does not stop the lines after it |
| Relay.SingleLineChunk | app/api/deepseek/route.ts:68-86 | a chunk holding one line yields exactly the frame of that line's delta, or nothing |
| Relay.IgnoredLinesYieldNothing | app/api/deepseek/route.ts:68-86 | blank lines, lines without the data field, the done marker, unparseable payloads and empty deltas produce no output |
| Relay.DataLineYieldsOneFrame | app/api/deepseek/route.ts:72-83 | a data line whose payload gives a non-empty delta produces exactly one frame carrying it |
| Relay.SplitLineIsLost | app/api/deepseek/route.ts:63-68 | a data line split across two network chunks is lost, though it is relayed when it arrives whole |
| Relay.WholeLineRelayed | app/api/deepseek/route.ts:63-83 | the example data line, arriving whole with its newline, is relayed as one frame |
| Relay.DataLineRelayed | app/api/deepseek/route.ts:72-83 | the example data line yields the example frame |
| Relay.HalvesDropped | app/api/deepseek/route.ts:63-72 | the two halves of the example line, in separate chunks, yield nothing |
| Relay.HeadHalfDropped | app/api/deepseek/route.ts:72 | the first half lacks the data field and yields nothing |
| Relay.TailHalfDropped | app/api/deepseek/route.ts:68-72 | the second half lacks the data field and yields nothing |
| Relay.Post | app/api/deepseek/route.ts:4-163 | a body that fails to parse gives 500 with its message and a missing prompt 400, neither calling upstream; otherwise the upstream request carries the system prompt, the prompt with the project context prefix, and stream unless the `stream` field is present and falsy; then a failed fetch gives 500, a non-ok status that status with "API error", a missing body 500, a streaming body the frames of its deltas, and a whole answer its content |
| Relay.StreamUnlessFalsy | app/api/deepseek/route.ts:9-31 | only a missing `stream` field defaults to streaming; `null`, `false`, `0` and `""` get the whole answer and every other value the stream |
| Json.DecodeContent | app/context/ConversationProvider.tsx:96 | `JSON.parse(...).content` for the one-field document the relay writes, nothing otherwise |
| Json.HexRoundTrip | app/api/deepseek/route.ts:82 | every hexadecimal digit written by the encoder reads back as its value |
| Json.EscapeChar | app/api/deepseek/route.ts:82 | an escaped character is never empty and never holds a raw line feed |
| Json.EscapeString | app/api/deepseek/route.ts:82 | an escaped string never holds a raw line feed |
| Json.EncodeContent | app/api/deepseek/route.ts:82 | the encoded content object never holds a raw line feed, so a frame is one line |
| Json.CodeUnit | app/api/deepseek/route.ts:82 | four hexadecimal digits denote a single UTF-16 code unit |
| Json.Unescape | app/context/ConversationProvider.tsx:96 | a decoded escape consumes at least two characters and no more than are there |
| Json.EscapeCharDecodes | app/context/ConversationProvider.tsx:96 | reading an escaped character back gives that character and leaves the rest of the text |
| Json.EscapeStringDecodes | app/context/ConversationProvider.tsx:96 | reading an encoded string back gives the string and the text after its closing quote |
| Json.ContentRoundTrip | app/context/ConversationProvider.tsx:96 | the content object the relay writes parses back to its content |
| Consumer.PieceContent | app/context/ConversationProvider.tsx:94-98 | the content one frame contributes: only a `data: ` frame whose payload parses to a truthy `content` |
| Consumer.ChunkContents | app/context/ConversationProvider.tsx:89-118 | the contents one decoded chunk contributes, split on blank lines, in order |
| Consumer.Breaks | app/context/ConversationProvider.tsx:101-103 | blank lines become paragraph breaks, then other newlines `<br>` |
| Consumer.PiecesContents | app/context/ConversationProvider.tsx:93-118 | no contribution of a chunk's frames is empty |
| Consumer.PiecesContentsAppend | app/context/ConversationProvider.tsx:93-118 | frames are read one by one: the contents of concatenated frames are the concatenated contents |
| Consumer.StreamContents | app/context/ConversationProvider.tsx:84-120 | no contribution of a whole body is empty |
| Consumer.StreamContentsAppend | app/context/ConversationProvider.tsx:84-120 | chunks are read one by one, with no state carried between them |
| Consumer.AccumulatorOnlyGrows | app/context/ConversationProvider.tsx:81-98 | reading more of the body only extends the accumulated text |
| Consumer.Format | app/context/ConversationProvider.tsx:101-110 | the published text always starts with an opening angle bracket, ends with a closing one and holds no line feed |
| Consumer.BreaksIsScan | app/context/ConversationProvider.tsx:101-103 | the two replace passes agree with a one-pass scan turning newline pairs into paragraph breaks and single newlines into line breaks |
| Consumer.FormatPlain | app/context/ConversationProvider.tsx:101-110 | text with no newline and no angle bracket at either edge is wrapped in exactly one paragraph |
| Consumer.PiecesStep | app/context/ConversationProvider.tsx:93-118 | reading one more frame appends exactly its content, if any |
| Consumer.StreamStep | app/context/ConversationProvider.tsx:84-119 | reading one more chunk appends exactly the contents of its frames |
| Consumer.ReadChunk | app/context/ConversationProvider.tsx:88-119 | the accumulator grows by exactly the contents of the chunk's frames, and the published text is the formatted accumulator, or unchanged when nothing contributed |
| Consumer.ReadPiece | app/context/ConversationProvider.tsx:94-113 | one frame appends its content, if any, and republishes the formatted accumulator |
| Consumer.ReadLoop | app/context/ConversationProvider.tsx:81-120 | after the loop the accumulator is all contents of the body in order, and the published text is its formatting, or empty when nothing contributed |
| Consumer.Catch | app/context/ConversationProvider.tsx:127-136 | an abort leaves the content alone; any other error shows its message, or the fallback message when it is empty |
| Consumer.Generate | app/context/ConversationProvider.tsx:36-140 | a running generation or a blank prompt does nothing; otherwise the relay is asked to stream, a fresh streaming id is set and kept, generating ends false, and the content is the error text, empty, or the formatted contents as the reply dictates |
| Pipeline.DecoderDecodesFrames | app/context/ConversationProvider.tsx:96 | the concrete JSON decoder reads back every frame payload the relay writes |
| Pipeline.FramesSlices | app/api/deepseek/route.ts:82 | framing commutes with taking a prefix or a suffix of the deltas |
| Pipeline.FrameReadsBack | app/context/ConversationProvider.tsx:94-98 | the consumer reads back the content of each frame the relay writes |
| Pipeline.FramesJoined | app/api/deepseek/route.ts:82 | the frames joined form the first frame followed by the rest |
| Pipeline.PieceHasNoNewline | app/api/deepseek/route.ts:82 | a frame holds no newline before its blank-line terminator |
| Pipeline.SplitPieceOff | app/context/ConversationProvider.tsx:91 | a frame followed by the separator splits off as one piece |
| Pipeline.FirstFrameSplits | app/context/ConversationProvider.tsx:91 | splitting joined frames gives the first frame's text before the remaining pieces |
| Pipeline.ChunkOfFrames | app/context/ConversationProvider.tsx:88-118 | a chunk made of whole frames yields exactly the deltas, in order |
| Pipeline.RegroupedFrames | app/context/ConversationProvider.tsx:84-120 | however whole frames are grouped into network chunks, the consumer reads exactly the deltas |
| Pipeline.FirstGroup | app/api/deepseek/route.ts:102-119 | the first group of frames is the frames of the first deltas and the rest frames the remaining ones |
| Pipeline.RelayThenConsume | app/context/ConversationProvider.tsx:81-120 | when the relay's frames reach the browser whole, the accumulated text is the concatenation of all upstream deltas |
| Pipeline.GenerationShowsRelayedText | app/context/ConversationProvider.tsx:36-140 | a successful generation over the relay shows the formatted concatenation of the upstream deltas |
| Pipeline.ConsumerNeedsSpace | app/context/ConversationProvider.tsx:94 | the relay accepts a data field without a space, but the consumer drops such a frame |
| Pipeline.BrokenFrameIsLost | app/context/ConversationProvider.tsx:88-96 | a frame split across two network chunks is lost by the consumer |
| Pipeline.HeadOfBrokenFrame | app/context/ConversationProvider.tsx:94-96 | the first part of a broken frame contributes nothing |
| Pipeline.TailOfBrokenFrame | app/context/ConversationProvider.tsx:94 | the second part of a broken frame contributes nothing |
| Pagination.Window | app/components/Pagination.tsx:46-55 | the middle pages: two either side of the current page, widened near the start and the end |
| Pagination.Gap | app/components/Pagination.tsx:58-70 | one ellipsis entry when pages are skipped, none otherwise |
| Pagination.Layout | app/components/Pagination.tsx:43-74 | page 1, an optional ellipsis, the window, an optional ellipsis, the last page |
| Pagination.PageNumbers | app/components/Pagination.tsx:33-77 | every page up to ten pages, otherwise the layout of the window with an ellipsis on each side that skips pages |
| Pagination.Range | app/components/Pagination.tsx:39-41 | the pages from the first bound to the second, one apart, and none when the bounds are reversed |
| Pagination.LayoutIndex | app/components/Pagination.tsx:43-73 | where page 1, each ellipsis, the window and the last page sit in the list |
| Pagination.PushRange | app/components/Pagination.tsx:63-65 | pushing a range appends exactly those pages, in order |
| Pagination.GetPageNumbers | app/components/Pagination.tsx:33-77 | the push-by-push construction yields the layout: all pages up to ten, otherwise page 1, the window with ellipses where pages are skipped, and the last page |
| Pagination.FewPagesAllListed | app/components/Pagination.tsx:37-41 | up to ten pages the list is exactly 1 to the total |
| Pagination.WindowInside | app/components/Pagination.tsx:46-55 | past ten pages the window is never empty and lies strictly between the first and the last page |
| Pagination.ManyPagesShape | app/components/Pagination.tsx:42-73 | past ten pages the list starts at page 1, ends at the last page and holds the window in between |
| Pagination.EllipsisAfterFirst | app/components/Pagination.tsx:57-60 | an ellipsis follows page 1 exactly when the window starts past page 2 |
| Pagination.EllipsisBeforeLast | app/components/Pagination.tsx:67-70 | an ellipsis precedes the last page exactly when the window ends before the page before it |
| Pagination.PagesIncreasing | app/components/Pagination.tsx:33-77 | apart from the ellipses the entries are pages in range, strictly increasing, and an ellipsis is only second or second to last |
| Pagination.CurrentPageListed | app/components/Pagination.tsx:33-77 | a current page in range is always listed |
| Pagination.AtMostElevenEntries | app/components/Pagination.tsx:33-77 | the list never holds more than eleven entries |
| Pagination.NearEndHoldsEleven | app/components/Pagination.tsx:50-55 | near the last page the list holds eleven entries, ellipsis included; near the first it holds ten |
| Pagination.LayoutButtons | app/components/Pagination.tsx:60-77 | the ellipses are not buttons: a layout shows its window and the first and last pages as buttons |
| Pagination.NearEndTenButtons | app/components/Pagination.tsx:99-104 | near the last page exactly ten page buttons show, beside one ellipsis; near the first page nine |
| Pagination.Render | app/components/Pagination.tsx:79-123 | nothing at most one page; otherwise Prev is enabled exactly off page 1, Next exactly off the last page, and the list is the page numbers |
| Pagination.ButtonsStayInRange | app/components/Pagination.tsx:89-123 | from a page in range, an enabled Prev or Next leads to a page in range |
| Routes.Profile | constants/routes.ts:7 | the profile path is the profile prefix followed by the id |
| Routes.Project | constants/routes.ts:8 | the project path is the projects prefix followed by the id |
| Routes.Tool | constants/routes.ts:9 | a tool path lies under its project's path, followed by the tool segment |
| Routes.Conversation | constants/routes.ts:10 | a conversation path lies under its tool's path, followed by the conversation segment |
| Routes.ProfileInjective | constants/routes.ts:7 | different ids give different profile paths |
| Routes.ProjectInjective | constants/routes.ts:8 | different ids give different project paths |
| Routes.ToolInjective | constants/routes.ts:9 | for project ids without a slash, a tool path names exactly one project and one tool |
| Routes.ConversationIsTool | constants/routes.ts:9-10 | a conversation path is the tool path whose slug runs on into the conversation |
| Routes.ConversationInjective | constants/routes.ts:10 | for slash-free project ids and tool slugs, a conversation path names exactly one project, tool and conversation |
| Routes.ToolNeedsSlashFreeIds | constants/routes.ts:9 | with a slash in the project id, two different tools share one path |
| Routes.NavLinksDistinct | constants/routes.ts:13-17 | the navigation lists the three fixed pages in order, each once |
| NavLinks.IsActive | app/components/navigation/NavLinks.tsx:24-26 | the path contains the route and the route is longer than "/", or the path is the route |
| NavLinks.Item | app/components/navigation/NavLinks.tsx:23-31 | a link other than the profile link is shown as it is; the profile link is dropped without a truthy user id and otherwise pointed at that user's profile and rewritten in place; activity is judged on the route before the rewrite |
| NavLinks.Render | app/components/navigation/NavLinks.tsx:23-65 | every link is rendered as its own item, in order |
| NavLinks.HomeActiveOnlyAtRoot | app/components/navigation/NavLinks.tsx:24-26 | the root link is active exactly on the root |
| NavLinks.ActiveIffContains | app/components/navigation/NavLinks.tsx:24-26 | any longer route is active exactly where the path contains it |
| NavLinks.AdsActiveUnderOtherPaths | app/components/navigation/NavLinks.tsx:24-26 | the ads link is active on any path that merely contains "/ads" |
| NavLinks.ShippedLinksRender | constants/index.ts:10-24 | the shipped links all render, unchanged, in order, with their activity |
| NavLinks.ProfileRewriteSticks | app/components/navigation/NavLinks.tsx:28-31 | once the profile link is rewritten, later renders, for another user or none, still link to the first user's profile |
| UserAvatar.Head | app/components/UserAvatar.tsx:27 | the first character of a word, nothing for an empty word |
| UserAvatar.Heads | app/components/UserAvatar.tsx:26-28 | the first characters of the words joined, never longer than the word list |
| UserAvatar.WordStarts | app/components/UserAvatar.tsx:25-30 | the word starts are characters of the name, none of them a space |
| UserAvatar.Take2 | app/components/UserAvatar.tsx:30 | the first two characters, or all when fewer |
| UserAvatar.Initials | app/components/UserAvatar.tsx:25-30 | at most two characters, none for an empty name |
| UserAvatar.HeadsOfSplit | app/components/UserAvatar.tsx:25-28 | splitting on spaces and taking first characters picks exactly the characters that start a word |
| UserAvatar.InitialsAreWordStarts | app/components/UserAvatar.tsx:25-30 | the initials are the first two upper-cased word starts |
| UserAvatar.InitialsUpperCased | app/components/UserAvatar.tsx:25-30 | each initial is the upper-case form of the matching word start |
| UserAvatar.SpacesHaveNoStarts | app/components/UserAvatar.tsx:25-28 | spaces alone have no word starts |
| UserAvatar.BlankNameHasNoInitials | app/components/UserAvatar.tsx:25-30 | a name of spaces only has no initials |
| UserAvatar.WordHasOneStart | app/components/UserAvatar.tsx:25-28 | a word without spaces starts only at its first character |
| UserAvatar.WordThenRest | app/components/UserAvatar.tsx:25-28 | a word followed by a space contributes its first character before the rest's word starts |
| UserAvatar.WordStartsAppend | app/components/UserAvatar.tsx:25-28 | word starts of a concatenation are those of the first part then those of the second, judged after its last character |
| UserAvatar.TwoWords | app/components/UserAvatar.tsx:25-30 | two words give their two upper-cased first characters |
| UserAvatar.Avatar | app/components/UserAvatar.tsx:34-51 | the image exactly when the URL is truthy, otherwise the fallback with the initials |
| TranscriptUi.Mount | app/components/ads/VideoTranscriptUI.tsx:14-18 | on mount the given transcript is kept, nothing loads, no error shows and the panel is closed |
| TranscriptUi.Label | app/components/ads/VideoTranscriptUI.tsx:118-122 | "Processing..." exactly while loading; otherwise hide or show by the open flag when there is a transcript, and the generate label without one |
| TranscriptUi.Render | app/components/ads/VideoTranscriptUI.tsx:114-122 | nothing unless the ad is a video, otherwise the button with its label |
| TranscriptUi.Toggle | app/components/ads/VideoTranscriptUI.tsx:109-112 | flips the open flag and nothing else |
| TranscriptUi.StartFetch | app/components/ads/VideoTranscriptUI.tsx:50-51 | loading starts and the error is cleared, nothing else changes |
| TranscriptUi.FinishFetch | app/components/ads/VideoTranscriptUI.tsx:54-70 | loading ends; a throw sets the fixed message, an error reply sets its error, and any other reply stores its text and opens the panel |
| TranscriptUi.GetTranscript | app/components/ads/VideoTranscriptUI.tsx:43-71 | with a transcript it toggles and does not fetch; without one it fetches and settles on the outcome |
| TranscriptUi.Click | app/components/ads/VideoTranscriptUI.tsx:127-129 | a click while loading is ignored, otherwise it acts as handleGetTranscript |
| TranscriptUi.MouseDown | app/components/ads/VideoTranscriptUI.tsx:30-41 | a mouse-down outside closes the panel and changes nothing else; one inside changes nothing |
| TranscriptUi.TranscriptClickOnlyToggles | app/components/ads/VideoTranscriptUI.tsx:43-48 | with a transcript a click never fetches and only flips the panel, whatever the call would return |
| TranscriptUi.ToggleTwice | app/components/ads/VideoTranscriptUI.tsx:43-48 | two clicks with a transcript give back the starting state |
| TranscriptUi.FailedFetchKeepsGenerate | app/components/ads/VideoTranscriptUI.tsx:54-68 | an error reply or a throw leaves the transcript unset, sets an error and keeps the generate label |
| TranscriptUi.FetchedTextOpens | app/components/ads/VideoTranscriptUI.tsx:60-64 | a reply with text stores it, opens the panel and shows the hide label |
| TranscriptUi.EmptyReplyFetchesAgain | app/components/ads/VideoTranscriptUI.tsx:60-64 | a reply with neither error nor text opens the panel but leaves no transcript, so the next click fetches again |
| TranscriptUi.MountLabel | app/components/ads/VideoTranscriptUI.tsx:14-20 | from mount the label is show with a truthy transcript and generate otherwise |

## Left out

- Network, database and authentication I/O. Each is an outcome passed in. Database and transport errors appear only where the source states how the handler reacts to them.
- Logging, `console` output and the logging effects of the components. They change no state.
- Styling, class names and markup. `NavLinks` drops `isMobileNav` and `className`.
- The markup regular expressions of the content panel (headings, emphasis, lists, `enhanceHtmlStyling`, `sanitizeHtmlForCopy`, the break-run rewrite). They are parameters (`collapse`, `sanitize`), and only the text each branch receives is modelled.
- Upstream line parsing (`JSON.parse(data).choices[0]?.delta?.content`) and the consumer's `JSON.parse(...).content`. Both are functions passed in. The concrete `Json.DecodeContent` is proved to be a valid consumer parser.
- Byte decoding (`TextDecoder`). Chunks are modelled as already-decoded strings, so a multi-byte character split across chunks is not modelled.
- Server-side ordering (`order('name')`, `created_at` ordering). It is left to the database; results keep the order they are given in.
- `app/lib/url.ts` is not part of this model. Query strings are maps and URLs are not formatted.
- A `NaN` page number from `Number(page)`. Pages are integers.
- A `user_id` that is undefined. Such a user matches no rows.
- The `signUp` call is a stateless function passed in, so an earlier sign-up in the same batch cannot change a later one's outcome.
- `handleDeleteTag`, `handleUpdateTagColor`, `calculateEditMenuPosition` and the `[tags]` synchronisation effect of the tag editor. They are thin wrappers over the modelled store and actions, plus DOM geometry.
- Popup coordinates of the editor. They are integers, not floating point.
- `getConversation` and `getToolIdFromSlug`. They are single-row lookups with no logic beyond the query.
- `forceDeleteTagWithCascade` is modelled only through the check it shares with the plain delete (`ForceDeleteCheckPasses`). The cascading deletes are left to the database.
- `isProcessing` in the filter group is set and cleared within one handler, so the model treats each click as one step.
- The transcript panel's click-outside test (`ref.contains(event.target)`) is reduced to an `inside` flag.
- The duplicate route table in `app/lib/constants/routes.ts`. Nothing in the modelled core imports it.
- Concurrency between overlapping requests, timers (`setTimeout` for the copied mark and for focusing) and the abort controller's signal. An abort appears only as an error named `AbortError`.
- Pipeline.RegroupedFrames assumes network chunks break only between whole frames. What happens otherwise is stated separately by `Pipeline.BrokenFrameIsLost`.
- ContentPanel.CopyText states the copy text exactly only for text with neither HTML nor a `$`. Otherwise it depends on the sanitising expressions, which are not modelled.
- TagEditor.FilteredTags and TagEditor.ShowCreateIff: `toLowerCase` is modelled as ASCII case mapping, so letters outside ASCII are compared as they are, and strings are sequences of whole characters rather than UTF-16 code units.
- UserAvatar.InitialsAreWordStarts, UserAvatar.InitialsUpperCased and UserAvatar.TwoWords: `toUpperCase` is modelled as ASCII case mapping on one character, so an initial such as "ß" (which JavaScript turns into "SS") stays one character, and `word[0]` is a whole character rather than a UTF-16 code unit.
- Patterns.ILike: letters compare after ASCII lower-casing, not PostgreSQL's collation-aware `ilike`, and the error PostgreSQL raises for a pattern ending in a lone `\` is not modelled; such a `\` matches itself.
- TagActions.CreateKeepsValid and TagActions.UpdateCheckedKeepsValid: they are about the corrected duplicate check (equality up to case). The check as written is an `ilike` pattern, and `TagActions.PlainCreateKeepsValid` and `TagActions.PlainUpdateKeepsValid` state validity for it only for names without `%`, `_`, `*` or `\`; the other names are the subject of the `ilike` findings below.
- TagActions.UpdateTag: the updates are narrowed from `Partial<Tag>` to a name and a color, the fields the only caller sends (app/store/tagStore.ts:119). An update that also sets `id`, `user_id`, `created_at` or `updated_at` (app/types/global.d.ts:51-57) is not modelled.
- TagActions.UpdateTouchesOnlyOwnedRow: it relies on the same narrowing; an update carrying an `id` or `user_id` could change those fields in the source.
- The ad search's `ilike` filters (app/lib/actions/ads.actions.ts:40). The search text is carried in the query as data and matching is left to the database.

## Findings

| source | as written | input that shows it | evidently intended | confidence | as-written member | corrected member |
|---|---|---|---|---|---|---|
| app/lib/actions/tags.actions.ts:196 | the duplicate-name check runs only when the new name is truthy, so an update to the empty name skips it | user `u` owns tags named "" and "b"; renaming "b" to "" succeeds and leaves two tags named alike | every rename, including to the empty name, is checked against the user's other tags | not executed | TagActions.EmptyNameSkipsCheck | TagActions.UpdateCheckedKeepsValid |
| lib/actions/conversations.actions.ts:180 | `revalidatePath` names `toolSlug`, which `createConversationWithMessages` never declares; the build ignores type errors (next-config.js:5), so the call throws after all three inserts and the action answers with a failure | any request whose three inserts succeed | the revalidated path is built from declared values and the action answers with the saved rows | not executed | ConversationsActions.AsWrittenReportsFailureAfterSaving | ConversationsActions.InsertsInOrder |
| app/components/ads/AdTagEditor.tsx:162-165 | the effect that resets the highlight depends on `filteredTags`, a new array on every render, so it runs after every render | pressing ArrowDown with two options: the move is undone by the re-render it causes | the highlight resets only when the options change | not executed | TagEditor.ArrowMoveIsReset | TagEditor.ArrowMoveSticks |
| app/lib/actions/tags.actions.ts:153-158 | the create's duplicate check is `ilike` with the trimmed name as the pattern, so `%`, `_`, `*` and `\` act as wildcards and escape, and `maybeSingle` errors when the pattern finds two tags | a user with a tag "abc" creating "a_c" is told the name exists; with two tags, creating "%" fails with a row-count error; with a tag "a\b", creating "a\b" again succeeds | the name is compared with the user's tag names for equality up to case | not executed | TagActions.UnderscoreNameRefused, TagActions.PercentNameRefused, TagActions.UnmatchedNameTwice | TagActions.CreateKeepsValid |
| app/lib/actions/tags.actions.ts:200-206 | the update's duplicate check is the same `ilike` pattern match | a user with tags "a\b" and "x" renaming "x" to "a\b": the pattern does not match its own name, the check passes and two tags carry the name | the new name is compared with the user's other tag names for equality up to case | not executed | TagActions.UnmatchedRenameTwice | TagActions.UpdateCheckedKeepsValid |
| lib/actions/conversations.actions.ts:40 | `if (!conversations)` tests the query's response object, which is always truthy, so a failed query answers success with `conversations.data ?? []` | the conversations query fails: the action answers `{ success: true }` with no conversations | a failed query answers with a failure | not executed | ConversationsActions.FailedListLooksEmpty | ConversationsActions.GetConversationsChecked |

=== FILE: ads.dfy ===
/**
 * `getAds`: one page of the user's ads with their tags, and whether a next
 * page exists. The query sent to the database is modelled as data; its
 * reply (rows, exact count, error) or the exception it throws is a
 * parameter.
 */
module AdsActions {
  import opened Wrappers
  import opened Entities
  import opened Paging

  /** An ad row as the join returns it: `ad_tags` holds the joined tag of each link, and may be missing. */
  datatype Row = Row(id: string, userId: string, adType: string, createdAt: string, adTags: Option<seq<Tag>>)

  /** An ad as the action returns it, with its tags flattened. */
  datatype Ad = Ad(id: string, userId: string, adType: string, createdAt: string, tags: seq<Tag>)

  /** The ordering asked for: none, or by creation time. */
  datatype Order = Unordered | ByCreation(ascending: bool)

  /**
   * The query: the owner, the row span, the text searched in the ad text
   * and advertiser name, the ad type required, and the ordering.
   */
  datatype Query = Query(userId: string, span: Span, search: Option<string>, adType: Option<string>, order: Order)

  datatype Params = Params(page: Option<int>, pageSize: Option<int>, query: Option<string>, filter: Option<string>)

  /** The `switch (filter)`: the ad type required and the ordering. */
  function FilterClause(filter: Option<string>): (r: (Option<string>, Order))
    ensures filter == Some("video") ==> r == (Some("video"), Unordered)
    ensures filter == Some("image") ==> r == (Some("image"), Unordered)
    ensures filter == Some("oldest") ==> r == (None, ByCreation(true))
    ensures filter !in {Some("video"), Some("image"), Some("oldest")} ==> r == (None, ByCreation(false))
  {
    if filter == Some("video") then (Some("video"), Unordered)
    else if filter == Some("image") then (Some("image"), Unordered)
    else if filter == Some("oldest") then (None, ByCreation(true))
    else (None, ByCreation(false))
  }

  /** A type filter never orders, and every ordering is by creation time, newest first unless "oldest". */
  lemma TypeFilterOrOrder(filter: Option<string>)
    ensures FilterClause(filter).0.Some? <==> FilterClause(filter).1.Unordered?
    ensures FilterClause(filter).0.Some? ==> filter == FilterClause(filter).0
    ensures FilterClause(filter).1 == ByCreation(true) <==> filter == Some("oldest")
  {
  }

  /** The query `getAds` sends: the user's rows in the requested span, searched when the query is truthy. */
  function BuildQuery(params: Params, userId: string): (q: Query)
    ensures q.userId == userId && q.span == Requested(params.page, params.pageSize)
    ensures q.search.Some? <==> params.query.Some? && params.query.value != ""
    ensures q.search.Some? ==> q.search == params.query
    ensures (q.adType, q.order) == FilterClause(params.filter)
  {
    var (adType, order) := FilterClause(params.filter);
    var search := if params.query.Some? && params.query.value != "" then params.query else None;
    Query(userId, Requested(params.page, params.pageSize), search, adType, order)
  }

  /** `{ ...ad, tags: ad.ad_tags?.map(link => link.tags) ?? [] }`. */
  function Flatten(row: Row): (a: Ad)
    ensures a.id == row.id && a.userId == row.userId && a.adType == row.adType && a.createdAt == row.createdAt
    ensures row.adTags.None? ==> a.tags == []
    ensures row.adTags.Some? ==> a.tags == row.adTags.value
  {
    Ad(row.id, row.userId, row.adType, row.createdAt, row.adTags.GetOr([]))
  }

  /** The database's reply: the rows (None for `null`), the exact count, and the error message if any. */
  datatype Reply = Reply(data: Option<seq<Row>>, count: Option<int>, error: Option<string>)

  datatype Response = Success(ads: seq<Ad>, isNext: bool) | Failure(message: string, status: int)

  const GenericMessage: string := "Something went wrong"

  /** `getAds`, given the database's reply or the message of the exception thrown while querying. */
  function GetAds(params: Params, reply: Result<Reply, string>): (r: Response)
    ensures reply.Ok? && reply.value.error.Some? ==> r == Failure(reply.value.error.value, 500)
    ensures reply.Err? ==> r == Failure(if reply.error == "" then GenericMessage else reply.error, 500)
    ensures r.Failure? ==> r.status == 500
    ensures r.Success? ==> reply.Ok? && reply.value.error.None?
    ensures r.Success? ==> var rows := reply.value.data.GetOr([]);
              |r.ads| == |rows| && forall i :: 0 <= i < |rows| ==> r.ads[i] == Flatten(rows[i])
    ensures r.Success? ==> (r.isNext <==> reply.value.count.GetOr(0) > Skip(params.page, params.pageSize) + |r.ads|)
  {
    match reply
    case Err(message) => Failure(if message == "" then GenericMessage else message, 500)
    case Ok(Reply(data, count, error)) =>
      if error.Some? then Failure(error.value, 500)
      else
        var rows := data.GetOr([]);
        var ads := seq(|rows|, i requires 0 <= i < |rows| => Flatten(rows[i]));
        Success(ads, count.GetOr(0) > Skip(params.page, params.pageSize) + |ads|)
  }

  /**
   * When the reply holds the rows of the requested span of a table of
   * `total` rows, with the exact count, a next page is reported exactly when
   * the next page's span starts inside the table.
   */
  lemma IsNextWhenRowsRemain(params: Params, total: int, rows: seq<Row>)
    requires params.pageSize.GetOr(DefaultPageSize) > 0
    requires 0 <= Skip(params.page, params.pageSize) <= total
    requires var skip := Skip(params.page, params.pageSize);
             var size := params.pageSize.GetOr(DefaultPageSize);
             |rows| == (if total - skip < size then total - skip else size)
    ensures var next := Requested(Some(params.page.GetOr(DefaultPage) + 1), params.pageSize);
            GetAds(params, Ok(Reply(Some(rows), Some(total), None))).isNext <==> next.from < total
  {
    PagesAdjoin(params.page.GetOr(DefaultPage), params.pageSize.GetOr(DefaultPageSize));
  }
}

=== FILE: avatar.dfy ===
/**
 * The user avatar: the image when there is an image URL, otherwise a
 * fallback showing the name's initials.
 */
module UserAvatar {
  import opened Wrappers
  import opened Text

  /** `word[0]` as `join` sees it: an empty word has no first character and adds nothing. */
  function Head(word: string): (r: string)
    ensures |r| <= 1
    ensures |r| == 1 <==> |word| > 0
    ensures |r| == 1 ==> r[0] == word[0]
  {
    if |word| == 0 then "" else [word[0]]
  }

  /** `words.map(w => w[0]).join("")`. */
  function Heads(words: seq<string>): (r: string)
    ensures |r| <= |words|
  {
    if |words| == 0 then "" else Head(words[0]) + Heads(words[1..])
  }

  /**
   * The characters of `s` that start a word, reading left to right:
   * a character other than a space that comes first (when `atStart`) or
   * right after a space.
   */
  function WordStarts(s: string, atStart: bool): (r: string)
    ensures |r| <= |s|
    ensures forall k :: 0 <= k < |r| ==> r[k] != ' ' && r[k] in s
    decreases |s|
  {
    if |s| == 0 then ""
    else (if atStart && s[0] != ' ' then [s[0]] else "") + WordStarts(s[1..], s[0] == ' ')
  }

  /** The first two characters, or all of them when there are fewer. */
  function Take2(s: string): (r: string)
    ensures |r| == if |s| < 2 then |s| else 2
    ensures r <= s
  {
    if |s| < 2 then s else s[..2]
  }

  /** `initials`: split on single spaces, first characters joined, upper-cased, cut to two. */
  function Initials(name: string): (r: string)
    ensures |r| <= 2
    ensures name == "" ==> r == ""
  {
    Take2(Upper(Heads(Split(name, " "))))
  }

  /**
   * Splitting on spaces and taking the first character of each piece
   * picks out exactly the characters that start a word; `cur` is the
   * piece read so far.
   */
  lemma {:induction false} HeadsOfSplit(s: string, cur: string)
    ensures Heads(SplitFrom(s, " ", cur)) == Head(cur) + WordStarts(s, |cur| == 0)
    decreases |s|
  {
    if |s| == 0 {
    } else if " " <= s {
      assert s[0] == ' ';
      HeadsOfSplit(s[1..], "");
      assert SplitFrom(s, " ", cur) == [cur] + SplitFrom(s[1..], " ", "");
      assert ([cur] + SplitFrom(s[1..], " ", ""))[1..] == SplitFrom(s[1..], " ", "");
    } else {
      assert s[0] != ' ';
      HeadsOfSplit(s[1..], cur + [s[0]]);
      assert Head(cur + [s[0]]) == (if |cur| == 0 then [s[0]] else Head(cur));
    }
  }

  /** The initials are the upper-cased word starts of the name, at most two of them. */
  lemma InitialsAreWordStarts(name: string)
    ensures Initials(name) == Take2(Upper(WordStarts(name, true)))
  {
    HeadsOfSplit(name, "");
  }

  /** The k-th initial is the upper-case form of the k-th character that starts a word. */
  lemma InitialsUpperCased(name: string)
    ensures var starts := WordStarts(name, true);
            |Initials(name)| <= |starts|
            && forall k :: 0 <= k < |Initials(name)| ==> Initials(name)[k] == UpperChar(starts[k])
  {
    InitialsAreWordStarts(name);
    var upper := Upper(WordStarts(name, true));
    assert Initials(name) <= upper;
  }

  /** Spaces alone, however many, give no initials. */
  lemma {:induction false} SpacesHaveNoStarts(s: string, atStart: bool)
    requires forall k :: 0 <= k < |s| ==> s[k] == ' '
    ensures WordStarts(s, atStart) == ""
    decreases |s|
  {
    if |s| > 0 {
      SpacesHaveNoStarts(s[1..], true);
    }
  }

  lemma BlankNameHasNoInitials(name: string)
    requires forall k :: 0 <= k < |name| ==> name[k] == ' '
    ensures Initials(name) == ""
  {
    InitialsAreWordStarts(name);
    SpacesHaveNoStarts(name, true);
  }

  /** A word without spaces starts only at its first character. */
  lemma {:induction false} WordHasOneStart(w: string)
    requires |w| > 0 && forall k :: 0 <= k < |w| ==> w[k] != ' '
    ensures WordStarts(w, true) == [w[0]]
    ensures WordStarts(w, false) == ""
    decreases |w|
  {
    if |w| > 1 {
      WordHasOneStart(w[1..]);
    }
  }

  /** Word starts of a word followed by a space and more text. */
  lemma WordThenRest(w: string, rest: string)
    requires |w| > 0 && forall k :: 0 <= k < |w| ==> w[k] != ' '
    ensures WordStarts(w + " " + rest, true) == [w[0]] + WordStarts(rest, true)
  {
    var tail := " " + rest;
    assert w + " " + rest == w + tail;
    WordStartsAppend(w, tail, true);
    WordHasOneStart(w);
    assert tail[0] == ' ' && tail[1..] == rest;
    assert WordStarts(tail, false) == WordStarts(rest, true);
  }

  lemma {:induction false} WordStartsAppend(a: string, b: string, atStart: bool)
    requires |a| > 0
    ensures WordStarts(a + b, atStart) == WordStarts(a, atStart) + WordStarts(b, a[|a| - 1] == ' ')
    decreases |a|
  {
    assert (a + b)[0] == a[0];
    assert (a + b)[1..] == a[1..] + b;
    if |a| > 1 {
      WordStartsAppend(a[1..], b, a[0] == ' ');
    } else {
      assert a[1..] == [];
      assert a[1..] + b == b;
    }
  }

  /** "ada lovelace" gives "AL": two words, two upper-cased initials. */
  lemma TwoWords(first: string, last: string)
    requires |first| > 0 && forall k :: 0 <= k < |first| ==> first[k] != ' '
    requires |last| > 0 && forall k :: 0 <= k < |last| ==> last[k] != ' '
    ensures Initials(first + " " + last) == [UpperChar(first[0]), UpperChar(last[0])]
  {
    InitialsAreWordStarts(first + " " + last);
    WordThenRest(first, last);
    WordHasOneStart(last);
  }

  /** What the avatar shows. */
  datatype Face = Image(src: string) | Fallback(initials: string)

  /** The image for a truthy URL, the initials otherwise. */
  function Avatar(name: string, imageUrl: Option<string>): (r: Face)
    ensures r.Fallback? <==> !Truthy(imageUrl)
    ensures r.Image? ==> Some(r.src) == imageUrl
    ensures r.Fallback? ==> r.initials == Initials(name)
  {
    if Truthy(imageUrl) then Image(imageUrl.value) else Fallback(Initials(name))
  }
}

=== FILE: bulk.dfy ===
/**
 * The two bulk sign-up routes: one takes a JSON array of credentials, the
 * other a CSV upload. Both check every entry before signing anyone up,
 * then sign the users up one by one, record one result per user and
 * report the counts. `signUp` stands for the auth service's call, read as
 * the outcome it gives for an email and password; the CSV parser is a
 * function from the file's text to its records or the message it throws.
 */
module BulkSignup {
  import opened Wrappers
  import opened Text
  import opened Seqs

  /** An entry as received: either field may be missing; a `null` entry has no fields at all. */
  datatype Entry = Fields(email: Option<string>, password: Option<string>) | NullEntry

  /** Credentials that passed the check. */
  datatype Credential = Credential(email: string, password: string)

  /** What `signUp` does: succeed, report an error, or throw (an `Error` with its message, or something else). */
  datatype SignUpOutcome = SignedUp | Reported(message: string) | Threw(error: Option<string>)

  datatype SignupResult = SignupResult(success: bool, email: string, error: Option<string>)

  datatype Body =
    | ErrorBody(error: string, details: Option<string>)
    | Summary(total: int, successful: int, failed: int, results: seq<SignupResult>)

  datatype Response = Response(status: int, body: Body)

  const UnknownError: string := "Unknown error"
  const InternalError: string := "Internal server error"
  const NeedArray: string := "Request body must be a non-empty array of users with email and password"
  const NeedFields: string := "Each user must have an email and password"
  const NoFile: string := "No CSV file uploaded. Please upload a file with the key \"file\"."
  const NotCsv: string := "Uploaded file must be a CSV file."
  const NeedColumns: string :=
    "CSV must have \"email\" and \"password\" columns, and all rows must have values for these columns."

  /** `!user.email || !user.password` is false: both fields are there and non-empty. */
  predicate Complete(e: Entry) {
    e.Fields? && e.email.Some? && e.email.value != "" && e.password.Some? && e.password.value != ""
  }

  /** The result recorded for one user. */
  function ResultFor(c: Credential, outcome: SignUpOutcome): (r: SignupResult)
    ensures r.email == c.email
    ensures r.success <==> outcome.SignedUp?
    ensures !r.success ==> r.error.Some?
  {
    match outcome
    case SignedUp => SignupResult(true, c.email, None)
    case Reported(m) => SignupResult(false, c.email, Some(m))
    case Threw(e) => SignupResult(false, c.email, Some(e.GetOr(UnknownError)))
  }

  /** The sign-up loop: every user is tried in order, whatever happened to the ones before. */
  method SignUpAll(users: seq<Credential>, signUp: (string, string) -> SignUpOutcome)
    returns (results: seq<SignupResult>)
    ensures |results| == |users|
    ensures forall i :: 0 <= i < |users| ==> results[i] == ResultFor(users[i], signUp(users[i].email, users[i].password))
    ensures Response(200, Summarize(results)) == Process(users, signUp)
  {
    results := [];
    var i := 0;
    while i < |users|
      invariant 0 <= i <= |users| && |results| == i
      invariant forall k :: 0 <= k < i ==> results[k] == ResultFor(users[k], signUp(users[k].email, users[k].password))
    {
      var outcome := signUp(users[i].email, users[i].password);
      results := results + [ResultFor(users[i], outcome)];
      i := i + 1;
    }
    assert results == seq(|users|, i requires 0 <= i < |users| =>
                            ResultFor(users[i], signUp(users[i].email, users[i].password)));
  }

  predicate Succeeded(r: SignupResult) { r.success }
  predicate FailedResult(r: SignupResult) { !r.success }

  /** The summary: the total, the two counts, and the results. */
  function Summarize(results: seq<SignupResult>): (b: Body)
    ensures b.Summary? && b.total == |results| && b.results == results
  {
    Summary(|results|, |Filter(results, Succeeded)|, |Filter(results, FailedResult)|, results)
  }

  /** Every result is counted once: the successes and the failures add up to the total. */
  lemma {:induction false} CountsAddUp(results: seq<SignupResult>)
    ensures var b := Summarize(results); b.successful + b.failed == b.total
  {
    if |results| > 0 {
      CountsAddUp(results[1..]);
    }
  }

  /** The credentials of a complete entry. */
  function CredentialOf(e: Entry): (c: Credential)
    requires Complete(e)
    ensures c.email == e.email.value && c.password == e.password.value
  {
    Credential(e.email.value, e.password.value)
  }

  /** The credentials of entries known to be complete. */
  function Credentials(entries: seq<Entry>): (r: seq<Credential>)
    requires forall i :: 0 <= i < |entries| ==> Complete(entries[i])
    ensures |r| == |entries|
    ensures forall i :: 0 <= i < |entries| ==> r[i] == CredentialOf(entries[i])
  {
    seq(|entries|, i requires 0 <= i < |entries| && Complete(entries[i]) => CredentialOf(entries[i]))
  }

  /** The first entry that is not complete, if any. */
  function FirstIncomplete(entries: seq<Entry>): (r: Option<nat>)
    ensures r.None? <==> forall i :: 0 <= i < |entries| ==> Complete(entries[i])
    ensures r.Some? ==> r.value < |entries| && !Complete(entries[r.value])
                        && forall i :: 0 <= i < r.value ==> Complete(entries[i])
  {
    if |entries| == 0 then None
    else if !Complete(entries[0]) then Some(0)
    else match FirstIncomplete(entries[1..])
         case None => None
         case Some(k) => Some(k + 1)
  }

  /**
   * The sign-ups and the summary once every entry is complete, as a
   * function: one `signUp` outcome per user, in order.
   */
  function Process(users: seq<Credential>, signUp: (string, string) -> SignUpOutcome): (r: Response)
    ensures r.status == 200 && r.body.Summary? && r.body.total == |users|
  {
    var results := seq(|users|, i requires 0 <= i < |users| => ResultFor(users[i], signUp(users[i].email, users[i].password)));
    Response(200, Summarize(results))
  }

  /**
   * The check of the entries, in order: a `null` entry throws when its
   * field is read, which the route answers with a 500; an incomplete one
   * gets the route's 400 message.
   */
  function CheckEntries(entries: seq<Entry>, message: string): (r: Option<Response>)
    ensures r.None? <==> forall i :: 0 <= i < |entries| ==> Complete(entries[i])
  {
    match FirstIncomplete(entries)
    case None => None
    case Some(k) =>
      if entries[k].NullEntry? then Some(Response(500, ErrorBody(InternalError, None)))
      else Some(Response(400, ErrorBody(message, None)))
  }

  /** The JSON body: not an array, or an array of entries. */
  datatype Json = NotArray | Array(entries: seq<Entry>)

  /**
   * The JSON route. `body` is the parsed request body, or the message
   * `request.json()` threw.
   */
  function PostJson(body: Result<Json, string>, signUp: (string, string) -> SignUpOutcome): (r: Response)
    ensures body.Err? ==> r == Response(500, ErrorBody(InternalError, None))
    ensures body.Ok? && (body.value.NotArray? || |body.value.entries| == 0) ==>
              r == Response(400, ErrorBody(NeedArray, None))
    ensures r.body.Summary? ==>
              body.Ok? && body.value.Array? && |body.value.entries| > 0
              && (forall i :: 0 <= i < |body.value.entries| ==> Complete(body.value.entries[i]))
              && r.body.total == |body.value.entries|
  {
    match body
    case Err(_) => Response(500, ErrorBody(InternalError, None))
    case Ok(NotArray) => Response(400, ErrorBody(NeedArray, None))
    case Ok(Array(entries)) =>
      if |entries| == 0 then Response(400, ErrorBody(NeedArray, None))
      else match CheckEntries(entries, NeedFields)
           case Some(rejection) => rejection
           case None => Process(Credentials(entries), signUp)
  }

  /** An incomplete entry anywhere rejects the whole request with a 400 or 500, before any sign-up. */
  lemma IncompleteEntryRejects(entries: seq<Entry>, k: int, signUp: (string, string) -> SignUpOutcome)
    requires 0 <= k < |entries| && !Complete(entries[k])
    ensures var r := PostJson(Ok(Array(entries)), signUp);
            r.body.ErrorBody? && (r.status == 400 || r.status == 500)
    ensures var r := PostJson(Ok(Array(entries)), signUp);
            (forall i :: 0 <= i < |entries| ==> entries[i].Fields?) ==> r == Response(400, ErrorBody(NeedFields, None))
  {
  }

  /**
   * One result per user, in input order, with that user's email; a failed
   * sign-up does not stop the ones after it.
   */
  lemma OneResultPerUser(entries: seq<Entry>, signUp: (string, string) -> SignUpOutcome)
    requires |entries| > 0 && forall i :: 0 <= i < |entries| ==> Complete(entries[i])
    ensures var r := PostJson(Ok(Array(entries)), signUp);
            r.status == 200 && r.body.Summary? && |r.body.results| == |entries|
            && r.body.successful + r.body.failed == r.body.total
            && forall i :: 0 <= i < |entries| ==>
                 r.body.results[i].email == entries[i].email.value
                 && (r.body.results[i].success <==> signUp(entries[i].email.value, entries[i].password.value).SignedUp?)
  {
    var users := Credentials(entries);
    var results := seq(|users|, i requires 0 <= i < |users| => ResultFor(users[i], signUp(users[i].email, users[i].password)));
    CountsAddUp(results);
    assert PostJson(Ok(Array(entries)), signUp) == Response(200, Summarize(results));
    forall i | 0 <= i < |entries|
      ensures results[i].email == entries[i].email.value
      ensures results[i].success <==> signUp(entries[i].email.value, entries[i].password.value).SignedUp?
    {
      assert users[i] == CredentialOf(entries[i]);
      assert results[i] == ResultFor(users[i], signUp(users[i].email, users[i].password));
    }
  }

  /** An uploaded file: its name and its text. */
  datatype File = File(name: string, content: string)

  /** A parsed CSV row: its columns by header name. */
  type Record = map<string, string>

  /** Only the `email` and `password` columns are kept; other columns are dropped. */
  function ToEntry(record: Record): (e: Entry)
    ensures e.Fields?
    ensures e.email == (if "email" in record then Some(record["email"]) else None)
    ensures e.password == (if "password" in record then Some(record["password"]) else None)
  {
    Fields(if "email" in record then Some(record["email"]) else None,
           if "password" in record then Some(record["password"]) else None)
  }

  /**
   * The form's `file` field as `formData.get('file')` gives it: missing, a
   * plain text value, or an uploaded file.
   */
  datatype FormField = Missing | TextValue(text: string) | Upload(file: File)

  /**
   * What reading `.endsWith` of the undefined `name` of a text field throws
   * (V8's message).
   */
  const NameUndefined: string := "Cannot read properties of undefined (reading 'endsWith')"

  /**
   * The CSV route. `form` is the form's `file` field, or the message
   * `request.formData()` threw; `parse` gives the file's records or the
   * message the parser threw.
   */
  function PostCsv(form: Result<FormField, string>, parse: string -> Result<seq<Record>, string>,
                   signUp: (string, string) -> SignUpOutcome): (r: Response)
    ensures form.Err? ==> r == Response(500, ErrorBody(InternalError, Some(form.error)))
    ensures form == Ok(Missing) || form == Ok(TextValue("")) ==> r == Response(400, ErrorBody(NoFile, None))
    ensures form.Ok? && form.value.TextValue? && form.value.text != "" ==>
              r == Response(500, ErrorBody(InternalError, Some(NameUndefined)))
    ensures form.Ok? && form.value.Upload? && !EndsWith(form.value.file.name, ".csv") ==>
              r == Response(400, ErrorBody(NotCsv, None))
    ensures form.Ok? && form.value.Upload? && EndsWith(form.value.file.name, ".csv")
            && parse(form.value.file.content).Err? ==>
              r == Response(500, ErrorBody(InternalError, Some(parse(form.value.file.content).error)))
    ensures form.Ok? && form.value.Upload? && EndsWith(form.value.file.name, ".csv")
            && parse(form.value.file.content).Ok?
            && (exists k :: 0 <= k < |parse(form.value.file.content).value|
                             && !Complete(ToEntry(parse(form.value.file.content).value[k]))) ==>
              r == Response(400, ErrorBody(NeedColumns, None))
    ensures r.body.Summary? ==>
              form.Ok? && form.value.Upload? && parse(form.value.file.content).Ok?
              && r.body.total == |parse(form.value.file.content).value|
  {
    match form
    case Err(m) => Response(500, ErrorBody(InternalError, Some(m)))
    case Ok(Missing) => Response(400, ErrorBody(NoFile, None))
    case Ok(TextValue(t)) =>
      if t == "" then Response(400, ErrorBody(NoFile, None))
      else Response(500, ErrorBody(InternalError, Some(NameUndefined)))
    case Ok(Upload(f)) =>
      if !EndsWith(f.name, ".csv") then Response(400, ErrorBody(NotCsv, None))
      else match parse(f.content)
           case Err(m) => Response(500, ErrorBody(InternalError, Some(m)))
           case Ok(records) =>
             var entries := seq(|records|, i requires 0 <= i < |records| => ToEntry(records[i]));
             assert forall k :: 0 <= k < |records| ==> entries[k] == ToEntry(records[k]);
             match CheckEntries(entries, NeedColumns)
             case Some(rejection) => rejection
             case None => Process(Credentials(entries), signUp)
  }

  /** A CSV with no rows is accepted and reports zero sign-ups, where the JSON route rejects an empty array. */
  lemma EmptyUploadAccepted(name: string, content: string, signUp: (string, string) -> SignUpOutcome)
    requires EndsWith(name, ".csv")
    ensures var parse := (s: string) => Ok([]);
            PostCsv(Ok(Upload(File(name, content))), parse, signUp) == Response(200, Summary(0, 0, 0, []))
    ensures PostJson(Ok(Array([])), signUp).status == 400
  {
  }

  /**
   * A non-empty CSV upload of complete rows gets the same answer as the JSON
   * route given the same credentials.
   */
  lemma RoutesAgree(name: string, content: string, records: seq<Record>, signUp: (string, string) -> SignUpOutcome)
    requires EndsWith(name, ".csv") && |records| > 0
    requires forall i :: 0 <= i < |records| ==> Complete(ToEntry(records[i]))
    ensures var parse := (s: string) => Ok(records);
            var entries := seq(|records|, i requires 0 <= i < |records| => ToEntry(records[i]));
            PostCsv(Ok(Upload(File(name, content))), parse, signUp) == PostJson(Ok(Array(entries)), signUp)
  {
  }

  /**
   * A parsed row without a truthy `email` or `password` rejects the whole
   * upload with the column message, before any sign-up.
   */
  lemma CsvIncompleteRowRejects(name: string, content: string, records: seq<Record>, k: int,
                                signUp: (string, string) -> SignUpOutcome)
    requires EndsWith(name, ".csv")
    requires 0 <= k < |records| && !Complete(ToEntry(records[k]))
    ensures var parse := (s: string) => Ok(records);
            PostCsv(Ok(Upload(File(name, content))), parse, signUp) == Response(400, ErrorBody(NeedColumns, None))
  {
    var entries := seq(|records|, i requires 0 <= i < |records| => ToEntry(records[i]));
    assert !Complete(entries[k]);
    match FirstIncomplete(entries)
    case Some(j) => assert entries[j].Fields?;
  }
}

=== FILE: consumer.dfy ===
/**
 * The browser side of a generation (`generateContent` of the conversation
 * provider): the start guard, the request it posts to the relay, the loop that
 * splits each received chunk into frames, accumulates their contents and
 * publishes a formatted copy, and the state left after every way the
 * generation can end.
 */
module Consumer {
  import opened Wrappers
  import opened Text
  import Seqs

  /** The field prefix a frame must start with; note the space after the colon. */
  const DataPrefix: string := "data: "
  const FrameSeparator: string := "\n\n"
  const FallbackMessage: string := "Failed to generate content"

  /**
   * The content one frame contributes: None unless it starts with `data: `,
   * its payload parses, and the parsed `content` is truthy (non-empty).
   * `parse` stands for `JSON.parse(payload).content`, None when that throws
   * or yields no string.
   */
  function PieceContent(piece: string, parse: string -> Option<string>): Option<string> {
    if DataPrefix <= piece then
      match parse(piece[|DataPrefix|..])
      case Some(c) => if c == "" then None else Some(c)
      case None => None
    else None
  }

  /** The contents of a sequence of frames, in order. */
  function PiecesContents(pieces: seq<string>, parse: string -> Option<string>): (r: seq<string>)
    ensures forall i :: 0 <= i < |r| ==> r[i] != ""
  {
    if |pieces| == 0 then []
    else
      (match PieceContent(pieces[0], parse) case Some(c) => [c] case None => [])
      + PiecesContents(pieces[1..], parse)
  }

  lemma {:induction false} PiecesContentsAppend(a: seq<string>, b: seq<string>, parse: string -> Option<string>)
    ensures PiecesContents(a + b, parse) == PiecesContents(a, parse) + PiecesContents(b, parse)
  {
    if |a| > 0 {
      assert (a + b)[0] == a[0];
      assert (a + b)[1..] == a[1..] + b;
      PiecesContentsAppend(a[1..], b, parse);
    } else {
      assert a + b == b;
    }
  }

  /** The contents one decoded chunk contributes, split on blank lines. */
  function ChunkContents(text: string, parse: string -> Option<string>): seq<string> {
    PiecesContents(Split(text, FrameSeparator), parse)
  }

  /** The contents of a whole response body, chunk by chunk. */
  function StreamContents(chunks: seq<string>, parse: string -> Option<string>): (r: seq<string>)
    ensures forall i :: 0 <= i < |r| ==> r[i] != ""
  {
    if |chunks| == 0 then [] else ChunkContents(chunks[0], parse) + StreamContents(chunks[1..], parse)
  }

  lemma {:induction false} StreamContentsAppend(a: seq<string>, b: seq<string>, parse: string -> Option<string>)
    ensures StreamContents(a + b, parse) == StreamContents(a, parse) + StreamContents(b, parse)
  {
    if |a| > 0 {
      assert (a + b)[0] == a[0];
      assert (a + b)[1..] == a[1..] + b;
      StreamContentsAppend(a[1..], b, parse);
    } else {
      assert a + b == b;
    }
  }

  /**
   * Reading more of the body only extends the accumulated text: what was
   * accumulated after the first chunks is a prefix of what is accumulated
   * after more.
   */
  lemma AccumulatorOnlyGrows(a: seq<string>, b: seq<string>, parse: string -> Option<string>)
    ensures Concat(StreamContents(a, parse)) <= Concat(StreamContents(a + b, parse))
  {
    StreamContentsAppend(a, b, parse);
    ConcatAppend(StreamContents(a, parse), StreamContents(b, parse));
  }

  /** The line-break pass: blank lines become paragraph breaks, other newlines `<br>`. */
  function Breaks(s: string): string {
    ReplaceAll(ReplaceAll(s, "\n\n", "</p><p>"), "\n", "<br>")
  }

  /**
   * The published rendering of the accumulated text: line breaks as HTML,
   * wrapped in a paragraph unless it already starts with `<` or ends with `>`.
   */
  function Format(acc: string): (r: string)
    ensures |r| > 0 && r[0] == '<' && r[|r| - 1] == '>'
    ensures '\n' !in r
  {
    var t := Breaks(acc);
    ReplaceAllRemoves(ReplaceAll(acc, "\n\n", "</p><p>"), '\n', "<br>");
    var wrapped := if |t| > 0 && t[0] == '<' then t else "<p>" + t;
    if EndsWith(wrapped, ">") then wrapped else wrapped + "</p>"
  }

  /**
   * The same line-break rendering in one left-to-right scan: a pair of
   * newlines is a paragraph break, a single newline a `<br>`.
   */
  function BreaksScan(s: string): (r: string)
    decreases |s|
  {
    if |s| == 0 then ""
    else if "\n\n" <= s then "</p><p>" + BreaksScan(s[2..])
    else if s[0] == '\n' then "<br>" + BreaksScan(s[1..])
    else [s[0]] + BreaksScan(s[1..])
  }

  /** The two `replace` passes agree with the one-pass scan on every text. */
  lemma {:induction false} BreaksIsScan(s: string)
    ensures Breaks(s) == BreaksScan(s)
    decreases |s|
  {
    if |s| > 0 {
      var inner := ReplaceAll(s, "\n\n", "</p><p>");
      if "\n\n" <= s {
        var tail := ReplaceAll(s[2..], "\n\n", "</p><p>");
        assert inner == "</p><p>" + tail;
        ReplaceAllAppendAbsent("</p><p>", tail, "\n", "<br>");
        BreaksIsScan(s[2..]);
      } else {
        var tail := ReplaceAll(s[1..], "\n\n", "</p><p>");
        assert inner == [s[0]] + tail;
        BreaksIsScan(s[1..]);
        if s[0] == '\n' {
          assert "\n" <= inner;
          assert inner[1..] == tail;
        } else {
          assert inner[0] == s[0];
          assert !("\n" <= inner);
          assert inner[1..] == tail;
        }
      }
    }
  }

  /** Text without newlines and without an edge `<` or `>` is wrapped in one paragraph. */
  lemma FormatPlain(s: string)
    requires '\n' !in s
    requires |s| > 0 && s[0] != '<' && s[|s| - 1] != '>'
    ensures Format(s) == "<p>" + s + "</p>"
  {
    ReplaceAllAbsent(s, "\n\n", "</p><p>");
    ReplaceAllAbsent(s, "\n", "<br>");
    assert Breaks(s) == s;
    assert ("<p>" + s)[|"<p>" + s| - 1] == s[|s| - 1];
  }

  /**
   * What is on display for an accumulated text: the formatted text, or ""
   * (the value set when the generation started) before anything contributed.
   */
  function Published(acc: string): string {
    Display(acc, Format)
  }

  /** The display for an accumulated text under a given formatter. */
  function Display(acc: string, format: string -> string): string {
    if acc == "" then "" else format(acc)
  }

  function ContentText(c: Option<string>): string {
    match c case Some(t) => t case None => ""
  }

  lemma PiecesStep(pieces: seq<string>, j: nat, parse: string -> Option<string>)
    requires j < |pieces|
    ensures Concat(PiecesContents(pieces[..j + 1], parse))
         == Concat(PiecesContents(pieces[..j], parse)) + ContentText(PieceContent(pieces[j], parse))
  {
    assert pieces[..j + 1] == pieces[..j] + [pieces[j]];
    PiecesContentsAppend(pieces[..j], [pieces[j]], parse);
    ConcatAppend(PiecesContents(pieces[..j], parse), PiecesContents([pieces[j]], parse));
    assert [pieces[j]][1..] == [];
  }

  lemma StreamStep(chunks: seq<string>, i: nat, parse: string -> Option<string>)
    requires i < |chunks|
    ensures Concat(StreamContents(chunks[..i + 1], parse))
         == Concat(StreamContents(chunks[..i], parse)) + Concat(PiecesContents(Split(chunks[i], FrameSeparator), parse))
  {
    assert chunks[..i + 1] == chunks[..i] + [chunks[i]];
    StreamContentsAppend(chunks[..i], [chunks[i]], parse);
    ConcatAppend(StreamContents(chunks[..i], parse), StreamContents([chunks[i]], parse));
    assert [chunks[i]][1..] == [];
    assert StreamContents([chunks[i]], parse) == ChunkContents(chunks[i], parse) + [];
    assert ChunkContents(chunks[i], parse) + [] == ChunkContents(chunks[i], parse);
  }

  /**
   * The inner loop of the source for one decoded chunk: it is split into
   * frames, each contributing frame's content is appended to the accumulator,
   * and the formatted accumulator is published after each contribution.
   */
  method ReadChunk(acc0: string, shown0: string, text: string,
                   parse: string -> Option<string>, format: string -> string)
    returns (acc: string, shown: string)
    requires shown0 == Display(acc0, format)
    ensures acc == acc0 + Concat(ChunkContents(text, parse))
    ensures shown == Display(acc, format)
  {
    var pieces := Split(text, FrameSeparator);
    acc, shown := acc0, shown0;
    var j := 0;
    while j < |pieces|
      invariant 0 <= j <= |pieces|
      invariant acc == acc0 + Concat(PiecesContents(pieces[..j], parse))
      invariant shown == Display(acc, format)
    {
      PiecesStep(pieces, j, parse);
      ghost var read := Concat(PiecesContents(pieces[..j], parse));
      ghost var c := ContentText(PieceContent(pieces[j], parse));
      acc, shown := ReadPiece(acc, shown, pieces[j], parse, format);
      Seqs.AppendAssoc(acc0, read, c);
      j := j + 1;
    }
    assert pieces[..j] == pieces;
  }

  /** The body of the inner loop for one frame. */
  method ReadPiece(acc0: string, shown0: string, piece: string,
                   parse: string -> Option<string>, format: string -> string)
    returns (acc: string, shown: string)
    requires shown0 == Display(acc0, format)
    ensures acc == acc0 + ContentText(PieceContent(piece, parse))
    ensures shown == Display(acc, format)
  {
    acc, shown := acc0, shown0;
    var c := ContentText(PieceContent(piece, parse));
    if c != "" {
      acc := acc + c;
      shown := format(acc);
    } else {
      assert acc0 + c == acc0;
    }
  }

  /**
   * The read loop of the source over the whole body, publishing
   * `format(acc)` after each contribution (the source's formatter is
   * `Format`). `shown` is what is published last, "" (the value set when the
   * generation started) when nothing contributed.
   */
  method ReadLoop(chunks: seq<string>, parse: string -> Option<string>, format: string -> string)
    returns (acc: string, shown: string)
    ensures acc == Concat(StreamContents(chunks, parse))
    ensures shown == Display(acc, format)
  {
    acc := "";
    shown := "";
    var i := 0;
    while i < |chunks|
      invariant 0 <= i <= |chunks|
      invariant acc == Concat(StreamContents(chunks[..i], parse))
      invariant shown == Display(acc, format)
    {
      StreamStep(chunks, i, parse);
      acc, shown := ReadChunk(acc, shown, chunks[i], parse, format);
      i := i + 1;
    }
    assert chunks[..i] == chunks;
  }

  /** What the provider exposes to the components. */
  datatype Session = Session(isGenerating: bool, streamingContent: string, streamingId: Option<string>)

  /** A thrown JavaScript error: its `name` and `message`. */
  datatype JsError = JsError(name: string, message: string)

  /** The body the provider posts to the relay. */
  datatype GenerateRequest = GenerateRequest(
    prompt: string, systemPrompt: string, projectContext: string, stream: bool)

  /**
   * What `fetch` does: it rejects, or answers with a status, the decoded body
   * chunks (None without a body) and an optional error thrown by a later read.
   */
  datatype FetchReply =
    | Rejected(err: JsError)
    | Answered(status: int, body: Option<seq<string>>, failure: Option<JsError>)

  /** The session after the generation and the request posted, if any. */
  datatype Run = Run(session: Session, sent: Option<GenerateRequest>)

  function ErrorHtml(message: string): string {
    "<p>Error: " + (if message == "" then FallbackMessage else message) + "</p>"
  }

  /** The catch block: an abort leaves the content alone, anything else shows the error. */
  function Catch(s: Session, e: JsError): (r: Session)
    ensures r.isGenerating == s.isGenerating && r.streamingId == s.streamingId
    ensures e.name == "AbortError" ==> r == s
    ensures e.name != "AbortError" ==> r.streamingContent == ErrorHtml(e.message)
  {
    if e.name == "AbortError" then s else s.(streamingContent := ErrorHtml(e.message))
  }

  /** What the body's chunks leave published: "" when nothing contributed. */
  function Shown(chunks: seq<string>, parse: string -> Option<string>): string {
    Published(Concat(StreamContents(chunks, parse)))
  }

  /**
   * One call of `generateContent`. `freshId` is the id `crypto.randomUUID`
   * would return, `fetch` the relay and `parse` the frame parser.
   */
  function Generate(s: Session, prompt: string, systemPrompt: string, projectContext: string,
                    freshId: string, fetch: GenerateRequest -> FetchReply,
                    parse: string -> Option<string>): (r: Run)
    ensures s.isGenerating || Trim(prompt) == "" ==> r == Run(s, None)
    ensures !s.isGenerating && Trim(prompt) != "" ==>
              && r.sent == Some(GenerateRequest(prompt, systemPrompt, projectContext, true))
              && !r.session.isGenerating
              && r.session.streamingId == Some(freshId)
    ensures !s.isGenerating && Trim(prompt) != "" ==>
              match fetch(r.sent.value)
              case Rejected(e) =>
                r.session.streamingContent == (if e.name == "AbortError" then "" else ErrorHtml(e.message))
              case Answered(status, body, failure) =>
                if !(200 <= status <= 299) then
                  r.session.streamingContent == ErrorHtml("API error: " + IntToString(status))
                else if body.None? then r.session.streamingContent == ""
                else if failure.Some? && failure.value.name != "AbortError" then
                  r.session.streamingContent == ErrorHtml(failure.value.message)
                else r.session.streamingContent == Shown(body.value, parse)
  {
    if s.isGenerating || Trim(prompt) == "" then Run(s, None)
    else
      var req := GenerateRequest(prompt, systemPrompt, projectContext, true);
      var started := Session(true, "", Some(freshId));
      var ended :=
        match fetch(req)
        case Rejected(e) => Catch(started, e)
        case Answered(status, body, failure) =>
          if !(200 <= status <= 299) then Catch(started, JsError("Error", "API error: " + IntToString(status)))
          else
            match body
            case None => started
            case Some(chunks) =>
              var read := started.(streamingContent := Shown(chunks, parse));
              match failure
              case None => read
              case Some(e) => Catch(read, e);
      Run(ended.(isGenerating := false), Some(req))
  }
}

=== FILE: conversations.dfy ===
/**
 * Saving a generated conversation: the conversation row, then the user's
 * prompt and the generated reply as chat rows, each insert stopping the
 * sequence when it fails. Also the owner-scoped conversation list of a
 * project's tool. The current user and each insert's error are parameters;
 * the new conversation's id is the one the database assigns.
 */
module ConversationsActions {
  import opened Wrappers
  import opened Seqs
  import opened Entities

  datatype Conversation = Conversation(id: string, projectId: string, toolId: string, userId: string,
                                       title: string, framework: string)

  /** A chat row as inserted: its conversation, role, content and owner. */
  datatype ChatRow = ChatRow(conversationId: string, role: string, content: string, userId: string)

  datatype Insert = ConversationInsert(conversation: Conversation) | ChatInsert(chat: ChatRow)

  datatype Request = Request(projectId: string, toolId: string, framework: string, title: string,
                             userPrompt: string, systemResponse: string)

  /** The error each insert reports, if any: the conversation, the user chat, the system chat. */
  datatype Errors = Errors(conversation: Option<string>, userChat: Option<string>, systemChat: Option<string>)

  datatype Outcome = Saved(conversation: Conversation, userChat: ChatRow, systemChat: ChatRow) | Failed(error: string)

  const NotAuthenticated: string := "User not authenticated"
  const DefaultTitle: string := "New Conversation"
  const InternalError: string := "Internal server error"

  /** The conversation row inserted first: empty title and framework fall back to their defaults. */
  function NewConversation(req: Request, user: string, newId: string): (c: Conversation)
    ensures c.title == (if req.title == "" then DefaultTitle else req.title) && c.title != ""
    ensures c.framework == req.framework && c.userId == user && c.id == newId
    ensures c.projectId == req.projectId && c.toolId == req.toolId
  {
    Conversation(newId, req.projectId, req.toolId, user, if req.title == "" then DefaultTitle else req.title,
                 req.framework)
  }

  /**
   * The insert sequence, ending in the path revalidation. `revalidates`
   * says whether that last step completes; when it throws, the catch
   * answers with the generic message while the rows stay written.
   * The result pairs the answer with the rows written, in order.
   */
  function Run(req: Request, user: Option<string>, newId: string, errors: Errors, revalidates: bool): (r: (Outcome, seq<Insert>))
    ensures user.None? ==> r == (Failed(NotAuthenticated), [])
    ensures user.Some? && errors.conversation.Some? ==> r == (Failed(errors.conversation.value), [])
  {
    if user.None? then (Failed(NotAuthenticated), [])
    else
      var conversation := NewConversation(req, user.value, newId);
      if errors.conversation.Some? then (Failed(errors.conversation.value), [])
      else
        var written := [ConversationInsert(conversation)];
        var userChat := ChatRow(conversation.id, UserRole, req.userPrompt, user.value);
        if errors.userChat.Some? then (Failed(errors.userChat.value), written)
        else
          var written' := written + [ChatInsert(userChat)];
          var systemChat := ChatRow(conversation.id, SystemRole, req.systemResponse, user.value);
          if errors.systemChat.Some? then (Failed(errors.systemChat.value), written')
          else
            var all := written' + [ChatInsert(systemChat)];
            if revalidates then (Saved(conversation, userChat, systemChat), all)
            else (Failed(InternalError), all)
  }

  /**
   * `createConversationWithMessages` as written: the revalidated path names
   * `toolSlug`, which this function never declares, so that step throws a
   * `ReferenceError` every time it is reached.
   */
  function CreateAsWritten(req: Request, user: Option<string>, newId: string, errors: Errors): (r: (Outcome, seq<Insert>))
    ensures r.0.Failed?
  {
    Run(req, user, newId, errors, false)
  }

  /**
   * As written, a save whose three inserts all succeed still answers
   * "Internal server error", with the three rows left in the tables.
   */
  lemma AsWrittenReportsFailureAfterSaving(req: Request, user: string, newId: string)
    ensures var (outcome, written) := CreateAsWritten(req, Some(user), newId, Errors(None, None, None));
            outcome == Failed(InternalError) && |written| == 3
  {
  }

  /** `createConversationWithMessages` with the revalidated path built from declared values. */
  function CreateConversation(req: Request, user: Option<string>, newId: string, errors: Errors): (r: (Outcome, seq<Insert>))
    ensures r.0.Saved? <==> user.Some? && errors == Errors(None, None, None)
  {
    Run(req, user, newId, errors, true)
  }

  /**
   * The inserts run in order (conversation, user chat, system chat), the
   * first failing one answers with its message, nothing after it is
   * written, and both chats belong to the new conversation and the user.
   */
  lemma InsertsInOrder(req: Request, user: string, newId: string, errors: Errors)
    ensures var (outcome, written) := CreateConversation(req, Some(user), newId, errors);
            var conversation := NewConversation(req, user, newId);
            var userChat := ChatRow(newId, UserRole, req.userPrompt, user);
            var systemChat := ChatRow(newId, SystemRole, req.systemResponse, user);
            var full := [ConversationInsert(conversation), ChatInsert(userChat), ChatInsert(systemChat)];
            (errors.conversation.Some? ==> outcome == Failed(errors.conversation.value) && written == [])
            && (errors.conversation.None? && errors.userChat.Some? ==>
                  outcome == Failed(errors.userChat.value) && written == full[..1])
            && (errors.conversation.None? && errors.userChat.None? && errors.systemChat.Some? ==>
                  outcome == Failed(errors.systemChat.value) && written == full[..2])
            && (errors == Errors(None, None, None) ==>
                  outcome == Saved(conversation, userChat, systemChat) && written == full)
  {
  }

  /** The corrected save and the one as written differ only in the answer to a save that went through. */
  lemma SameRowsEitherWay(req: Request, user: Option<string>, newId: string, errors: Errors)
    ensures CreateAsWritten(req, user, newId, errors).1 == CreateConversation(req, user, newId, errors).1
    ensures CreateConversation(req, user, newId, errors).0.Failed? ==>
              CreateAsWritten(req, user, newId, errors).0 == CreateConversation(req, user, newId, errors).0
  {
  }

  /** A stored conversation, with its creation time. */
  datatype Stored = Stored(conversation: Conversation, createdAt: int)

  datatype Tool = Tool(id: string, slug: string)

  const ToolNotFound: string := "Tool not found"

  /** `tools[i]` is the one tool whose slug is `slug`. */
  predicate OnlyWithSlug(tools: seq<Tool>, slug: string, i: int) {
    OnlyAt(tools, (t: Tool) => t.slug == slug, i)
  }

  lemma SlugFilterOne(tools: seq<Tool>, slug: string)
    ensures |Filter(tools, (t: Tool) => t.slug == slug)| == 1 <==> exists i :: OnlyWithSlug(tools, slug, i)
    ensures forall i :: OnlyWithSlug(tools, slug, i) ==> Filter(tools, (t: Tool) => t.slug == slug) == [tools[i]]
  {
    var f := (t: Tool) => t.slug == slug;
    FilterOne(tools, f);
    if |Filter(tools, f)| == 1 {
      var i :| OnlyAt(tools, f, i);
      assert OnlyWithSlug(tools, slug, i);
    }
  }

  /** The tool with that slug, when exactly one has it (`.single()`). */
  function ToolBySlug(tools: seq<Tool>, slug: string): (r: Option<Tool>)
    ensures r.Some? ==> r.value in tools && r.value.slug == slug
    ensures r.Some? <==> exists i :: OnlyWithSlug(tools, slug, i)
    ensures forall i :: OnlyWithSlug(tools, slug, i) ==> r == Some(tools[i])
  {
    var hits := Filter(tools, (t: Tool) => t.slug == slug);
    SlugFilterOne(tools, slug);
    if |hits| == 1 then Some(hits[0]) else None
  }

  /** The row belongs to the user, the project and the tool. */
  predicate InScope(user: Option<string>, projectId: string, toolId: string, s: Stored) {
    user.Some? && s.conversation.userId == user.value
    && s.conversation.projectId == projectId && s.conversation.toolId == toolId
  }

  const ConversationsNotFound: string := "Conversations not found"

  /**
   * `getConversations` as written. `toolFailed` and `listFailed` say whether
   * the tool query and the conversations query failed. A failed tool query
   * leaves `tool` null: "Tool not found", as when no single tool has the
   * slug. A failed conversations query still yields a response object, which
   * is truthy, so the `!conversations` check never fires and the missing
   * `data` reads as the empty list. The ordering by creation time is left to
   * the database.
   */
  function GetConversations(tools: seq<Tool>, rows: seq<Stored>, user: Option<string>, projectId: string,
                            slug: string, toolFailed: bool, listFailed: bool): (r: Result<seq<Stored>, string>)
    ensures r.Err? <==> toolFailed || ToolBySlug(tools, slug).None?
    ensures r.Err? ==> r.error == ToolNotFound
    ensures r.Ok? && listFailed ==> r.value == []
    ensures r.Ok? && !listFailed ==> forall i :: 0 <= i < |r.value| ==>
              r.value[i] in rows && InScope(user, projectId, ToolBySlug(tools, slug).value.id, r.value[i])
    ensures r.Ok? && !listFailed ==> forall i :: 0 <= i < |rows| && InScope(user, projectId, ToolBySlug(tools, slug).value.id, rows[i]) ==>
              rows[i] in r.value
  {
    match (if toolFailed then None else ToolBySlug(tools, slug))
    case None => Err(ToolNotFound)
    case Some(tool) =>
      if listFailed then Ok([])
      else Ok(Filter(rows, (s: Stored) => InScope(user, projectId, tool.id, s)))
  }

  /**
   * As written, a failed conversations query answers exactly like a
   * successful one over a table with no rows.
   */
  lemma FailedListLooksEmpty(tools: seq<Tool>, rows: seq<Stored>, user: Option<string>, projectId: string,
                             slug: string)
    ensures GetConversations(tools, rows, user, projectId, slug, false, true)
            == GetConversations(tools, [], user, projectId, slug, false, false)
  {
    if ToolBySlug(tools, slug).Some? {
      assert Filter([], (s: Stored) => InScope(user, projectId, ToolBySlug(tools, slug).value.id, s)) == [];
    }
  }

  /**
   * `getConversations` with the query's failure checked: a failed
   * conversations query answers "Conversations not found"; otherwise the
   * answer is the one as written.
   */
  function GetConversationsChecked(tools: seq<Tool>, rows: seq<Stored>, user: Option<string>, projectId: string,
                                   slug: string, toolFailed: bool, listFailed: bool)
    : (r: Result<seq<Stored>, string>)
    ensures r.Err? <==> toolFailed || ToolBySlug(tools, slug).None? || listFailed
    ensures !toolFailed && ToolBySlug(tools, slug).Some? && listFailed ==> r == Err(ConversationsNotFound)
    ensures !listFailed ==> r == GetConversations(tools, rows, user, projectId, slug, toolFailed, false)
    ensures r.Ok? ==> forall i :: 0 <= i < |r.value| ==> r.value[i] in rows
  {
    var asWritten := GetConversations(tools, rows, user, projectId, slug, toolFailed, false);
    if asWritten.Ok? && listFailed then Err(ConversationsNotFound) else asWritten
  }

  /** A conversation saved for a tool shows up in its owner's list for that project and tool. */
  lemma SavedConversationListed(tools: seq<Tool>, rows: seq<Stored>, req: Request, user: string, newId: string,
                                slug: string, now: int)
    requires ToolBySlug(tools, slug) == Some(Tool(req.toolId, slug))
    ensures var saved := CreateConversation(req, Some(user), newId, Errors(None, None, None)).0;
            var listed := GetConversations(tools, rows + [Stored(saved.conversation, now)], Some(user), req.projectId, slug,
                                          false, false);
            listed.Ok? && Stored(saved.conversation, now) in listed.value
  {
    var saved := CreateConversation(req, Some(user), newId, Errors(None, None, None)).0;
    var all := rows + [Stored(saved.conversation, now)];
    assert all[|rows|] == Stored(saved.conversation, now);
  }
}

=== FILE: editor.dfy ===
/**
 * The tag editor popup of an ad: the search over the available tags, the
 * create option, keyboard navigation, toggling, removal and renaming of
 * the ad's tags, and the popup's placement. Each server call is replaced
 * by its outcome, given as a parameter; random colours are parameters too.
 */
module TagEditor {
  import opened Wrappers
  import opened Text
  import opened Seqs
  import opened Entities
  import TagStore

  /** A tag matches the query when its lower-cased name contains the lower-cased query. */
  predicate Matches(query: string, t: Tag) {
    Contains(Lower(t.name), Lower(query))
  }

  /** `filteredTags`: the available tags matching the query, in their order. */
  function FilteredTags(available: seq<Tag>, query: string): (r: seq<Tag>)
    ensures |r| <= |available|
    ensures forall i :: 0 <= i < |r| ==> Matches(query, r[i]) && r[i] in available
    ensures forall i :: 0 <= i < |available| && Matches(query, available[i]) ==> available[i] in r
  {
    Filter(available, (t: Tag) => Matches(query, t))
  }

  /** Every name contains the empty string, so the empty query lists every available tag. */
  lemma EmptyQueryListsAll(available: seq<Tag>)
    ensures FilteredTags(available, "") == available
  {
    var p := (t: Tag) => Matches("", t);
    forall i | 0 <= i < |available|
      ensures p(available[i])
    {
      assert OccursAt(Lower(available[i].name), Lower(""), 0);
    }
    FilterAll(available, p);
  }

  /** The filter works tag by tag: filtering two lists is filtering each. */
  lemma FilteredAppend(a: seq<Tag>, b: seq<Tag>, query: string)
    ensures FilteredTags(a + b, query) == FilteredTags(a, query) + FilteredTags(b, query)
  {
    FilterAppend(a, b, (t: Tag) => Matches(query, t));
  }

  /** The tag's lower-cased name is the lower-cased query. */
  predicate NamedAs(query: string, t: Tag) {
    Lower(t.name) == Lower(query)
  }

  /**
   * `shouldShowCreateOption`: the trimmed query is not empty and no
   * filtered tag carries the query as its name, up to case.
   */
  predicate ShowCreate(available: seq<Tag>, query: string) {
    Trim(query) != "" && !Any(FilteredTags(available, query), (t: Tag) => NamedAs(query, t))
  }

  /** Looking among the filtered tags is the same as looking among all available ones. */
  lemma ShowCreateIff(available: seq<Tag>, query: string)
    ensures ShowCreate(available, query)
            <==> Trim(query) != "" && forall i :: 0 <= i < |available| ==> !NamedAs(query, available[i])
  {
    var f := FilteredTags(available, query);
    if exists i :: 0 <= i < |available| && NamedAs(query, available[i]) {
      var i :| 0 <= i < |available| && NamedAs(query, available[i]);
      ContainsSelf(Lower(query));
      assert Matches(query, available[i]);
      assert available[i] in f;
      var j :| 0 <= j < |f| && f[j] == available[i];
      assert NamedAs(query, f[j]);
    }
  }

  /**
   * The highlighted option. JavaScript's `%` by zero gives NaN, which is
   * what the arrow keys produce when there is no option at all.
   */
  datatype Index = At(i: int) | NaN

  /**
   * JavaScript's `%` on integers with a positive divisor: the divisor is
   * taken away from the dividend's magnitude until less than it is left,
   * so the remainder keeps the dividend's sign.
   */
  function JsRem(a: int, n: int): (r: int)
    requires n > 0
    ensures -n < r < n
    ensures a >= 0 ==> r >= 0
    ensures a <= 0 ==> r <= 0
    decreases if a >= 0 then a else -a
  {
    if -n < a < n then a
    else if a >= n then JsRem(a - n, n)
    else JsRem(a + n, n)
  }

  /** ArrowDown: `(prev + 1) % totalOptions`. */
  function ArrowDown(h: Index, n: nat): (r: Index)
    ensures n == 0 ==> r == NaN
  {
    match h
    case At(i) => if n == 0 then NaN else At(JsRem(i + 1, n))
    case NaN => NaN
  }

  /** ArrowUp: `(prev - 1 + totalOptions) % totalOptions`. */
  function ArrowUp(h: Index, n: nat): (r: Index)
    ensures n == 0 ==> r == NaN
  {
    match h
    case At(i) => if n == 0 then NaN else At(JsRem(i - 1 + n, n))
    case NaN => NaN
  }

  /** From an option in range, the arrows move one step and wrap around at either end. */
  lemma ArrowsCycle(i: int, n: nat)
    requires 0 <= i < n
    ensures ArrowDown(At(i), n) == At(if i + 1 == n then 0 else i + 1)
    ensures ArrowUp(At(i), n) == At(if i == 0 then n - 1 else i - 1)
  {
    if i + 1 == n {
      assert JsRem(i + 1, n) == JsRem(0, n) == 0;
    }
    if i > 0 {
      assert JsRem(i - 1 + n, n) == JsRem(i - 1, n) == i - 1;
    }
  }

  /** The arrows keep the highlight in range and undo each other. */
  lemma ArrowsUndo(i: int, n: nat)
    requires 0 <= i < n
    ensures ArrowDown(At(i), n).i < n && 0 <= ArrowUp(At(i), n).i < n
    ensures ArrowUp(ArrowDown(At(i), n), n) == At(i)
    ensures ArrowDown(ArrowUp(At(i), n), n) == At(i)
  {
    ArrowsCycle(i, n);
    var d := if i + 1 == n then 0 else i + 1;
    var u := if i == 0 then n - 1 else i - 1;
    ArrowsCycle(d, n);
    ArrowsCycle(u, n);
  }

  /**
   * The editor's state: the tags on offer, the ad's tags, the search query,
   * the highlighted option, the colour a created tag gets, the id of the tag
   * being renamed and the rename field's text.
   */
  datatype Editor = Editor(
    available: seq<Tag>,
    adTags: seq<Tag>,
    query: string,
    highlighted: Index,
    previewColor: string,
    renaming: Option<string>,
    newTagName: string)

  /** `totalOptions`: the filtered tags, plus the create option when shown. */
  function Options(s: Editor): nat {
    |FilteredTags(s.available, s.query)| + (if ShowCreate(s.available, s.query) then 1 else 0)
  }

  /** What a key press asks for. */
  datatype Action = Move(to: Index) | Create | Toggle(tag: Tag) | Remove(tag: Tag) | Ignore

  /** The position in `filteredTags` a highlight stands for, once the create option (when shown) is skipped. */
  function TagPosition(showCreate: bool, highlighted: Index): (r: Index)
    ensures r.NaN? <==> highlighted.NaN?
    ensures highlighted.At? ==> r.i == highlighted.i - (if showCreate then 1 else 0)
  {
    match highlighted
    case At(i) => if showCreate then At(i - 1) else At(i)
    case NaN => NaN
  }

  /** Enter, given whether the create option is shown and the filtered tags. */
  function Pick(showCreate: bool, filtered: seq<Tag>, highlighted: Index): (r: Action)
    ensures r.Create? || r.Toggle? || r.Ignore?
    ensures r.Create? <==> showCreate && highlighted == At(0)
    ensures r.Toggle? ==> r.tag in filtered
  {
    if showCreate && highlighted == At(0) then Create
    else
      match TagPosition(showCreate, highlighted)
      case At(j) => if 0 <= j < |filtered| then Toggle(filtered[j]) else Ignore
      case NaN => Ignore
  }

  /** Enter: create at the top option when the create option is shown, else toggle the highlighted tag. */
  function Enter(s: Editor): (r: Action)
    ensures r.Create? || r.Toggle? || r.Ignore?
    ensures r.Create? <==> ShowCreate(s.available, s.query) && s.highlighted == At(0)
    ensures r.Toggle? ==> r.tag in FilteredTags(s.available, s.query)
  {
    Pick(ShowCreate(s.available, s.query), FilteredTags(s.available, s.query), s.highlighted)
  }

  /** `handleKeyDown`. */
  function KeyDown(s: Editor, key: string): (r: Action)
    ensures key == "ArrowDown" ==> r == Move(ArrowDown(s.highlighted, Options(s)))
    ensures key == "ArrowUp" ==> r == Move(ArrowUp(s.highlighted, Options(s)))
    ensures key == "Enter" ==> r == Enter(s)
    ensures r.Create? ==> key == "Enter" && ShowCreate(s.available, s.query) && s.highlighted == At(0)
    ensures r.Toggle? ==> key == "Enter" && r.tag in FilteredTags(s.available, s.query)
    ensures r.Remove? <==> key == "Backspace" && s.query == "" && |s.adTags| > 0
    ensures r.Remove? ==> r.tag == s.adTags[|s.adTags| - 1]
  {
    if key == "ArrowDown" then Move(ArrowDown(s.highlighted, Options(s)))
    else if key == "ArrowUp" then Move(ArrowUp(s.highlighted, Options(s)))
    else if key == "Enter" then Enter(s)
    else if key == "Backspace" && s.query == "" && |s.adTags| > 0 then
      Remove(s.adTags[|s.adTags| - 1])
    else Ignore
  }

  /**
   * Enter on a highlighted tag option toggles the tag at that position,
   * counted past the create option when it is shown.
   */
  lemma PickTogglesHighlighted(showCreate: bool, filtered: seq<Tag>, i: int)
    requires var offset := if showCreate then 1 else 0;
             offset <= i < |filtered| + offset
    ensures var offset := if showCreate then 1 else 0;
            Pick(showCreate, filtered, At(i)) == Toggle(filtered[i - offset])
  {
  }

  /** The ad carries a tag with this id. */
  predicate Tagged(adTags: seq<Tag>, id: string) {
    exists i :: 0 <= i < |adTags| && adTags[i].id == id
  }

  /**
   * `handleTagToggle`: the list changes at once (every entry with the tag's
   * id leaves, or the tag is appended), then the server call runs; when it
   * fails (`failed`), the change is reverted on the updated list.
   */
  function ToggleTag(adTags: seq<Tag>, tag: Tag, failed: bool): (r: seq<Tag>)
    ensures !failed && Tagged(adTags, tag.id) ==> !Tagged(r, tag.id) && r == TagStore.Without(adTags, tag.id)
    ensures failed && Tagged(adTags, tag.id) ==> r == TagStore.Without(adTags, tag.id) + [tag]
    ensures !failed && !Tagged(adTags, tag.id) ==> r == adTags + [tag]
    ensures failed ==> (Tagged(r, tag.id) <==> Tagged(adTags, tag.id))
  {
    var wasTagged := Tagged(adTags, tag.id);
    var shown := if wasTagged then TagStore.Without(adTags, tag.id) else adTags + [tag];
    if !failed then shown
    else if wasTagged then
      assert shown + [tag] == shown + [tag];
      assert (shown + [tag])[|shown|] == tag;
      shown + [tag]
    else TagStore.Without(shown, tag.id)
  }

  /** A failed toggle of an absent tag gives back the list exactly. */
  lemma FailedAddIsUndone(adTags: seq<Tag>, tag: Tag)
    requires !Tagged(adTags, tag.id)
    ensures ToggleTag(adTags, tag, true) == adTags
  {
    TagStore.WithoutAppendNew(adTags, tag);
  }

  /**
   * A failed toggle of a present tag restores it only at the end: the list
   * [A, B] comes back as [B, A].
   */
  lemma FailedRemoveMovesTag()
    ensures var a := Tag("a", "A", "red", "t0");
            var b := Tag("b", "B", "red", "t0");
            ToggleTag([a, b], a, true) == [b, a]
  {
    var a := Tag("a", "A", "red", "t0");
    var b := Tag("b", "B", "red", "t0");
    assert Tagged([a, b], "a") by { assert [a, b][0].id == "a"; }
    var p := (t: Tag) => t.id != "a";
    assert [a, b][1..] == [b];
    assert [b][1..] == [];
    assert Filter([a, b], p) == [b];
  }

  /** Toggling an absent tag twice, both calls succeeding, gives back the list. */
  lemma ToggleTwice(adTags: seq<Tag>, tag: Tag)
    requires !Tagged(adTags, tag.id)
    ensures ToggleTag(ToggleTag(adTags, tag, false), tag, false) == adTags
  {
    assert (adTags + [tag])[|adTags|] == tag;
    TagStore.WithoutAppendNew(adTags, tag);
  }

  /** `handleRemoveTag`: the tag leaves the list only once the untag call succeeds. */
  function RemoveTag(adTags: seq<Tag>, tag: Tag, failed: bool): (r: seq<Tag>)
    ensures failed ==> r == adTags
    ensures !failed ==> !Tagged(r, tag.id)
    ensures !failed ==> forall i :: 0 <= i < |adTags| && adTags[i].id != tag.id ==> adTags[i] in r
  {
    if failed then adTags else TagStore.Without(adTags, tag.id)
  }

  /**
   * Backspace with an empty query removes the ad's last tag once the call
   * succeeds, and leaves the list alone when it fails.
   */
  lemma BackspaceRemovesLast(s: Editor, failed: bool)
    requires s.query == "" && |s.adTags| > 0
    ensures var last := s.adTags[|s.adTags| - 1];
            KeyDown(s, "Backspace") == Remove(last)
            && !Tagged(RemoveTag(s.adTags, last, false), last.id)
            && RemoveTag(s.adTags, last, true) == s.adTags
  {
  }

  /** What a create or rename leaves: the editor and the store call made, if any. */
  datatype CreateOutcome = CreateOutcome(editor: Editor, call: Option<(string, string)>)

  /**
   * `handleCreateTag`: with a non-empty trimmed query and a colour, the
   * store's `addTag` is called with the trimmed query. Once it succeeds
   * (`failed` false) the query is cleared, a new colour (`nextColor`) drawn
   * and the tag list refetched (`refetched`).
   */
  function CreateTag(s: Editor, failed: bool, nextColor: string, refetched: Result<seq<Tag>, string>): (r: CreateOutcome)
    ensures Trim(s.query) == "" || s.previewColor == "" ==> r == CreateOutcome(s, None)
    ensures Trim(s.query) != "" && s.previewColor != "" ==> r.call == Some((Trim(s.query), s.previewColor))
    ensures failed ==> r.editor == s
    ensures r.editor.adTags == s.adTags
    ensures r.call.Some? && !failed ==>
              r.editor.query == "" && r.editor.available == (if refetched.Ok? then refetched.value else s.available)
  {
    if Trim(s.query) == "" || s.previewColor == "" then CreateOutcome(s, None)
    else
      var call := Some((Trim(s.query), s.previewColor));
      if failed then CreateOutcome(s, call)
      else
        var cleared := s.(query := "", previewColor := nextColor);
        match refetched
        case Ok(tags) => CreateOutcome(cleared.(available := tags), call)
        case Err(_) => CreateOutcome(cleared, call)
  }

  /** The ad's tags with that id take the new name. */
  function Renamed(adTags: seq<Tag>, id: string, name: string): (r: seq<Tag>)
    ensures |r| == |adTags|
    ensures forall i :: 0 <= i < |adTags| ==>
              r[i] == (if adTags[i].id == id then adTags[i].(name := name) else adTags[i])
  {
    Map(adTags, (t: Tag) => if t.id == id then t.(name := name) else t)
  }

  /** What a rename leaves: the editor and the store's `updateTag` call (id, name, colour), if any. */
  datatype RenameOutcome = RenameOutcome(editor: Editor, call: Option<(string, string, string)>)

  /**
   * `handleRenameTag`: nothing is called unless the trimmed name is non-empty
   * and differs from the tag's name. `failed` is the store update's
   * rejection and `refetched` the tag list fetched after it; a rejection of
   * either keeps the rename open with the old name in the field.
   */
  function RenameTag(s: Editor, tag: Tag, newName: string, failed: bool,
                     refetched: Result<seq<Tag>, string>): (r: RenameOutcome)
    ensures Trim(newName) == "" || Trim(newName) == tag.name ==>
              r == RenameOutcome(s.(renaming := None), None)
    ensures Trim(newName) != "" && Trim(newName) != tag.name ==>
              r.call == Some((tag.id, Trim(newName), tag.color))
    ensures r.call.Some? && (failed || refetched.Err?) ==>
              r.editor == s.(newTagName := tag.name)
    ensures r.call.Some? && !failed && refetched.Ok? ==>
              r.editor.adTags == Renamed(s.adTags, tag.id, Trim(newName))
              && r.editor.available == refetched.value && r.editor.renaming.None?
  {
    var name := Trim(newName);
    if name == "" || name == tag.name then RenameOutcome(s.(renaming := None), None)
    else
      var call := Some((tag.id, name, tag.color));
      if failed || refetched.Err? then RenameOutcome(s.(newTagName := tag.name), call)
      else RenameOutcome(s.(available := refetched.value, adTags := Renamed(s.adTags, tag.id, name),
                            renaming := None), call)
  }

  /** A successful rename changes only the names of the renamed tag's entries, and keeps every id. */
  lemma RenameKeepsOthers(s: Editor, tag: Tag, newName: string, tags: seq<Tag>)
    requires Trim(newName) != "" && Trim(newName) != tag.name
    ensures var r := RenameTag(s, tag, newName, false, Ok(tags)).editor.adTags;
            |r| == |s.adTags|
            && (forall i :: 0 <= i < |r| ==> r[i].id == s.adTags[i].id && r[i].color == s.adTags[i].color)
            && (forall i :: 0 <= i < |r| && s.adTags[i].id != tag.id ==> r[i] == s.adTags[i])
            && (forall i :: 0 <= i < |r| && s.adTags[i].id == tag.id ==> r[i].name == Trim(newName))
  {
  }

  /** Renaming back to the old name undoes a successful rename of the ad's tags. */
  lemma RenameBack(adTags: seq<Tag>, id: string, name: string)
    requires forall i :: 0 <= i < |adTags| && adTags[i].id == id ==> adTags[i].name == name
    ensures forall newName :: Renamed(Renamed(adTags, id, newName), id, name) == adTags
  {
    forall newName
      ensures Renamed(Renamed(adTags, id, newName), id, name) == adTags
    {
      var r := Renamed(Renamed(adTags, id, newName), id, name);
      assert forall i :: 0 <= i < |adTags| ==> r[i] == adTags[i];
    }
  }

  /** The anchor's box: its left edge, top and bottom. */
  datatype Rect = Rect(left: int, top: int, bottom: int)

  /** The popup's placement and size. */
  datatype Placement = Placement(top: int, left: int, width: int, maxHeight: int)

  const MenuWidth: int := 280
  const MenuHeight: int := 400
  const Padding: int := 16

  /**
   * `getPopupStyle`: no placement without an anchor. Otherwise the popup is
   * put 8 below the anchor's left corner, pulled in from the right edge,
   * the left edge and the top, and either moved above the anchor or cut
   * short when it would run past the bottom.
   */
  function PopupStyle(anchor: Option<Rect>, viewportWidth: int, viewportHeight: int): (r: Option<Placement>)
    ensures r.None? <==> anchor.None?
    ensures r.Some? ==> r.value.left >= Padding && r.value.top >= Padding
    ensures r.Some? ==> r.value.width == MenuWidth && r.value.maxHeight <= MenuHeight
  {
    match anchor
    case None => None
    case Some(a) =>
      var left0 := a.left;
      var left1 := if left0 + MenuWidth > viewportWidth - Padding
                   then (if Padding > viewportWidth - MenuWidth - Padding then Padding else viewportWidth - MenuWidth - Padding)
                   else left0;
      var left := if left1 < Padding then Padding else left1;
      var top0 := a.bottom + 8;
      var spaceAbove := a.top;
      var spaceBelow := viewportHeight - a.bottom;
      var tooLow := top0 + MenuHeight > viewportHeight - Padding;
      var above := tooLow && spaceAbove > spaceBelow && spaceAbove >= MenuHeight + Padding;
      var top1 := if above
                  then (if Padding > a.top - MenuHeight - 8 then Padding else a.top - MenuHeight - 8)
                  else top0;
      var height := if tooLow && !above
                    then (if MenuHeight < viewportHeight - top0 - Padding then MenuHeight else viewportHeight - top0 - Padding)
                    else MenuHeight;
      var top := if top1 < Padding then Padding else top1;
      Some(Placement(top, left, MenuWidth, height))
  }

  /** In a viewport at least 312 wide, the popup fits horizontally with the padding on both sides. */
  lemma PopupFitsWidth(anchor: Rect, viewportWidth: int, viewportHeight: int)
    requires viewportWidth >= MenuWidth + 2 * Padding
    ensures var p := PopupStyle(Some(anchor), viewportWidth, viewportHeight).value;
            Padding <= p.left && p.left + p.width <= viewportWidth - Padding
  {
  }

  /** An anchor with room below and to the right gets the popup just under it, at full height. */
  lemma PopupBelowAnchor(anchor: Rect, viewportWidth: int, viewportHeight: int)
    requires Padding <= anchor.left && anchor.left + MenuWidth <= viewportWidth - Padding
    requires anchor.bottom + 8 + MenuHeight <= viewportHeight - Padding
    requires anchor.bottom + 8 >= Padding
    ensures PopupStyle(Some(anchor), viewportWidth, viewportHeight)
         == Some(Placement(anchor.bottom + 8, anchor.left, MenuWidth, MenuHeight))
  {
  }

  /**
   * With no room below but enough above, and more above than below, the
   * popup ends 8 above the anchor's top, at full height.
   */
  lemma PopupAboveAnchor(anchor: Rect, viewportWidth: int, viewportHeight: int)
    requires anchor.bottom + 8 + MenuHeight > viewportHeight - Padding
    requires anchor.top > viewportHeight - anchor.bottom
    requires anchor.top >= MenuHeight + Padding
    ensures var p := PopupStyle(Some(anchor), viewportWidth, viewportHeight).value;
            p.maxHeight == MenuHeight
            && p.top == (if anchor.top - MenuHeight - 8 < Padding then Padding else anchor.top - MenuHeight - 8)
  {
  }

  /**
   * When the popup is cut short below the anchor, its height is what is
   * left above the bottom padding, which can be negative near the bottom
   * of a short viewport.
   */
  lemma PopupHeightCanBeNegative()
    ensures PopupStyle(Some(Rect(0, 100, 120)), 1000, 130).value.maxHeight < 0
  {
  }

  /**
   * The effect that resets the highlight depends on the `filteredTags` array.
   * React compares dependencies by identity, and every render builds that
   * array anew, so the effect runs after every render. `Deps` is one
   * render's dependencies, `render` numbering the array it allocated.
   */
  datatype Deps = Deps(filteredArray: nat, showCreate: bool)

  function RenderDeps(s: Editor, render: nat): Deps {
    Deps(render, ShowCreate(s.available, s.query))
  }

  /** The highlight after the re-render that a key press triggers, as the component is written. */
  function SettleAsWritten(before: Editor, after: Editor, render: nat): (r: Index)
    ensures RenderDeps(before, render) != RenderDeps(after, render + 1) ==> r == At(0)
  {
    if RenderDeps(before, render) != RenderDeps(after, render + 1) then At(0) else after.highlighted
  }

  /** As written, an arrow key's move is undone by the re-render it causes. */
  lemma ArrowMoveIsReset(s: Editor, key: string, render: nat)
    requires key == "ArrowDown" || key == "ArrowUp"
    ensures var after := s.(highlighted := KeyDown(s, key).to);
            SettleAsWritten(s, after, render) == At(0)
  {
  }

  /** The highlight after a re-render when the options are compared by value: reset only when they change. */
  function Settle(before: Editor, after: Editor): (r: Index)
    ensures FilteredTags(before.available, before.query) == FilteredTags(after.available, after.query)
            && ShowCreate(before.available, before.query) == ShowCreate(after.available, after.query)
            ==> r == after.highlighted
  {
    if FilteredTags(before.available, before.query) != FilteredTags(after.available, after.query)
       || ShowCreate(before.available, before.query) != ShowCreate(after.available, after.query)
    then At(0) else after.highlighted
  }

  /** Compared by value, ArrowDown then ArrowUp brings the highlight back. */
  lemma ArrowMoveSticks(s: Editor, i: int)
    requires s.highlighted == At(i) && 0 <= i < Options(s)
    ensures var down := s.(highlighted := KeyDown(s, "ArrowDown").to);
            var settled := down.(highlighted := Settle(s, down));
            settled.highlighted == ArrowDown(At(i), Options(s))
            && Settle(settled, settled.(highlighted := KeyDown(settled, "ArrowUp").to)) == At(i)
  {
    ArrowsUndo(i, Options(s));
  }
}

=== FILE: entities.dfy ===
/** Rows of the application's tables and the client-side records built from them. */
module Entities {
  import opened Wrappers

  /** A message of a conversation; `role` is `'user'` or `'system'`. */
  datatype Chat = Chat(
    id: string,
    conversationId: string,
    role: string,
    content: string,
    createdAt: string,
    isFavorite: bool)

  const SystemRole: string := "system"
  const UserRole: string := "user"

  predicate IsSystem(c: Chat) {
    c.role == SystemRole
  }

  /** A prompt framework of a tool; a missing system prompt is None. */
  datatype Framework = Framework(name: string, isDefault: bool, systemPrompt: Option<string>)

  /** A tag as the client holds it. */
  datatype Tag = Tag(id: string, name: string, color: string, createdAt: string)
}

=== FILE: filters.dfy ===
/**
 * The single-select tag filter: which tags it shows, which one renders as
 * selected, and what a click asks the parent to select.
 */
module TagFilter {
  import opened Wrappers
  import opened Entities

  /** `handleTagClick`: the id passed to `onTagSelect`, None standing for `null`. */
  function Click(selected: Option<string>, tagId: string): (r: Option<string>)
    ensures r.None? <==> selected == Some(tagId)
    ensures r.Some? ==> r.value == tagId
  {
    if selected == Some(tagId) then None else Some(tagId)
  }

  /** Clicking the same tag twice from no selection ends with no selection. */
  lemma ClickTwice(tagId: string)
    ensures Click(Click(None, tagId), tagId) == None
    ensures Click(Click(Some(tagId), tagId), tagId) == Some(tagId)
  {
  }

  /** The tags shown: the custom ones when given, else the store's. */
  function DisplayTags(customTags: Option<seq<Tag>>, storeTags: seq<Tag>): (r: seq<Tag>)
    ensures customTags.Some? ==> r == customTags.value
    ensures customTags.None? ==> r == storeTags
  {
    match customTags
    case Some(tags) => tags
    case None => storeTags
  }

  /** The store is initialized only for a filter over the user's own tags. */
  predicate InitializesStore(customTags: Option<seq<Tag>>) {
    customTags.None?
  }

  /** What the filter renders: the loading skeleton, nothing, or the tag buttons and the clear button. */
  datatype View = Loading | Empty | Buttons(tags: seq<Tag>, selected: seq<bool>, clear: bool)

  function Render(selected: Option<string>, customTags: Option<seq<Tag>>, storeTags: seq<Tag>,
                  isLoading: bool): (r: View)
    ensures r.Loading? <==> isLoading && customTags.None?
    ensures r.Empty? <==> !(isLoading && customTags.None?) && |DisplayTags(customTags, storeTags)| == 0
    ensures r.Buttons? ==> r.tags == DisplayTags(customTags, storeTags) && |r.selected| == |r.tags|
    ensures r.Buttons? ==> forall i :: 0 <= i < |r.tags| ==> (r.selected[i] <==> selected == Some(r.tags[i].id))
    ensures r.Buttons? ==> (r.clear <==> Truthy(selected))
  {
    if isLoading && customTags.None? then Loading
    else
      var tags := DisplayTags(customTags, storeTags);
      if |tags| == 0 then Empty
      else Buttons(tags, seq(|tags|, i requires 0 <= i < |tags| => selected == Some(tags[i].id)), Truthy(selected))
  }

  /** Every button rendered as selected carries the same id, so with distinct ids at most one is. */
  lemma AtMostOneSelected(selected: Option<string>, customTags: Option<seq<Tag>>, storeTags: seq<Tag>,
                          isLoading: bool, i: int, j: int)
    requires var v := Render(selected, customTags, storeTags, isLoading);
             v.Buttons? && 0 <= i < |v.tags| && 0 <= j < |v.tags| && v.selected[i] && v.selected[j]
    ensures var v := Render(selected, customTags, storeTags, isLoading);
            v.tags[i].id == v.tags[j].id && selected == Some(v.tags[i].id)
  {
  }
}

/**
 * The tag filter bar of the ads page: the active tag mirrors the `filter`
 * query parameter, and a click or the clear button rewrites the query.
 * The query-string helpers are modelled on a map from keys to values:
 * setting one key, or removing some.
 */
module TagFilterGroup {
  import opened Wrappers

  type Params = map<string, string>

  /** `filterValue || ''`: the active tag id the query carries. */
  function ActiveOf(params: Params): (r: string)
    ensures "filter" in params ==> r == params["filter"]
    ensures "filter" !in params ==> r == ""
  {
    if "filter" in params then params["filter"] else ""
  }

  /** `removeKeysFromUrlQuery` with the keys `filter` and `page`. */
  function Unfiltered(params: Params): (r: Params)
    ensures "filter" !in r && "page" !in r
    ensures forall k :: k in params && k != "filter" && k != "page" ==> k in r && r[k] == params[k]
    ensures forall k :: k in r ==> k in params
  {
    params - {"filter", "page"}
  }

  /** The bar's own state: the active id and the processing flag. */
  datatype Group = Group(active: string, isProcessing: bool)

  /** What a click leaves: the state, and the query navigated to, if any. */
  datatype Outcome = Outcome(group: Group, pushed: Option<Params>)

  /**
   * `handleTypeClick`: ignored while processing; clicking the active tag
   * drops the filter and the page, clicking another sets the filter to it.
   */
  function TypeClick(g: Group, params: Params, tagId: string): (r: Outcome)
    ensures g.isProcessing ==> r == Outcome(g, None)
    ensures !g.isProcessing && g.active == tagId ==>
              r == Outcome(Group("", false), Some(Unfiltered(params)))
    ensures !g.isProcessing && g.active != tagId ==>
              r.group == Group(tagId, false) && r.pushed.Some?
              && r.pushed.value == params["filter" := tagId]
  {
    if g.isProcessing then Outcome(g, None)
    else if g.active == tagId then Outcome(Group("", false), Some(Unfiltered(params)))
    else Outcome(Group(tagId, false), Some(params["filter" := tagId]))
  }

  /** `handleClearFilters`: ignored while processing; otherwise the filter and the page are dropped. */
  function ClearFilters(g: Group, params: Params): (r: Outcome)
    ensures g.isProcessing ==> r == Outcome(g, None)
    ensures !g.isProcessing ==> r == Outcome(Group("", false), Some(Unfiltered(params)))
  {
    if g.isProcessing then Outcome(g, None)
    else Outcome(Group("", false), Some(Unfiltered(params)))
  }

  /** After a click or a clear, the active id is the one the new query carries. */
  lemma ActiveMirrorsQuery(g: Group, params: Params, tagId: string)
    requires !g.isProcessing
    ensures var r := TypeClick(g, params, tagId);
            r.group.active == ActiveOf(r.pushed.value)
    ensures var r := ClearFilters(g, params);
            r.group.active == ActiveOf(r.pushed.value)
  {
  }

  /**
   * Clicking an inactive tag twice, starting from the state the query
   * gives, drops the filter and the page and keeps every other key.
   */
  lemma ClickTwiceUnfilters(params: Params, tagId: string)
    requires ActiveOf(params) != tagId
    ensures var first := TypeClick(Group(ActiveOf(params), false), params, tagId);
            var q := first.pushed.value;
            var second := TypeClick(Group(ActiveOf(q), false), q, tagId);
            second.group.active == "" && second.pushed == Some(Unfiltered(q))
            && Unfiltered(q) == Unfiltered(params)
  {
    var first := TypeClick(Group(ActiveOf(params), false), params, tagId);
    var q := first.pushed.value;
    assert ActiveOf(q) == tagId;
    assert Unfiltered(q) == Unfiltered(params);
  }
}

=== FILE: handler.dfy ===
/**
 * The reusable server-action wrapper: validate the parameters against a
 * schema, create the database client, and check the session when asked.
 * The schema is a function from parameters to the parse outcome; the
 * session lookup is given as its outcome.
 */
module ActionHandler {
  import opened Wrappers

  /** How `schema.parse` ends: it passes, throws a `ZodError` with its field errors, or throws something else. */
  datatype Parse = Passed | ZodFailed(fieldErrors: map<string, seq<string>>) | OtherThrow

  /** The error objects the wrapper returns. */
  datatype ActionError =
    | ValidationError(fieldErrors: map<string, seq<string>>)
    | SchemaFailed(message: string)
    | Unauthorized

  /** The calls the wrapper makes, in order. */
  datatype Call = ParseCall | CreateClient | GetUser

  /** `supabase.auth.getUser()`: whether it reports an error, and the user it finds. */
  datatype Session = Session(failed: bool, user: Option<string>)

  /** The wrapper's result: an error, or the parameters as given with the user (None for `null`). */
  datatype Outcome<P> = Failed(error: ActionError) | Ready(params: Option<P>, user: Option<string>)

  const SchemaFailedMessage: string := "Schema validation failed"

  /**
   * `action`. `authorize` absent means false. `calls` lists what the
   * wrapper did before returning.
   */
  function Action<P>(params: Option<P>, schema: Option<P -> Parse>, authorize: Option<bool>,
                     session: Session): (r: (Outcome<P>, seq<Call>))
    ensures (schema.None? || params.None?) ==> ParseCall !in r.1
    ensures schema.Some? && params.Some? && schema.value(params.value).ZodFailed? ==>
              r == (Failed(ValidationError(schema.value(params.value).fieldErrors)), [ParseCall])
    ensures schema.Some? && params.Some? && schema.value(params.value).OtherThrow? ==>
              r == (Failed(SchemaFailed(SchemaFailedMessage)), [ParseCall])
    ensures r.0.Failed? && r.0.error.Unauthorized? <==>
              authorize == Some(true) && !Invalid(params, schema) && (session.failed || session.user.None?)
    ensures r.0.Ready? ==> r.0.params == params && CreateClient in r.1
    ensures r.0.Ready? ==> (authorize != Some(true) ==> r.0.user.None?)
                           && (authorize == Some(true) ==> r.0.user == session.user && r.0.user.Some?)
    ensures GetUser in r.1 <==> authorize == Some(true) && !Invalid(params, schema)
  {
    var validated := if schema.Some? && params.Some? then [ParseCall] else [];
    if Invalid(params, schema) then
      var failure := match schema.value(params.value)
                     case ZodFailed(errors) => ValidationError(errors)
                     case _ => SchemaFailed(SchemaFailedMessage);
      (Failed(failure), validated)
    else
      var calls := validated + [CreateClient];
      if authorize == Some(true) then
        if session.failed || session.user.None? then (Failed(Unauthorized), calls + [GetUser])
        else (Ready(params, session.user), calls + [GetUser])
      else (Ready(params, None), calls)
  }

  /** Validation runs, and fails, only when both a schema and parameters are given. */
  predicate Invalid<P>(params: Option<P>, schema: Option<P -> Parse>) {
    schema.Some? && params.Some? && !schema.value(params.value).Passed?
  }

  /** A validation failure returns before the client is created or the session is looked up. */
  lemma InvalidStopsEarly<P>(params: Option<P>, schema: Option<P -> Parse>, authorize: Option<bool>,
                             session: Session)
    requires Invalid(params, schema)
    ensures var (outcome, calls) := Action(params, schema, authorize, session);
            outcome.Failed? && calls == [ParseCall]
            && (outcome.error.ValidationError? || outcome.error.SchemaFailed?)
  {
  }

  /** Without a schema, the parameters pass through untouched, whatever they are. */
  lemma NoSchemaPassesParams<P>(params: Option<P>, authorize: Option<bool>, session: Session)
    requires authorize != Some(true) || (!session.failed && session.user.Some?)
    ensures Action(params, None, authorize, session).0 == Ready(params, if authorize == Some(true) then session.user else None)
  {
  }

  /** The session only matters when authorization is asked for. */
  lemma SessionIgnoredWithoutAuthorize<P>(params: Option<P>, schema: Option<P -> Parse>, s1: Session, s2: Session)
    ensures Action(params, schema, None, s1) == Action(params, schema, None, s2)
    ensures Action(params, schema, Some(false), s1) == Action(params, schema, None, s2)
  {
  }
}

=== FILE: json.dfy ===
/**
 * The one JSON document the relay writes into each frame, `{"content": c}`,
 * as `JSON.stringify` renders it, and a decoder for that document as
 * `JSON.parse(...).content` reads it. Characters are Unicode scalar values,
 * so the lone-surrogate escapes of `JSON.stringify` never arise.
 */
module Json {
  import opened Wrappers

  function HexChar(d: nat): char
    requires d < 16
  {
    "0123456789abcdef"[d]
  }

  function HexValue(c: char): (r: Option<nat>)
    ensures r.Some? ==> r.value < 16
  {
    if '0' <= c <= '9' then Some(c as int - '0' as int)
    else if 'a' <= c <= 'f' then Some(c as int - 'a' as int + 10)
    else if 'A' <= c <= 'F' then Some(c as int - 'A' as int + 10)
    else None
  }

  lemma HexRoundTrip(d: nat)
    requires d < 16
    ensures HexValue(HexChar(d)) == Some(d)
  {
  }

  /** How `JSON.stringify` writes one character inside a string literal. */
  function EscapeChar(ch: char): (r: string)
    ensures |r| >= 1 && '\n' !in r
  {
    if ch == '"' then "\\\""
    else if ch == '\\' then "\\\\"
    else if ch == '\U{0008}' then "\\b"
    else if ch == '\U{000C}' then "\\f"
    else if ch == '\n' then "\\n"
    else if ch == '\r' then "\\r"
    else if ch == '\t' then "\\t"
    else if ch < ' ' then "\\u00" + [HexChar(ch as int / 16), HexChar(ch as int % 16)]
    else [ch]
  }

  function EscapeString(s: string): (r: string)
    ensures '\n' !in r
  {
    if |s| == 0 then "" else EscapeChar(s[0]) + EscapeString(s[1..])
  }

  const ContentPrefix: string := "{\"content\":\""
  const ContentSuffix: string := "\"}"

  /** `JSON.stringify({ content })`. */
  function EncodeContent(c: string): (r: string)
    ensures '\n' !in r
  {
    ContentPrefix + EscapeString(c) + ContentSuffix
  }

  /** The UTF-16 code unit four hexadecimal digits spell, most significant first. */
  function CodeUnit(a: nat, b: nat, c: nat, d: nat): (v: nat)
    requires a < 16 && b < 16 && c < 16 && d < 16
    ensures v < 0x10000
  {
    4096 * a + 256 * b + 16 * c + d
  }

  /**
   * The character an escape sequence at the head of `s` stands for, and the
   * number of characters the sequence occupies.
   */
  function Unescape(s: string): (r: Option<(char, nat)>)
    requires |s| >= 1 && s[0] == '\\'
    ensures r.Some? ==> 2 <= r.value.1 <= |s|
  {
    if |s| < 2 then None
    else if s[1] == '"' then Some(('"', 2))
    else if s[1] == '\\' then Some(('\\', 2))
    else if s[1] == '/' then Some(('/', 2))
    else if s[1] == 'b' then Some(('\U{0008}', 2))
    else if s[1] == 'f' then Some(('\U{000C}', 2))
    else if s[1] == 'n' then Some(('\n', 2))
    else if s[1] == 'r' then Some(('\r', 2))
    else if s[1] == 't' then Some(('\t', 2))
    else if s[1] == 'u' && |s| >= 6 then
      match (HexValue(s[2]), HexValue(s[3]), HexValue(s[4]), HexValue(s[5]))
      case (Some(a), Some(b), Some(c), Some(d)) =>
        var v := CodeUnit(a, b, c, d);
        if 0xD800 <= v < 0xE000 then None else Some((v as char, 6))
      case _ => None
    else None
  }

  /**
   * Reads the body of a JSON string literal up to its closing quote: the
   * decoded text and what follows the quote, or None when the literal is
   * malformed or unterminated.
   */
  function DecodeString(s: string): Option<(string, string)>
    decreases |s|
  {
    if |s| == 0 then None
    else if s[0] == '"' then Some(("", s[1..]))
    else if s[0] == '\\' then
      match Unescape(s)
      case None => None
      case Some((ch, n)) =>
        match DecodeString(s[n..])
        case None => None
        case Some((v, rest)) => Some(([ch] + v, rest))
    else if s[0] < ' ' then None
    else
      match DecodeString(s[1..])
      case None => None
      case Some((v, rest)) => Some(([s[0]] + v, rest))
  }

  /** `JSON.parse(s).content` for the document shape the relay writes; None otherwise. */
  function DecodeContent(s: string): Option<string> {
    if ContentPrefix <= s then
      match DecodeString(s[|ContentPrefix|..])
      case Some((v, rest)) => if rest == "}" then Some(v) else None
      case None => None
    else None
  }

  lemma EscapeCharDecodes(ch: char, rest: string)
    ensures DecodeString(EscapeChar(ch) + rest)
         == (match DecodeString(rest)
             case None => None
             case Some((v, r)) => Some(([ch] + v, r)))
  {
    var e := EscapeChar(ch);
    var s := e + rest;
    if ch < ' ' && ch != '\U{0008}' && ch != '\U{000C}' && ch != '\n' && ch != '\r' && ch != '\t' {
      var hi := ch as int / 16;
      var lo := ch as int % 16;
      HexRoundTrip(hi);
      HexRoundTrip(lo);
      HexRoundTrip(0);
      assert s[..6] == e;
      assert s[2] == '0' && s[3] == '0' && s[4] == HexChar(hi) && s[5] == HexChar(lo);
      assert CodeUnit(0, 0, hi, lo) == 16 * hi + lo == ch as int;
      assert Unescape(s) == Some((ch, 6));
      assert s[6..] == rest;
    } else if |e| == 2 {
      assert s[2..] == rest;
    } else {
      assert s[1..] == rest;
    }
  }

  lemma {:induction false} EscapeStringDecodes(c: string, tail: string)
    ensures DecodeString(EscapeString(c) + "\"" + tail) == Some((c, tail))
  {
    if |c| == 0 {
      assert EscapeString(c) + "\"" + tail == "\"" + tail;
      assert ("\"" + tail)[1..] == tail;
    } else {
      var rest := EscapeString(c[1..]) + "\"" + tail;
      EscapeStringDecodes(c[1..], tail);
      assert EscapeString(c) + "\"" + tail == EscapeChar(c[0]) + rest;
      EscapeCharDecodes(c[0], rest);
      assert [c[0]] + c[1..] == c;
    }
  }

  /** Decoding what `JSON.stringify({ content })` wrote gives `content` back. */
  lemma ContentRoundTrip(c: string)
    ensures DecodeContent(EncodeContent(c)) == Some(c)
  {
    var s := EncodeContent(c);
    assert s[|ContentPrefix|..] == EscapeString(c) + "\"" + "}";
    EscapeStringDecodes(c, "}");
  }
}

=== FILE: pagination.dfy ===
/**
 * The pager under the ads list: the window of page buttons, with -1
 * standing for an ellipsis, and the Prev and Next buttons.
 */
module Pagination {
  const MaxButtons: int := 10
  const Ellipsis: int := -1

  /** The pages a, a+1, ..., b; empty when a > b. */
  function Range(a: int, b: int): (r: seq<int>)
    ensures |r| == if a <= b then b - a + 1 else 0
    ensures forall k :: 0 <= k < |r| ==> r[k] == a + k
    decreases b - a
  {
    if a > b then [] else Range(a, b - 1) + [b]
  }

  function Max(a: int, b: int): int { if a >= b then a else b }
  function Min(a: int, b: int): int { if a <= b then a else b }

  /**
   * The first and last middle pages when there are more than `MaxButtons`
   * pages: two either side of the current page, widened to the first eight
   * pages near the start and to the last eight middle pages near the end.
   */
  function Window(current: int, total: int): (int, int) {
    var start := if current >= total - 2 then Max(2, total - MaxButtons + 2) else Max(2, current - 2);
    var end := if current <= 3 then Min(total - 1, MaxButtons - 2) else Min(total - 1, current + 2);
    (start, end)
  }

  /** The optional ellipsis: one entry when `present`, none otherwise. */
  function Gap(present: bool): seq<int> {
    if present then [Ellipsis] else []
  }

  /** Page 1, an optional ellipsis, the window, an optional ellipsis, the last page. */
  function Layout(start: int, end: int, before: bool, after: bool, total: int): seq<int> {
    [1] + Gap(before) + Range(start, end) + Gap(after) + [total]
  }

  /** Where each part of a layout sits. */
  lemma LayoutIndex(start: int, end: int, before: bool, after: bool, total: int)
    requires start <= end
    ensures var r := Layout(start, end, before, after, total);
            var at := if before then 2 else 1;
            |r| == at + (end - start + 1) + (if after then 1 else 0) + 1
            && r[0] == 1 && r[|r| - 1] == total
            && (before ==> r[1] == Ellipsis)
            && (after ==> r[|r| - 2] == Ellipsis)
            && (forall i :: at <= i < at + (end - start + 1) ==> r[i] == start + (i - at))
  {
    var head := [1] + Gap(before);
    var mid := Range(start, end);
    var r := Layout(start, end, before, after, total);
    assert r == head + mid + (Gap(after) + [total]);
    forall i | |head| <= i < |head| + |mid|
      ensures r[i] == start + (i - |head|)
    {
      assert r[i] == (head + mid)[i] == mid[i - |head|];
    }
  }

  /**
   * The list of `getPageNumbers`: every page when there are at most ten,
   * otherwise the first page, the window with an ellipsis on a side that
   * skips pages, and the last page.
   */
  function PageNumbers(current: int, total: int): seq<int> {
    if total <= MaxButtons then Range(1, total)
    else
      var (start, end) := Window(current, total);
      Layout(start, end, start > 2, end < total - 1, total)
  }

  /** Pushes the pages `from` to `to` after `pages`, one at a time. */
  method PushRange(pages: seq<int>, from: int, to: int) returns (r: seq<int>)
    ensures r == pages + Range(from, to)
  {
    r := pages;
    var i := from;
    while i <= to
      invariant from <= to + 1 ==> from <= i <= to + 1
      invariant from > to + 1 ==> i == from
      invariant r == pages + Range(from, i - 1)
    {
      r := r + [i];
      i := i + 1;
    }
  }

  /** `getPageNumbers`, building the list push by push as the component does. */
  method GetPageNumbers(current: int, total: int) returns (pages: seq<int>)
    ensures pages == PageNumbers(current, total)
  {
    pages := [];
    if total <= MaxButtons {
      pages := PushRange(pages, 1, total);
    } else {
      pages := pages + [1];
      var start := Max(2, current - 2);
      var end := Min(total - 1, current + 2);
      if current <= 3 {
        end := Min(total - 1, MaxButtons - 2);
      }
      if current >= total - 2 {
        start := Max(2, total - MaxButtons + 2);
      }
      assert (start, end) == Window(current, total);
      if start > 2 {
        pages := pages + [Ellipsis];
      }
      assert pages == [1] + Gap(start > 2);
      pages := PushRange(pages, start, end);
      if end < total - 1 {
        pages := pages + [Ellipsis];
      }
      pages := pages + [total];
      assert pages == Layout(start, end, start > 2, end < total - 1, total);
    }
  }

  /** Up to ten pages, the list is exactly 1, 2, ..., total. */
  lemma FewPagesAllListed(current: int, total: int)
    requires 1 <= total <= MaxButtons
    ensures |PageNumbers(current, total)| == total
    ensures forall k :: 0 <= k < total ==> PageNumbers(current, total)[k] == k + 1
  {
  }

  /** The window lies strictly between the first and the last page, and is never empty. */
  lemma WindowInside(current: int, total: int)
    requires total > MaxButtons
    ensures var (start, end) := Window(current, total);
            2 <= start <= end <= total - 1
  {
  }

  /** Past ten pages, the list starts at page 1, ends at the last page, and has the window in between. */
  lemma ManyPagesShape(current: int, total: int)
    requires total > MaxButtons
    ensures var r := PageNumbers(current, total);
            var (start, end) := Window(current, total);
            var at := if start > 2 then 2 else 1;
            |r| >= 3 && r[0] == 1 && r[|r| - 1] == total
            && |r| == at + (end - start + 1) + (if end < total - 1 then 1 else 0) + 1
            && (forall i :: at <= i <= at + (end - start) ==> r[i] == start + (i - at))
  {
    WindowInside(current, total);
    var (start, end) := Window(current, total);
    LayoutIndex(start, end, start > 2, end < total - 1, total);
  }

  /** An ellipsis follows page 1 exactly when the window starts past page 2. */
  lemma EllipsisAfterFirst(current: int, total: int)
    requires total > MaxButtons
    ensures PageNumbers(current, total)[1] == Ellipsis <==> Window(current, total).0 > 2
  {
    ManyPagesShape(current, total);
    WindowInside(current, total);
  }

  /** An ellipsis precedes the last page exactly when the window ends before the page before it. */
  lemma EllipsisBeforeLast(current: int, total: int)
    requires total > MaxButtons
    ensures var r := PageNumbers(current, total);
            r[|r| - 2] == Ellipsis <==> Window(current, total).1 < total - 1
  {
    ManyPagesShape(current, total);
    WindowInside(current, total);
  }

  /**
   * Apart from the ellipses, the entries are pages from 1 to total in
   * strictly increasing order; an ellipsis is only ever second or second
   * to last.
   */
  lemma PagesIncreasing(current: int, total: int)
    requires total >= 1
    ensures var r := PageNumbers(current, total);
            (forall i :: 0 <= i < |r| && r[i] != Ellipsis ==> 1 <= r[i] <= total)
            && (forall i, j :: 0 <= i < j < |r| && r[i] != Ellipsis && r[j] != Ellipsis ==> r[i] < r[j])
            && (forall i :: 0 <= i < |r| && r[i] == Ellipsis ==> i == 1 || i == |r| - 2)
  {
    if total > MaxButtons {
      ManyPagesShape(current, total);
      WindowInside(current, total);
      var r := PageNumbers(current, total);
      var (start, end) := Window(current, total);
      var at := if start > 2 then 2 else 1;
      var last := at + (end - start);
      assert forall i :: 0 <= i < |r| ==>
        (i == 0 && r[i] == 1) || (i == |r| - 1 && r[i] == total)
        || (at <= i <= last && r[i] == start + (i - at))
        || (r[i] == Ellipsis && (i == 1 || i == |r| - 2));
    }
  }

  /** A current page in range is always listed. */
  lemma CurrentPageListed(current: int, total: int)
    requires 1 <= current <= total
    ensures current in PageNumbers(current, total)
  {
    var r := PageNumbers(current, total);
    if total <= MaxButtons {
      assert r[current - 1] == current;
    } else {
      ManyPagesShape(current, total);
      var (start, end) := Window(current, total);
      var at := if start > 2 then 2 else 1;
      if current == 1 {
        assert r[0] == current;
      } else if current == total {
        assert r[|r| - 1] == current;
      } else {
        assert start <= current <= end;
        var k := at + (current - start);
        assert r[k] == current;
      }
    }
  }

  /** The list never holds more than eleven entries. */
  lemma AtMostElevenEntries(current: int, total: int)
    ensures |PageNumbers(current, total)| <= MaxButtons + 1
  {
    if total > MaxButtons {
      ManyPagesShape(current, total);
    }
  }

  /**
   * Near the last page the list holds eleven entries: page 1, an ellipsis,
   * eight middle pages and the last page. Near the first page it holds ten:
   * pages 1 to 8, an ellipsis and the last page.
   */
  lemma NearEndHoldsEleven(current: int, total: int)
    requires total > MaxButtons
    ensures current >= total - 2 ==> |PageNumbers(current, total)| == MaxButtons + 1
    ensures current <= 3 ==> |PageNumbers(current, total)| == MaxButtons
  {
    ManyPagesShape(current, total);
  }

  /** How many entries render as page buttons: every entry but the ellipses. */
  function ButtonCount(r: seq<int>): nat {
    if |r| == 0 then 0 else (if r[0] == Ellipsis then 0 else 1) + ButtonCount(r[1..])
  }

  lemma {:induction false} ButtonCountAppend(a: seq<int>, b: seq<int>)
    ensures ButtonCount(a + b) == ButtonCount(a) + ButtonCount(b)
  {
    if |a| > 0 {
      assert (a + b)[0] == a[0];
      assert (a + b)[1..] == a[1..] + b;
      ButtonCountAppend(a[1..], b);
    } else {
      assert a + b == b;
    }
  }

  /** Every entry of a range of real pages is a button. */
  lemma {:induction false} RangeAllButtons(a: int, b: int)
    requires a >= 1
    ensures ButtonCount(Range(a, b)) == |Range(a, b)|
    decreases b - a
  {
    if a <= b {
      RangeAllButtons(a, b - 1);
      ButtonCountAppend(Range(a, b - 1), [b]);
    }
  }

  /** A layout shows the window's pages and the first and last page as buttons. */
  lemma LayoutButtons(start: int, end: int, before: bool, after: bool, total: int)
    requires start >= 1 && total >= 1
    ensures ButtonCount(Layout(start, end, before, after, total)) == |Range(start, end)| + 2
  {
    var mid := Range(start, end);
    RangeAllButtons(start, end);
    ButtonCountAppend([1], Gap(before));
    ButtonCountAppend([1] + Gap(before), mid);
    ButtonCountAppend([1] + Gap(before) + mid, Gap(after));
    ButtonCountAppend([1] + Gap(before) + mid + Gap(after), [total]);
  }

  /**
   * Near the last page exactly `MaxButtons` page buttons show (the eleventh
   * entry is the ellipsis); near the first page one fewer.
   */
  lemma NearEndTenButtons(current: int, total: int)
    requires total > MaxButtons
    ensures current >= total - 2 ==> ButtonCount(PageNumbers(current, total)) == MaxButtons
    ensures current <= 3 ==> ButtonCount(PageNumbers(current, total)) == MaxButtons - 1
  {
    var (start, end) := Window(current, total);
    WindowInside(current, total);
    LayoutButtons(start, end, start > 2, end < total - 1, total);
  }

  /** The pager's buttons: nothing at all, or Prev and Next with their enablement. */
  datatype Controls = Hidden | Shown(prevEnabled: bool, nextEnabled: bool, pages: seq<int>)

  function Render(current: int, total: int): (r: Controls)
    ensures r.Hidden? <==> total <= 1
    ensures r.Shown? ==> (r.prevEnabled <==> current != 1) && (r.nextEnabled <==> current != total)
    ensures r.Shown? ==> r.pages == PageNumbers(current, total)
  {
    if total <= 1 then Hidden else Shown(current != 1, current != total, PageNumbers(current, total))
  }

  /** From a page in range, enabled Prev and Next lead to pages in range. */
  lemma ButtonsStayInRange(current: int, total: int)
    requires 1 <= current <= total
    ensures var c := Render(current, total);
            c.Shown? ==> (c.prevEnabled ==> 1 <= current - 1 <= total)
                         && (c.nextEnabled ==> 1 <= current + 1 <= total)
  {
  }
}

=== FILE: paging.dfy ===
/**
 * The offset arithmetic both list actions share: `page` and `pageSize`
 * default to 1 and 10 when absent, `skip` is `(page - 1) * pageSize`, and
 * the rows asked for are `skip` to `skip + pageSize - 1`, both included.
 */
module Paging {
  import opened Wrappers

  const DefaultPage: int := 1
  const DefaultPageSize: int := 10

  /** The requested rows: the first and last index, both included. */
  datatype Span = Span(from: int, to: int)

  function Skip(page: Option<int>, pageSize: Option<int>): int {
    (page.GetOr(DefaultPage) - 1) * pageSize.GetOr(DefaultPageSize)
  }

  /** `.range(skip, skip + pageSize - 1)`. */
  function Requested(page: Option<int>, pageSize: Option<int>): (r: Span)
    ensures r.from == Skip(page, pageSize)
    ensures r.to - r.from + 1 == pageSize.GetOr(DefaultPageSize)
  {
    var skip := Skip(page, pageSize);
    Span(skip, skip + pageSize.GetOr(DefaultPageSize) - 1)
  }

  /** Without parameters, the first ten rows are asked for. */
  lemma DefaultsAskFirstTen()
    ensures Requested(None, None) == Span(0, 9)
    ensures Requested(Some(1), None) == Requested(None, Some(10)) == Span(0, 9)
  {
  }

  /** Page p + 1 starts right after page p ends, so consecutive pages leave no gap and do not overlap. */
  lemma PagesAdjoin(page: int, size: int)
    ensures Requested(Some(page + 1), Some(size)).from == Requested(Some(page), Some(size)).to + 1
  {
    assert page * size == (page - 1) * size + size;
  }

  /** With a positive size, every row of a later page comes after every row of an earlier one. */
  lemma {:induction false} LaterPagesFurther(p: int, q: int, size: int)
    requires p < q && size > 0
    ensures Requested(Some(p), Some(size)).to < Requested(Some(q), Some(size)).from
    decreases q - p
  {
    PagesAdjoin(p, size);
    if q > p + 1 {
      LaterPagesFurther(p + 1, q, size);
      PagesAdjoin(p + 1, size);
    }
  }
}

=== FILE: panel.dfy ===
/**
 * What the content panel shows: the system chats of the conversation, the
 * streaming text in place of a system chat that is still empty, a loading
 * placeholder, and the classification of every text as markdown, HTML or
 * plain text. The markup each class is turned into is not modelled; the
 * classification and the text it is applied to are.
 */
module ContentPanel {
  import opened Wrappers
  import opened Text
  import opened Seqs
  import opened Entities

  const FenceMarker: string := "```markdown"
  const TickMarker: string := "`markdown"
  const BareMarker: string := "markdown"
  const Fence: string := "```"
  const Tick: string := "`"
  const Rule: string := "<hr class=\"my-2 border-gray-200\">"

  /** `aiChats`: the chats the panel lists. */
  function AiChats(chats: seq<Chat>): seq<Chat> {
    Filter(chats, IsSystem)
  }

  /** The panel lists exactly the system chats, in order, and nothing else. */
  lemma AiChatsAreSystemChats(a: seq<Chat>, b: seq<Chat>)
    ensures forall i :: 0 <= i < |AiChats(a)| ==> AiChats(a)[i].role == SystemRole && AiChats(a)[i] in a
    ensures forall i :: 0 <= i < |a| && a[i].role == SystemRole ==> a[i] in AiChats(a)
    ensures AiChats(a + b) == AiChats(a) + AiChats(b)
    ensures AiChats(AiChats(a)) == AiChats(a)
  {
    FilterAppend(a, b, IsSystem);
    FilterIdempotent(a, IsSystem);
  }

  /** `isMarkdownContent`. */
  predicate IsMarkdown(content: string) {
    var t := Trim(content);
    FenceMarker <= t || TickMarker <= t || BareMarker <= t
  }

  /**
   * The text with its marker and closing fence removed, before the final
   * trim. The marker is looked for in the trimmed text but removed from the
   * untrimmed one: the first occurrence for the two quoted forms, only at
   * index 0 for the bare form; a closing fence counts only at the very end.
   */
  function Unwrapped(content: string): string {
    var t := Trim(content);
    if FenceMarker <= t then StripSuffix(ReplaceFirst(content, FenceMarker, ""), Fence)
    else if TickMarker <= t then StripSuffix(ReplaceFirst(content, TickMarker, ""), Tick)
    else if BareMarker <= t then StripPrefix(content, BareMarker)
    else content
  }

  /** `cleanMarkdownContent`. */
  function CleanMarkdown(content: string): (r: string)
    ensures Trim(r) == r
    ensures !IsMarkdown(content) ==> r == Trim(content)
  {
    TrimIdempotent(Unwrapped(content));
    Trim(Unwrapped(content))
  }

  lemma UnwrapFence(content: string)
    requires FenceMarker <= Trim(content)
    ensures Unwrapped(content) == StripSuffix(ReplaceFirst(content, FenceMarker, ""), Fence)
  {
  }

  lemma UnwrapBare(content: string)
    requires BareMarker <= Trim(content)
    ensures Unwrapped(content) == StripPrefix(content, BareMarker)
  {
    var t := Trim(content);
    assert t[0] == 'm';
    assert FenceMarker[0] == '`' && TickMarker[0] == '`';
  }

  /** A marker after leading white space is what the trimmed text starts with. */
  lemma MarkerSurvivesTrim(ws: string, marker: string, x: string)
    requires AllSpace(ws) && marker <= x && |marker| > 0
    requires !IsSpace(marker[0]) && !IsSpace(marker[|marker| - 1])
    ensures marker <= Trim(ws + x)
  {
    TrimStartSpaces(ws, x);
    assert TrimStart(x) == x by { assert x[0] == marker[0]; }
    PrefixSurvivesTrimEnd(marker, x);
  }

  /** The first occurrence of a marker is the one after the leading white space. */
  lemma RemoveFirstMarker(ws: string, marker: string, rest: string)
    requires AllSpace(ws) && |marker| > 0 && !IsSpace(marker[0])
    ensures ReplaceFirst(ws + (marker + rest), marker, "") == ws + rest
  {
    assert marker[0] !in ws;
    ReplaceFirstAfterAbsent(ws, marker + rest, marker, "");
    assert (marker + rest)[|marker|..] == rest;
    assert "" + rest == rest;
  }

  /** Removing the marker and the closing fence of an indented fenced block. */
  lemma StripFenced(ws: string, body: string)
    requires AllSpace(ws)
    ensures StripSuffix(ReplaceFirst(ws + (FenceMarker + (body + Fence)), FenceMarker, ""), Fence) == ws + body
  {
    RemoveFirstMarker(ws, FenceMarker, body + Fence);
    assert ws + (body + Fence) == (ws + body) + Fence;
    StripAppended(ws + body, Fence);
  }

  lemma UnwrapFenced(ws: string, body: string)
    requires AllSpace(ws)
    ensures FenceMarker <= Trim(ws + FenceMarker + body + Fence)
    ensures Unwrapped(ws + FenceMarker + body + Fence) == ws + body
  {
    var content := ws + (FenceMarker + (body + Fence));
    assert ws + FenceMarker + body + Fence == content;
    MarkerSurvivesTrim(ws, FenceMarker, FenceMarker + (body + Fence));
    UnwrapFence(content);
    StripFenced(ws, body);
  }

  /**
   * A fenced block, possibly indented, closed by a fence at the very end of
   * the text, is reduced to its trimmed body.
   */
  lemma CleanFenced(ws: string, body: string)
    requires AllSpace(ws)
    ensures IsMarkdown(ws + FenceMarker + body + Fence)
    ensures CleanMarkdown(ws + FenceMarker + body + Fence) == Trim(body)
  {
    UnwrapFenced(ws, body);
    TrimLeadingSpaces(ws, body);
  }

  /** Text ending in white space does not end with the closing fence. */
  lemma SpacesAfterFence(body: string, tail: string)
    requires AllSpace(tail) && |tail| > 0
    ensures !EndsWith(body + Fence + tail, Fence)
  {
    var rest := body + Fence + tail;
    assert rest[|rest| - 1] == tail[|tail| - 1];
    assert IsSpace(tail[|tail| - 1]);
  }

  lemma UnwrapFenceNotAtEnd(body: string, tail: string)
    requires AllSpace(tail) && |tail| > 0
    ensures Unwrapped(FenceMarker + body + Fence + tail) == body + Fence + tail
  {
    var rest := body + Fence + tail;
    var content := FenceMarker + rest;
    AppendAssoc(FenceMarker, body + Fence, tail);
    AppendAssoc(FenceMarker, body, Fence);
    assert FenceMarker + body + Fence + tail == content;
    assert "" + content == content;
    MarkerSurvivesTrim("", FenceMarker, content);
    UnwrapFence(content);
    RemoveFirstMarker("", FenceMarker, rest);
    assert "" + rest == rest;
    SpacesAfterFence(body, tail);
  }

  /**
   * A closing fence followed by anything, even only white space, is not at
   * the end of the text and stays in the cleaned text.
   */
  lemma FenceKeptUnlessAtEnd(body: string, tail: string)
    requires AllSpace(tail) && |tail| > 0
    ensures CleanMarkdown(FenceMarker + body + Fence + tail) == TrimStart(body) + Fence
  {
    UnwrapFenceNotAtEnd(body, tail);
    TrimBeforeSpaces(body, Fence, tail);
  }

  /** The bare marker is removed when it opens the text. */
  lemma CleanBare(body: string)
    ensures IsMarkdown(BareMarker + body)
    ensures CleanMarkdown(BareMarker + body) == Trim(body)
  {
    var content := BareMarker + body;
    assert "" + content == content;
    MarkerSurvivesTrim("", BareMarker, content);
    UnwrapBare(content);
    assert content[|BareMarker|..] == body;
  }

  /**
   * A bare marker after leading white space makes the text markdown but is
   * not removed: the cleaned text still starts with it.
   */
  lemma BareMarkerKeptAfterSpace(ws: string, body: string)
    requires AllSpace(ws) && |ws| > 0
    ensures IsMarkdown(ws + BareMarker + body)
    ensures BareMarker <= CleanMarkdown(ws + BareMarker + body)
  {
    var content := ws + (BareMarker + body);
    assert ws + BareMarker + body == content;
    MarkerSurvivesTrim(ws, BareMarker, BareMarker + body);
    UnwrapBare(content);
    assert !(BareMarker <= content) by { assert IsSpace(content[0]); }
  }

  predicate IsAsciiLetter(c: char) {
    ('a' <= c <= 'z') || ('A' <= c <= 'Z')
  }

  /** Index `j` holds the letter of a tag opening: `<x` or `</x`. */
  predicate TagLetterAt(s: string, j: int) {
    && 1 <= j < |s|
    && IsAsciiLetter(s[j])
    && (s[j - 1] == '<' || (j >= 2 && s[j - 1] == '/' && s[j - 2] == '<'))
  }

  /**
   * `isHtmlContent`, the test `/<\/?[a-z][\s\S]*>/i`: some `<`, optionally
   * followed by `/`, is followed by an ASCII letter and, later, by a `>`.
   */
  predicate IsHtml(s: string) {
    exists j, k :: 0 <= j < k < |s| && TagLetterAt(s, j) && s[k] == '>'
  }

  /** A left-to-right scan deciding `IsHtml` in one pass. */
  method ScanHtml(s: string) returns (found: bool)
    ensures found <==> IsHtml(s)
  {
    var seenTag := false;
    var k := 0;
    while k < |s|
      invariant 0 <= k <= |s|
      invariant seenTag <==> exists j :: 0 <= j < k && TagLetterAt(s, j)
      invariant forall j, m :: 0 <= j < m < k && TagLetterAt(s, j) ==> s[m] != '>'
    {
      if seenTag && s[k] == '>' {
        return true;
      }
      if TagLetterAt(s, k) {
        seenTag := true;
      }
      k := k + 1;
    }
    return false;
  }

  datatype Kind = Markdown | Html | Plain

  /** The rendering branch: markdown is tested first, then HTML. */
  function Classify(s: string): (k: Kind)
    ensures k == Markdown <==> IsMarkdown(s)
    ensures k == Html <==> !IsMarkdown(s) && IsHtml(s)
    ensures k == Plain <==> !IsMarkdown(s) && !IsHtml(s)
  {
    if IsMarkdown(s) then Markdown else if IsHtml(s) then Html else Plain
  }

  /** `content.replace(/\$2/g, '')`. */
  function RemoveMarkers(content: string): string {
    ReplaceAll(content, "$2", "")
  }

  /**
   * `preProcessContent`: markers removed, then the run-of-breaks rewrite of
   * the source (`collapse`, a regular expression not modelled here), then
   * every `---` turned into a rule.
   */
  function PreProcess(content: string, collapse: string -> string): string {
    ReplaceAll(collapse(RemoveMarkers(content)), "---", Rule)
  }

  /** Text with no `$` and no `-` that the break rewrite leaves alone is unchanged. */
  lemma PreProcessPlain(content: string, collapse: string -> string)
    requires '$' !in content && '-' !in content && collapse(content) == content
    ensures PreProcess(content, collapse) == content
  {
    ReplaceAllAbsent(content, "$2", "");
    ReplaceAllAbsent(content, "---", Rule);
  }

  /**
   * Marker removal is a single left-to-right pass, so pre-processing is not
   * idempotent: `$$22` loses one marker and the two characters around it
   * form a new one.
   */
  lemma PreProcessNotIdempotent(collapse: string -> string)
    requires collapse("$2") == "$2" && collapse("") == ""
    ensures PreProcess("$$22", collapse) == "$2"
    ensures PreProcess(PreProcess("$$22", collapse), collapse) == ""
  {
    MarkerPassLeavesMarker();
    ReplaceAllAbsent("$2", "---", Rule);
    assert "$2"[2..] == "";
    assert RemoveMarkers("$2") == "";
  }

  /** The inputs of the panel. */
  datatype PanelInput = PanelInput(
    isGenerating: bool,
    streamingContent: string,
    streamingId: Option<string>,
    activeId: Option<string>,
    chats: seq<Chat>)

  /** `shouldShowStreamingContent`. */
  predicate ShowStreaming(p: PanelInput) {
    p.streamingId == p.activeId && p.streamingContent != ""
  }

  /** `shouldShowLoadingPlaceholder`. */
  predicate ShowPlaceholder(p: PanelInput) {
    && p.isGenerating
    && p.streamingId == p.activeId
    && p.streamingContent == ""
    && !Any(AiChats(p.chats), IsEmptyChat)
  }

  predicate IsEmptyChat(c: Chat) {
    c.content == ""
  }

  /**
   * The text each branch hands to its markup rules: the cleaned text for
   * markdown, the pre-processed text for HTML, and the pre-processed text
   * with every line feed turned into `<br>` for plain text. The markup rules
   * themselves are regular expressions not modelled here.
   */
  function Body(kind: Kind, text: string, collapse: string -> string): (r: string)
    ensures kind == Markdown ==> r == Trim(r)
    ensures kind == Plain ==> '\n' !in r
  {
    match kind
    case Markdown => CleanMarkdown(text)
    case Html => PreProcess(text, collapse)
    case Plain =>
      ReplaceAllRemoves(PreProcess(text, collapse), '\n', "<br>");
      ReplaceAll(PreProcess(text, collapse), "\n", "<br>")
  }

  /**
   * One listed chat: its id, the text shown, how it is classified and the
   * body that classification renders, whether the streaming text stands in
   * for the chat's own content, and whether the loading dots are on.
   */
  datatype Card = Card(chatId: string, text: string, kind: Kind, body: string, streamed: bool, dots: bool)

  datatype PanelView = PanelView(cards: seq<Card>, placeholder: bool, emptyState: bool)

  function CardFor(p: PanelInput, collapse: string -> string, c: Chat): Card {
    var streamed := ShowStreaming(p) && c.content == "";
    var text := if streamed then p.streamingContent else c.content;
    Card(c.id, text, Classify(text), Body(Classify(text), text, collapse), streamed, p.isGenerating && c.content == "")
  }

  /** The panel for given inputs. */
  function Render(p: PanelInput, collapse: string -> string): (v: PanelView)
    ensures |v.cards| == |AiChats(p.chats)|
    ensures forall i :: 0 <= i < |v.cards| ==>
              && v.cards[i].chatId == AiChats(p.chats)[i].id
              && (v.cards[i].streamed <==> ShowStreaming(p) && AiChats(p.chats)[i].content == "")
              && v.cards[i].text == (if v.cards[i].streamed then p.streamingContent else AiChats(p.chats)[i].content)
              && v.cards[i].kind == Classify(v.cards[i].text)
              && v.cards[i].body == Body(v.cards[i].kind, v.cards[i].text, collapse)
              && (v.cards[i].dots <==> p.isGenerating && AiChats(p.chats)[i].content == "")
    ensures v.placeholder <==> ShowPlaceholder(p)
    ensures v.emptyState <==> |AiChats(p.chats)| == 0 && !ShowPlaceholder(p)
  {
    var ai := AiChats(p.chats);
    PanelView(Map(ai, c => CardFor(p, collapse, c)), ShowPlaceholder(p), |ai| == 0 && !ShowPlaceholder(p))
  }

  /**
   * The copy button copies the chat's own content, never the streaming
   * text: sanitised first when it is HTML (`sanitize`, regular expressions
   * not modelled here), then with its markers removed.
   */
  function CopyText(chat: Chat, sanitize: string -> string): (r: string)
    ensures !IsHtml(chat.content) && '$' !in chat.content ==> r == chat.content
  {
    if !IsHtml(chat.content) && '$' !in chat.content then
      ReplaceAllAbsent(chat.content, "$2", "");
      RemoveMarkers(chat.content)
    else RemoveMarkers(if IsHtml(chat.content) then sanitize(chat.content) else chat.content)
  }

  /** One removal pass can leave a marker behind in the copied text. */
  lemma CopyCanKeepMarker(chat: Chat, sanitize: string -> string)
    requires chat.content == "$$22"
    ensures CopyText(chat, sanitize) == "$2"
  {
    assert !IsHtml(chat.content) by {
      assert forall j :: 0 <= j < |chat.content| ==> !TagLetterAt(chat.content, j);
    }
    MarkerPassLeavesMarker();
  }

  lemma MarkerPassLeavesMarker()
    ensures RemoveMarkers("$$22") == "$2"
  {
    var s := "$$22";
    assert !("$2" <= s);
    assert s[1..] == "$22";
    assert s[1..][2..] == "2";
    assert !("$2" <= "2");
    assert "2"[1..] == "";
    assert RemoveMarkers("2") == "2";
    assert RemoveMarkers(s[1..]) == "" + RemoveMarkers("2");
  }

  /**
   * Streaming text and the placeholder never show together, and streaming
   * text only ever stands in for an empty system chat.
   */
  lemma StreamingOrPlaceholder(p: PanelInput, collapse: string -> string)
    ensures ShowPlaceholder(p) ==> forall i :: 0 <= i < |Render(p, collapse).cards| ==> !Render(p, collapse).cards[i].streamed
    ensures forall i :: 0 <= i < |Render(p, collapse).cards| && Render(p, collapse).cards[i].streamed ==>
              AiChats(p.chats)[i].role == SystemRole && AiChats(p.chats)[i].content == ""
              && p.streamingContent != "" && p.streamingId == p.activeId
  {
  }

  /**
   * While generating with nothing streamed yet, an empty system chat takes
   * the place of the placeholder.
   */
  lemma EmptyChatSuppressesPlaceholder(p: PanelInput, i: nat)
    requires i < |p.chats| && p.chats[i].role == SystemRole && p.chats[i].content == ""
    ensures !ShowPlaceholder(p)
  {
    var ai := AiChats(p.chats);
    assert p.chats[i] in ai;
    var j :| 0 <= j < |ai| && ai[j] == p.chats[i];
    assert IsEmptyChat(ai[j]);
  }
}

=== FILE: patterns.dfy ===
/**
 * The `ilike` filter as PostgREST hands it to PostgreSQL. In the filter
 * value every `*` stands for `%`. In the pattern `%` matches any run of
 * characters, `_` any one character, and `\` makes the next character
 * literal; letters compare after lower-casing (ASCII case mapping).
 */
module Patterns {
  import opened Text

  /** A character with a meaning of its own in an `ilike` value. */
  predicate Special(c: char) {
    c == '%' || c == '_' || c == '*' || c == '\\'
  }

  /** A value in which no character is special: it can only match itself. */
  predicate Plain(v: string) {
    forall k :: 0 <= k < |v| ==> !Special(v[k])
  }

  /** PostgREST's alias: every `*` of a filter value becomes `%`. */
  function Stars(v: string): (r: string)
    ensures |r| == |v|
    ensures forall k :: 0 <= k < |v| ==> r[k] == (if v[k] == '*' then '%' else v[k])
  {
    seq(|v|, k requires 0 <= k < |v| => if v[k] == '*' then '%' else v[k])
  }

  /**
   * PostgreSQL's `LIKE` with `\` as escape. A lone `\` at the end of the
   * pattern is compared as itself.
   */
  predicate Like(s: string, p: string)
    decreases |p|, |s|
  {
    if |p| == 0 then |s| == 0
    else if p[0] == '%' then Like(s, p[1..]) || (|s| > 0 && Like(s[1..], p))
    else if p[0] == '_' then |s| > 0 && Like(s[1..], p[1..])
    else if p[0] == '\\' && |p| >= 2 then |s| > 0 && s[0] == p[1] && Like(s[1..], p[2..])
    else |s| > 0 && s[0] == p[0] && Like(s[1..], p[1..])
  }

  /** The stored value `s` `ilike`s the filter value `v`. */
  predicate ILike(s: string, v: string) {
    Like(Lower(s), Lower(Stars(v)))
  }

  /** A pattern with no `%`, `_` or `\` matches exactly the string it spells. */
  lemma {:induction false} LikeLiteral(s: string, p: string)
    requires forall k :: 0 <= k < |p| ==> p[k] != '%' && p[k] != '_' && p[k] != '\\'
    ensures Like(s, p) <==> s == p
    decreases |p|
  {
    if |p| > 0 && |s| > 0 {
      LikeLiteral(s[1..], p[1..]);
      assert s == [s[0]] + s[1..] && p == [p[0]] + p[1..];
    }
  }

  /** Lower-casing leaves the special characters where they are and makes none. */
  lemma LowerKeepsSpecial(v: string)
    ensures forall k :: 0 <= k < |v| ==> (Special(Lower(v)[k]) <==> Special(v[k]))
    ensures forall k :: 0 <= k < |v| && Special(v[k]) ==> Lower(v)[k] == v[k]
  {
  }

  /** On a plain value `ilike` is equality up to case. */
  lemma PlainILike(s: string, v: string)
    requires Plain(v)
    ensures ILike(s, v) <==> Lower(s) == Lower(v)
  {
    assert Stars(v) == v;
    LowerKeepsSpecial(v);
    LikeLiteral(Lower(s), Lower(v));
  }

  /** `%` matches every string. */
  lemma {:induction false} PercentMatchesAll(s: string)
    ensures Like(s, "%")
    decreases |s|
  {
    if |s| > 0 {
      PercentMatchesAll(s[1..]);
    }
  }

  /** A lone `%` (or `*`) value matches every stored name. */
  lemma WildcardValue(s: string)
    ensures ILike(s, "%") && ILike(s, "*")
  {
    assert Lower(Stars("%")) == "%" && Lower(Stars("*")) == "%";
    PercentMatchesAll(Lower(s));
  }

  /**
   * `_` matches any one character, and `\b` only a `b`: "a_c" matches "abc",
   * while the value "a\b" matches "ab" but not the name "a\b" itself.
   */
  lemma WildcardExamples()
    ensures ILike("abc", "a_c")
    ensures ILike("ab", "a\\b")
    ensures !ILike("a\\b", "a\\b")
  {
    assert Lower(Stars("a_c")) == "a_c";
    assert Lower("abc") == "abc";
    assert Like("c", "c") by { assert Like("", ""); }
    assert Like("bc", "_c");
    assert Lower(Stars("a\\b")) == "a\\b";
    assert Lower("ab") == "ab";
    assert Like("b", "\\b") by { assert Like("", ""); }
    assert Lower("a\\b") == "a\\b";
    assert !Like("\\b", "\\b");
  }
}

=== FILE: pipeline.dfy ===
/**
 * The relay and the browser consumer put together: the frames the relay
 * writes, delivered in chunks that break only between whole frames, leave the
 * consumer's accumulator equal to the concatenation of the upstream deltas.
 * Two ways the pairing can lose text are stated as well: a frame without the
 * space after `data:` and a frame broken across two chunks.
 */
module Pipeline {
  import opened Wrappers
  import opened Text
  import Json
  import Relay
  import Consumer
  import Seqs

  /** The consumer's parser reads back every non-empty content the relay encodes. */
  ghost predicate DecodesFrames(parse: string -> Option<string>) {
    forall c :: c != "" ==> parse(Json.EncodeContent(c)) == Some(c)
  }

  /** The decoder of this model is such a parser. */
  lemma DecoderDecodesFrames()
    ensures DecodesFrames(Json.DecodeContent)
  {
    forall c | c != "" ensures Json.DecodeContent(Json.EncodeContent(c)) == Some(c) {
      Json.ContentRoundTrip(c);
    }
  }

  /** All parts concatenated, in order: the flat map of the identity. */
  function Flatten<T>(groups: seq<seq<T>>): seq<T>
  {
    Seqs.FlatMap(groups, (g: seq<T>) => g)
  }

  /** The chunks a receiver gets when each group of frames arrives as one chunk. */
  function Chunks(groups: seq<seq<string>>): (r: seq<string>)
    ensures |r| == |groups|
    ensures forall i :: 0 <= i < |groups| ==> r[i] == Concat(groups[i])
  {
    seq(|groups|, i requires 0 <= i < |groups| => Concat(groups[i]))
  }

  lemma {:induction false} FramesSlices(ds: seq<string>, k: nat)
    requires k <= |ds|
    ensures Relay.Frames(ds)[..k] == Relay.Frames(ds[..k])
    ensures Relay.Frames(ds)[k..] == Relay.Frames(ds[k..])
  {
    var fs := Relay.Frames(ds);
    var a := Relay.Frames(ds[..k]);
    var b := Relay.Frames(ds[k..]);
    assert forall i :: 0 <= i < k ==> fs[..k][i] == a[i];
    assert forall i :: 0 <= i < |ds| - k ==> fs[k..][i] == b[i];
  }

  /** The frame of a non-empty delta reads back as that delta. */
  lemma FrameReadsBack(c: string, parse: string -> Option<string>)
    requires DecodesFrames(parse) && c != ""
    ensures Consumer.PieceContent(Consumer.DataPrefix + Json.EncodeContent(c), parse) == Some(c)
  {
    var piece := Consumer.DataPrefix + Json.EncodeContent(c);
    assert piece[|Consumer.DataPrefix|..] == Json.EncodeContent(c);
  }

  /** The frames of a run, joined: the first frame's piece, the separator, then the others. */
  lemma FramesJoined(ds: seq<string>)
    requires |ds| > 0
    ensures Concat(Relay.Frames(ds))
            == (Consumer.DataPrefix + Json.EncodeContent(ds[0])) + Consumer.FrameSeparator + Concat(Relay.Frames(ds[1..]))
  {
    assert Relay.Frames(ds)[1..] == Relay.Frames(ds[1..]);
  }

  /** A frame's piece holds no line break. */
  lemma PieceHasNoNewline(c: string)
    ensures '\n' !in Consumer.DataPrefix + Json.EncodeContent(c)
  {
    assert '\n' !in Consumer.DataPrefix;
  }

  /** A piece without line breaks, followed by the separator, is split off whole. */
  lemma SplitPieceOff(whole: string, piece: string, rest: string)
    requires whole == piece + Consumer.FrameSeparator + rest
    requires '\n' !in piece
    ensures Split(whole, Consumer.FrameSeparator) == [piece] + Split(rest, Consumer.FrameSeparator)
  {
    SplitFromPiece(piece, Consumer.FrameSeparator, rest, "");
    assert "" + piece == piece;
  }

  /** The first frame of a run of frames is split off whole. */
  lemma FirstFrameSplits(ds: seq<string>)
    requires |ds| > 0
    ensures Split(Concat(Relay.Frames(ds)), Consumer.FrameSeparator)
            == [Consumer.DataPrefix + Json.EncodeContent(ds[0])] + Split(Concat(Relay.Frames(ds[1..])), Consumer.FrameSeparator)
  {
    FramesJoined(ds);
    PieceHasNoNewline(ds[0]);
    SplitPieceOff(Concat(Relay.Frames(ds)), Consumer.DataPrefix + Json.EncodeContent(ds[0]), Concat(Relay.Frames(ds[1..])));
  }

  /**
   * One chunk holding the frames of non-empty deltas, back to back, gives the
   * consumer exactly those deltas.
   */
  lemma {:induction false} ChunkOfFrames(ds: seq<string>, parse: string -> Option<string>)
    requires DecodesFrames(parse)
    requires forall i :: 0 <= i < |ds| ==> ds[i] != ""
    ensures Consumer.ChunkContents(Concat(Relay.Frames(ds)), parse) == ds
  {
    if |ds| == 0 {
      assert Concat(Relay.Frames(ds)) == "";
      assert Split("", Consumer.FrameSeparator) == [""];
      assert Consumer.PiecesContents([""], parse) == [] + Consumer.PiecesContents([], parse);
    } else {
      var piece := Consumer.DataPrefix + Json.EncodeContent(ds[0]);
      var tail := Split(Concat(Relay.Frames(ds[1..])), Consumer.FrameSeparator);
      FirstFrameSplits(ds);
      FrameReadsBack(ds[0], parse);
      assert ([piece] + tail)[0] == piece && ([piece] + tail)[1..] == tail;
      assert Consumer.PiecesContents([piece] + tail, parse) == [ds[0]] + Consumer.PiecesContents(tail, parse);
      ChunkOfFrames(ds[1..], parse);
      assert ds == [ds[0]] + ds[1..];
    }
  }

  /**
   * Frames grouped into chunks at whole-frame boundaries give the consumer
   * exactly the deltas the frames carry, in order.
   */
  lemma {:induction false} RegroupedFrames(ds: seq<string>, groups: seq<seq<string>>, parse: string -> Option<string>)
    requires DecodesFrames(parse)
    requires forall i :: 0 <= i < |ds| ==> ds[i] != ""
    requires Flatten(groups) == Relay.Frames(ds)
    ensures Consumer.StreamContents(Chunks(groups), parse) == ds
    decreases |groups|
  {
    if |groups| == 0 {
      assert |Relay.Frames(ds)| == 0;
    } else {
      var k := |groups[0]|;
      FirstGroup(ds, groups);
      ChunkOfFrames(ds[..k], parse);
      RegroupedFrames(ds[k..], groups[1..], parse);
      var cs := Chunks(groups);
      assert cs[0] == Concat(Relay.Frames(ds[..k]));
      assert cs[1..] == Chunks(groups[1..]);
      assert Consumer.StreamContents(cs, parse)
          == Consumer.ChunkContents(cs[0], parse) + Consumer.StreamContents(cs[1..], parse);
      assert ds == ds[..k] + ds[k..];
    }
  }

  /** The first group of a regrouping holds the frames of a prefix of the deltas. */
  lemma FirstGroup(ds: seq<string>, groups: seq<seq<string>>)
    requires |groups| > 0 && Flatten(groups) == Relay.Frames(ds)
    ensures |groups[0]| <= |ds|
    ensures groups[0] == Relay.Frames(ds[..|groups[0]|])
    ensures Flatten(groups[1..]) == Relay.Frames(ds[|groups[0]|..])
  {
    var k := |groups[0]|;
    var fs := Relay.Frames(ds);
    assert fs == groups[0] + Flatten(groups[1..]);
    assert fs[..k] == groups[0] && fs[k..] == Flatten(groups[1..]);
    FramesSlices(ds, k);
  }

  /**
   * The central property: the frames the relay writes for an upstream body,
   * delivered in chunks cut between whole frames, make the consumer
   * accumulate exactly the concatenation of the upstream deltas.
   */
  lemma RelayThenConsume(upstream: seq<string>, extract: string -> Option<string>,
                         groups: seq<seq<string>>, parse: string -> Option<string>)
    requires DecodesFrames(parse)
    requires Flatten(groups) == Relay.RelayStream(upstream, extract)
    ensures Concat(Consumer.StreamContents(Chunks(groups), parse))
         == Concat(Relay.StreamDeltas(upstream, extract))
  {
    Relay.RelayStreamFrames(upstream, extract);
    RegroupedFrames(Relay.StreamDeltas(upstream, extract), groups, parse);
  }

  /**
   * A whole generation over the relay: when the relay answers with its event
   * stream delivered in whole-frame chunks, the provider ends showing the
   * formatted concatenation of the upstream deltas.
   */
  lemma GenerationShowsRelayedText(s: Consumer.Session, prompt: string, systemPrompt: string,
                                   projectContext: string, freshId: string,
                                   fetch: Consumer.GenerateRequest -> Consumer.FetchReply,
                                   upstream: seq<string>, extract: string -> Option<string>,
                                   groups: seq<seq<string>>)
    requires !s.isGenerating && Trim(prompt) != ""
    requires Flatten(groups) == Relay.RelayStream(upstream, extract)
    requires fetch(Consumer.GenerateRequest(prompt, systemPrompt, projectContext, true))
          == Consumer.Answered(200, Some(Chunks(groups)), None)
    ensures Consumer.Generate(s, prompt, systemPrompt, projectContext, freshId, fetch, Json.DecodeContent).session
         == Consumer.Session(false, Consumer.Published(Concat(Relay.StreamDeltas(upstream, extract))), Some(freshId))
  {
    DecoderDecodesFrames();
    RelayThenConsume(upstream, extract, groups, Json.DecodeContent);
  }

  /**
   * The relay's own line reader accepts a `data:` field without the space,
   * but the consumer does not: a frame written that way is dropped.
   */
  lemma ConsumerNeedsSpace(c: string, extract: string -> Option<string>, parse: string -> Option<string>)
    requires extract(Json.EncodeContent(c)) == Some(c) && c != ""
    ensures Relay.LineDelta("data:" + Json.EncodeContent(c), extract) == Some(c)
    ensures Consumer.PieceContent("data:" + Json.EncodeContent(c), parse) == None
  {
    var p := Json.EncodeContent(c);
    var line := "data:" + p;
    assert p[0] == '{';
    assert line[0] == 'd' && !IsSpace(line[0]);
    assert Trim(line) != "";
    assert Relay.DataField <= line;
    assert line[|Relay.DataField|..] == p;
    assert Trim(p) != Relay.DoneMarker by {
      assert !IsSpace(p[0]);
    }
    assert line[5] == '{';
    assert !(Consumer.DataPrefix <= line);
  }

  /**
   * A frame broken across two chunks is lost: whole, it yields its content;
   * broken just after the opening brace of its document, neither half yields
   * anything.
   */
  lemma BrokenFrameIsLost(c: string)
    requires c != ""
    ensures Consumer.StreamContents([Relay.Frame(c)], Json.DecodeContent) == [c]
    ensures Consumer.StreamContents([Relay.Frame(c)[..7], Relay.Frame(c)[7..]], Json.DecodeContent) == []
  {
    DecoderDecodesFrames();
    ChunkOfFrames([c], Json.DecodeContent);
    assert Concat(Relay.Frames([c])) == Relay.Frame(c);
    assert [Relay.Frame(c)][1..] == [];
    HeadOfBrokenFrame(c);
    TailOfBrokenFrame(c);
    var cs := [Relay.Frame(c)[..7], Relay.Frame(c)[7..]];
    assert cs[1..] == [Relay.Frame(c)[7..]];
    assert [Relay.Frame(c)[7..]][1..] == [];
  }

  lemma HeadOfBrokenFrame(c: string)
    ensures Consumer.ChunkContents(Relay.Frame(c)[..7], Json.DecodeContent) == []
  {
    var head := Relay.Frame(c)[..7];
    assert head == "data: {";
    SplitAbsent(head, Consumer.FrameSeparator);
    assert head[|Consumer.DataPrefix|..] == "{";
    assert !(Json.ContentPrefix <= "{");
    assert Json.DecodeContent("{") == None;
    assert Consumer.PieceContent(head, Json.DecodeContent) == None;
    var pieces: seq<string> := [head];
    assert Split(head, Consumer.FrameSeparator) == pieces;
    assert pieces[1..] == [];
    assert Consumer.PiecesContents(pieces, Json.DecodeContent)
        == [] + Consumer.PiecesContents(pieces[1..], Json.DecodeContent);
  }

  lemma TailOfBrokenFrame(c: string)
    ensures Consumer.ChunkContents(Relay.Frame(c)[7..], Json.DecodeContent) == []
  {
    var e := Json.EncodeContent(c);
    var tail := Relay.Frame(c)[7..];
    assert tail == e[1..] + Consumer.FrameSeparator + "";
    assert e[1] == '"';
    assert '\n' !in e[1..];
    SplitFromPiece(e[1..], Consumer.FrameSeparator, "", "");
    assert "" + e[1..] == e[1..];
    assert Split(tail, Consumer.FrameSeparator) == [e[1..], ""];
    assert e[1..][0] == '"';
    assert !(Consumer.DataPrefix <= e[1..]);
    assert !(Consumer.DataPrefix <= "");
    assert Consumer.PieceContent(e[1..], Json.DecodeContent) == None;
    assert Consumer.PieceContent("", Json.DecodeContent) == None;
    var pieces: seq<string> := [e[1..], ""];
    assert pieces[1..] == [""];
    assert pieces[1..][1..] == [];
    assert Consumer.PiecesContents(pieces[1..], Json.DecodeContent)
        == [] + Consumer.PiecesContents(pieces[1..][1..], Json.DecodeContent);
    assert Consumer.PiecesContents(pieces, Json.DecodeContent)
        == [] + Consumer.PiecesContents(pieces[1..], Json.DecodeContent);
  }
}

=== FILE: projects.dfy ===
/**
 * The project actions over an abstract `projects` table: the paged list
 * of the user's projects, one project by id, and the owner-scoped update,
 * delete and create. The current user is a parameter (None when signed
 * out), and each database error is given as its message.
 */
module ProjectsActions {
  import opened Wrappers
  import opened Seqs
  import opened Paging
  import ActionHandler

  datatype Project = Project(id: string, userId: string, name: string, description: string)

  /**
   * The rows of a span, clipped to the rows that exist. A filter on a
   * missing user id (`undefined`) matches no row.
   */
  function Clip(rows: seq<Project>, span: Span): (r: seq<Project>)
    ensures |r| <= |rows| && |r| <= if span.to < span.from then 0 else span.to - span.from + 1
    ensures forall i :: 0 <= i < |r| ==> 0 <= span.from + i < |rows| && r[i] == rows[span.from + i]
    ensures span.from < 0 ==> r == []
    ensures 0 <= span.from ==>
              var hi := if span.to + 1 > |rows| then |rows| else span.to + 1;
              |r| == if span.from < hi then hi - span.from else 0
  {
    var lo := if span.from < 0 then 0 else span.from;
    var hi := if span.to + 1 > |rows| then |rows| else span.to + 1;
    if span.from < 0 || lo >= hi then [] else rows[lo..hi]
  }

  predicate OwnedBy(user: Option<string>, p: Project) {
    user.Some? && p.userId == user.value
  }

  /**
   * `getProjects`: the requested span of the user's projects. `failed`
   * stands for an error reply, whose `null` data becomes the empty list.
   */
  function GetProjects(table: seq<Project>, user: Option<string>, page: Option<int>, pageSize: Option<int>,
                       failed: bool): (r: seq<Project>)
    ensures failed ==> r == []
    ensures forall i :: 0 <= i < |r| ==> OwnedBy(user, r[i]) && r[i] in table
    ensures |r| <= pageSize.GetOr(DefaultPageSize) || |r| == 0
  {
    if failed then []
    else Clip(Filter(table, (p: Project) => OwnedBy(user, p)), Requested(page, pageSize))
  }

  /** Signed out, the list is empty: the owner filter matches no row. */
  lemma SignedOutSeesNothing(table: seq<Project>, page: Option<int>, pageSize: Option<int>, failed: bool)
    ensures GetProjects(table, None, page, pageSize, failed) == []
  {
    var owned := (p: Project) => OwnedBy(None, p);
    FilterEmpty(table, owned);
  }

  /** The first page lists the user's first projects, up to ten, in table order. */
  lemma FirstPageIsFirstProjects(table: seq<Project>, user: string)
    ensures var owned := Filter(table, (p: Project) => OwnedBy(Some(user), p));
            GetProjects(table, Some(user), None, None, false)
            == owned[..if |owned| < DefaultPageSize then |owned| else DefaultPageSize]
  {
  }

  /**
   * Page `p` of size `s` lists the user's projects from index `(p - 1) * s`
   * up to, not including, `p * s`, in table order; a page past the end is
   * empty.
   */
  lemma PageOfProjects(table: seq<Project>, user: string, p: int, s: int)
    requires p >= 1 && s > 0
    ensures var owned := Filter(table, (q: Project) => OwnedBy(Some(user), q));
            var lo := (p - 1) * s;
            var hi := if p * s < |owned| then p * s else |owned|;
            GetProjects(table, Some(user), Some(p), Some(s), false) == if lo < hi then owned[lo..hi] else []
  {
    var span := Requested(Some(p), Some(s));
    assert span.to + 1 == p * s by {
      assert (p - 1) * s + s == p * s;
    }
    assert span.from >= 0 by {
      assert (p - 1) * s >= 0;
    }
  }

  const ProjectIdRequired: string := "Project ID is required"

  /** `GetProjectSchema`: the project id is a non-empty string. */
  function ProjectSchema(projectId: string): (r: ActionHandler.Parse)
    ensures r.Passed? <==> projectId != ""
    ensures r.ZodFailed? ==> r.fieldErrors == map["projectId" := [ProjectIdRequired]]
  {
    if projectId == "" then ActionHandler.ZodFailed(map["projectId" := [ProjectIdRequired]])
    else ActionHandler.Passed
  }

  /** `getProject`'s answer: the wrapper's error, or success with the row (None for `null`). */
  datatype Lookup = Invalid(error: ActionHandler.ActionError) | Found(data: Option<Project>)

  /** `table[i]` is the one row whose id is `id`. */
  predicate OnlyWithId(table: seq<Project>, id: string, i: int) {
    OnlyAt(table, (p: Project) => p.id == id, i)
  }

  lemma IdFilterOne(table: seq<Project>, id: string)
    ensures |Filter(table, (p: Project) => p.id == id)| == 1 <==> exists i :: OnlyWithId(table, id, i)
    ensures forall i :: OnlyWithId(table, id, i) ==> Filter(table, (p: Project) => p.id == id) == [table[i]]
  {
    var f := (p: Project) => p.id == id;
    FilterOne(table, f);
    if |Filter(table, f)| == 1 {
      var i :| OnlyAt(table, f, i);
      assert OnlyWithId(table, id, i);
    }
  }

  /** `.eq('id', projectId).single()`: the row when exactly one has that id, else `null`. */
  function Single(table: seq<Project>, id: string): (r: Option<Project>)
    ensures r.Some? ==> r.value in table && r.value.id == id
    ensures r.Some? <==> exists i :: OnlyWithId(table, id, i)
    ensures forall i :: OnlyWithId(table, id, i) ==> r == Some(table[i])
  {
    var rows := Filter(table, (p: Project) => p.id == id);
    IdFilterOne(table, id);
    if |rows| == 1 then Some(rows[0]) else None
  }

  /**
   * `getProject`: validated through the action wrapper, then selected by id
   * alone. A missing row is not an error: the `!project` test looks at the
   * reply object, which is always there.
   */
  function GetProject(table: seq<Project>, projectId: string): (r: Lookup)
    ensures r.Invalid? <==> projectId == ""
    ensures r.Invalid? ==> r.error == ActionHandler.ValidationError(map["projectId" := [ProjectIdRequired]])
    ensures r.Found? ==> r.data == Single(table, projectId)
  {
    var (outcome, _) := ActionHandler.Action(Some(projectId), Some(ProjectSchema), None,
                                             ActionHandler.Session(false, None));
    match outcome
    case Failed(error) => Invalid(error)
    case Ready(_, _) => Found(Single(table, projectId))
  }

  /** The lookup does not check the owner: the only row with that id is returned, whoever owns it. */
  lemma GetProjectIgnoresOwner(table: seq<Project>, p: Project)
    requires p.id != "" && p in table
    requires forall i :: 0 <= i < |table| && table[i].id == p.id ==> table[i] == p
    requires multiset(table)[p] == 1
    ensures GetProject(table, p.id) == Found(Some(p))
  {
    OnlyRow(table, p);
  }

  lemma {:induction false} OnlyRow(table: seq<Project>, p: Project)
    requires forall i :: 0 <= i < |table| && table[i].id == p.id ==> table[i] == p
    requires multiset(table)[p] == 1
    ensures Filter(table, (q: Project) => q.id == p.id) == [p]
  {
    var f := (q: Project) => q.id == p.id;
    assert table == [table[0]] + table[1..];
    if table[0] == p {
      assert multiset(table[1..])[p] == 0;
      assert forall i :: 0 <= i < |table[1..]| ==> !f(table[1..][i]) by {
        forall i | 0 <= i < |table[1..]|
          ensures !f(table[1..][i])
        {
          assert table[1..][i] in multiset(table[1..]);
          assert table[1..][i] != p;
          assert table[i + 1] == table[1..][i];
        }
      }
      FilterEmpty(table[1..], f);
    } else {
      assert !f(table[0]);
      OnlyRow(table[1..], p);
    }
  }

  /** The fields an update sets: `Partial<Project>`. */
  datatype Patch = Patch(id: Option<string>, userId: Option<string>, name: Option<string>, description: Option<string>)

  function Apply(p: Project, patch: Patch): (r: Project)
    ensures r.id == patch.id.GetOr(p.id) && r.userId == patch.userId.GetOr(p.userId)
    ensures r.name == patch.name.GetOr(p.name) && r.description == patch.description.GetOr(p.description)
  {
    Project(patch.id.GetOr(p.id), patch.userId.GetOr(p.userId), patch.name.GetOr(p.name),
            patch.description.GetOr(p.description))
  }

  /** The row an update or delete may touch: that id, owned by the current user. */
  predicate Targeted(user: Option<string>, id: string, p: Project) {
    p.id == id && OwnedBy(user, p)
  }

  const UpdateFailed: string := "Failed to update project: "
  const DeleteFailed: string := "Failed to delete project: "

  /** An action's effect: the table afterwards, and the value returned or the message thrown. */
  datatype Change<T> = Change(table: seq<Project>, result: Result<T, string>)

  /**
   * `updateProject`: the patch goes to the targeted rows; the first updated
   * row is returned (None for `undefined` when no row matched). An error
   * reply changes nothing and is rethrown with a prefix.
   */
  function UpdateProject(table: seq<Project>, user: Option<string>, id: string, patch: Patch,
                         error: Option<string>): (r: Change<Option<Project>>)
    ensures error.Some? ==> r == Change(table, Err(UpdateFailed + error.value))
    ensures |r.table| == |table|
    ensures forall i :: 0 <= i < |table| ==>
              r.table[i] == (if error.None? && Targeted(user, id, table[i]) then Apply(table[i], patch) else table[i])
    ensures r.result.Ok? && r.result.value.Some? ==> r.result.value.value in r.table
  {
    if error.Some? then Change(table, Err(UpdateFailed + error.value))
    else
      var updated := Map(table, (p: Project) => if Targeted(user, id, p) then Apply(p, patch) else p);
      var hits := Filter(table, (p: Project) => Targeted(user, id, p));
      if |hits| == 0 then Change(updated, Ok(None))
      else
        assert hits[0] in table;
        Change(updated, Ok(Some(Apply(hits[0], patch))))
  }

  /** An update never changes a row that is not the user's, nor another id. */
  lemma UpdateScoped(table: seq<Project>, user: Option<string>, id: string, patch: Patch,
                     error: Option<string>, i: int)
    requires 0 <= i < |table| && !Targeted(user, id, table[i])
    ensures UpdateProject(table, user, id, patch, error).table[i] == table[i]
  {
  }

  /** Updating twice with the same patch is updating once. */
  lemma UpdateIdempotent(table: seq<Project>, user: Option<string>, id: string, patch: Patch)
    ensures var once := UpdateProject(table, user, id, patch, None).table;
            UpdateProject(once, user, id, patch, None).table == once
  {
    var once := UpdateProject(table, user, id, patch, None).table;
    var twice := UpdateProject(once, user, id, patch, None).table;
    assert forall i :: 0 <= i < |once| ==> twice[i] == once[i];
  }

  /** `deleteProject`: the targeted rows leave the table; an error reply changes nothing and is rethrown. */
  function DeleteProject(table: seq<Project>, user: Option<string>, id: string, error: Option<string>): (r: Change<()>)
    ensures error.Some? ==> r == Change(table, Err(DeleteFailed + error.value))
    ensures error.None? ==> r.result.Ok?
    ensures forall i :: 0 <= i < |r.table| ==> r.table[i] in table
    ensures error.None? ==> forall i :: 0 <= i < |r.table| ==> !Targeted(user, id, r.table[i])
    ensures forall i :: 0 <= i < |table| && !Targeted(user, id, table[i]) ==> table[i] in r.table
  {
    if error.Some? then Change(table, Err(DeleteFailed + error.value))
    else Change(Filter(table, (p: Project) => !Targeted(user, id, p)), Ok(()))
  }

  /** What a create form carries; a stray `userId` is ignored. */
  datatype NewProject = NewProject(name: string, description: string, userId: Option<string>)

  const AuthenticationRequired: string := "Authentication required"
  const CreateFailed: string := "Failed to create project: "

  /**
   * `createProject`: without a user it throws before any insert; otherwise
   * the row gets `freshId` and the current user as owner, whatever the form
   * says.
   */
  function CreateProject(table: seq<Project>, user: Option<string>, form: NewProject, freshId: string,
                         error: Option<string>): (r: Change<Project>)
    ensures user.None? ==> r == Change(table, Err(AuthenticationRequired))
    ensures user.Some? && error.Some? ==> r == Change(table, Err(CreateFailed + error.value))
    ensures r.result.Ok? ==> r.table == table + [r.result.value]
                             && r.result.value.userId == user.value && r.result.value.id == freshId
                             && r.result.value.name == form.name && r.result.value.description == form.description
  {
    if user.None? then Change(table, Err(AuthenticationRequired))
    else if error.Some? then Change(table, Err(CreateFailed + error.value))
    else
      var p := Project(freshId, user.value, form.name, form.description);
      Change(table + [p], Ok(p))
  }

  /** Deleting a project right after creating it, with an unused id, gives back the table. */
  lemma DeleteUndoesCreate(table: seq<Project>, user: string, form: NewProject, freshId: string)
    requires forall i :: 0 <= i < |table| ==> table[i].id != freshId
    ensures var created := CreateProject(table, Some(user), form, freshId, None);
            DeleteProject(created.table, Some(user), freshId, None).table == table
  {
    var p := Project(freshId, user, form.name, form.description);
    var f := (q: Project) => !Targeted(Some(user), freshId, q);
    FilterAppend(table, [p], f);
    FilterAll(table, f);
    assert [p][1..] == [];
  }
}

=== FILE: relay.dfy ===
/**
 * The completion relay endpoint (`POST /api/deepseek`): it checks the prompt,
 * composes the upstream chat request, and either returns the whole answer or
 * re-frames the upstream event stream into frames `data: {"content": c}\n\n`.
 *
 * Of the server-sent-events format (section 9.2 of the WHATWG HTML Living
 * Standard) only single-line `data:` fields are handled, and every network
 * chunk is split into lines on its own, with nothing carried to the next chunk.
 */
module Relay {
  import opened Wrappers
  import opened Text
  import Json
  import Seqs

  /**
   * One field of a parsed JSON body: missing, or the JSON value it holds
   * (arrays and objects are Composite).
   */
  datatype JsonField = Absent | Null | Boolean(b: bool) | Number(x: real) | Str(s: string) | Composite

  /**
   * The request body after `request.json()`. A prompt or context that is
   * absent or falsy is None; a truthy context is carried as its
   * `JSON.stringify` rendering. `stream` is the field as sent.
   */
  datatype RelayRequest = RelayRequest(
    prompt: Option<string>,
    systemPrompt: Option<string>,
    projectContext: Option<string>,
    stream: JsonField)

  /**
   * Whether `if (stream)` takes the streaming branch: the default `true`
   * replaces only a missing field, and any value present is tested for
   * JavaScript truthiness.
   */
  predicate Streams(stream: JsonField) {
    match stream
    case Absent => true
    case Null => false
    case Boolean(b) => b
    case Number(x) => x != 0.0
    case Str(s) => s != ""
    case Composite => true
  }

  /** The chat-completion request sent upstream. */
  datatype UpstreamRequest = UpstreamRequest(
    model: string,
    systemContent: Option<string>,
    userContent: string,
    temperature: real,
    stream: bool)

  /**
   * What the upstream provider does with a request: the connection fails, or
   * it answers with a status, a body read as decoded text chunks (None when
   * there is no body), an optional failure after those chunks, and what
   * `(await response.json()).choices[0].message.content` yields when the body
   * is read whole (Err with the thrown message when that throws).
   */
  datatype UpstreamReply =
    | Unreachable(message: string)
    | Response(status: int, body: Option<seq<string>>, readError: Option<string>,
               content: Result<string, string>)
  {
    predicate Ok() requires Response? { 200 <= status <= 299 }
  }

  datatype JsonBody = ErrorBody(error: string) | OutputBody(output: string)

  datatype RelayResponse =
    | JsonReply(status: int, body: JsonBody)
    | EventStream(frames: seq<string>, errored: bool)

  /** The response and the upstream request made, if any. */
  datatype Exchange = Exchange(response: RelayResponse, sent: Option<UpstreamRequest>)

  const DataField: string := "data:"
  const DoneMarker: string := "[DONE]"

  /** The normalised frame the relay writes for one text delta. */
  function Frame(c: string): string {
    "data: " + Json.EncodeContent(c) + "\n\n"
  }

  function Frames(deltas: seq<string>): (r: seq<string>)
    ensures |r| == |deltas|
    ensures forall i :: 0 <= i < |deltas| ==> r[i] == Frame(deltas[i])
  {
    if |deltas| == 0 then [] else [Frame(deltas[0])] + Frames(deltas[1..])
  }

  lemma FramesAppend(a: seq<string>, b: seq<string>)
    ensures Frames(a + b) == Frames(a) + Frames(b)
  {
  }

  /**
   * The text delta one upstream line carries: None for a blank line, a line
   * without the `data:` field name, the `[DONE]` marker, a payload the
   * extractor cannot parse, and an empty delta. `extract` stands for
   * `JSON.parse(data).choices[0]?.delta?.content || ''`, None when it throws.
   */
  function LineDelta(line: string, extract: string -> Option<string>): Option<string> {
    if Trim(line) == "" || !(DataField <= line) then None
    else
      var data := line[|DataField|..];
      if Trim(data) == DoneMarker then None
      else
        match extract(data)
        case Some(c) => if c == "" then None else Some(c)
        case None => None
  }

  /** What one line contributes: its delta, if it carries one. */
  function LineOutput(line: string, extract: string -> Option<string>): (r: seq<string>)
    ensures |r| <= 1
    ensures |r| == 1 <==> LineDelta(line, extract).Some?
    ensures |r| == 1 ==> r[0] == LineDelta(line, extract).value && r[0] != ""
  {
    match LineDelta(line, extract) case Some(c) => [c] case None => []
  }

  /** The deltas of a sequence of lines, in line order. */
  function LinesDeltas(lines: seq<string>, extract: string -> Option<string>): (r: seq<string>)
    ensures forall i :: 0 <= i < |r| ==> r[i] != ""
  {
    var out := (line: string) => LineOutput(line, extract);
    Seqs.FlatMapAll(lines, out, (c: string) => c != "");
    Seqs.FlatMap(lines, out)
  }

  lemma LinesDeltasAppend(a: seq<string>, b: seq<string>, extract: string -> Option<string>)
    ensures LinesDeltas(a + b, extract) == LinesDeltas(a, extract) + LinesDeltas(b, extract)
  {
    Seqs.FlatMapAppend(a, b, (line: string) => LineOutput(line, extract));
  }

  /** The deltas one network chunk yields when split into lines on its own. */
  function ChunkDeltas(chunk: string, extract: string -> Option<string>): seq<string> {
    LinesDeltas(Split(chunk, "\n"), extract)
  }

  /** The frames the transform stage writes for one chunk. */
  function TransformChunk(chunk: string, extract: string -> Option<string>): seq<string> {
    Frames(ChunkDeltas(chunk, extract))
  }

  /** The deltas of a whole upstream body: each chunk on its own, in order. */
  function StreamDeltas(chunks: seq<string>, extract: string -> Option<string>): (r: seq<string>)
    ensures forall i :: 0 <= i < |r| ==> r[i] != ""
  {
    var out := (chunk: string) => ChunkDeltas(chunk, extract);
    Seqs.FlatMapAll(chunks, out, (c: string) => c != "");
    Seqs.FlatMap(chunks, out)
  }

  /** The frames written for a whole upstream body. */
  function RelayStream(chunks: seq<string>, extract: string -> Option<string>): seq<string> {
    Seqs.FlatMap(chunks, (chunk: string) => TransformChunk(chunk, extract))
  }

  /** The relay writes exactly one frame per non-empty delta, in delta order. */
  lemma {:induction false} RelayStreamFrames(chunks: seq<string>, extract: string -> Option<string>)
    ensures RelayStream(chunks, extract) == Frames(StreamDeltas(chunks, extract))
  {
    if |chunks| > 0 {
      RelayStreamFrames(chunks[1..], extract);
      FramesAppend(ChunkDeltas(chunks[0], extract), StreamDeltas(chunks[1..], extract));
    }
  }

  /**
   * No state is carried from one chunk to the next: the output for a body is
   * the output for its first part followed by the output for the rest.
   */
  lemma RelayStreamAppend(a: seq<string>, b: seq<string>, extract: string -> Option<string>)
    ensures RelayStream(a + b, extract) == RelayStream(a, extract) + RelayStream(b, extract)
  {
    Seqs.FlatMapAppend(a, b, (chunk: string) => TransformChunk(chunk, extract));
  }

  /**
   * Within one chunk, a line that yields nothing, because it is blank, not a
   * data line, the `[DONE]` marker or unparseable, does not stop the lines
   * after it: the chunk's output is the output of the text before the newline
   * followed by the output of the text after it.
   */
  lemma LaterLinesStillProcessed(a: string, b: string, extract: string -> Option<string>)
    ensures TransformChunk(a + "\n" + b, extract) == TransformChunk(a, extract) + TransformChunk(b, extract)
  {
    SplitSingleAppend(a, '\n', b);
    LinesDeltasAppend(Split(a, "\n"), Split(b, "\n"), extract);
    FramesAppend(ChunkDeltas(a, extract), ChunkDeltas(b, extract));
  }

  /** A single line (no newline inside) yields exactly the frame of its delta. */
  lemma SingleLineChunk(line: string, extract: string -> Option<string>)
    requires '\n' !in line
    ensures TransformChunk(line, extract)
         == (match LineDelta(line, extract) case Some(c) => [Frame(c)] case None => [])
  {
    SplitAbsent(line, "\n");
    assert [line][1..] == [];
    var d := LineDelta(line, extract);
    assert LinesDeltas([line], extract)
        == (match d case Some(c) => [c] case None => []) + LinesDeltas([], extract);
  }

  /**
   * A blank line, a line without the `data:` field, a `[DONE]` payload, an
   * unparseable payload and an empty delta all produce no output.
   */
  lemma IgnoredLinesYieldNothing(line: string, extract: string -> Option<string>)
    requires '\n' !in line
    requires || Trim(line) == ""
             || !(DataField <= line)
             || Trim(line[|DataField|..]) == DoneMarker
             || extract(line[|DataField|..]) in {None, Some("")}
    ensures TransformChunk(line, extract) == []
  {
    SingleLineChunk(line, extract);
  }

  /**
   * A data line whose payload parses to a non-empty delta yields exactly one
   * frame carrying that delta.
   */
  lemma DataLineYieldsOneFrame(line: string, extract: string -> Option<string>, c: string)
    requires '\n' !in line && DataField <= line && Trim(line) != ""
    requires Trim(line[|DataField|..]) != DoneMarker
    requires extract(line[|DataField|..]) == Some(c) && c != ""
    ensures TransformChunk(line, extract) == [Frame(c)]
  {
    SingleLineChunk(line, extract);
  }

  /**
   * A data line split across two chunks is lost: with an extractor that reads
   * `" A"` as the delta "hi", the whole line yields one frame and the two
   * halves yield none.
   */
  lemma SplitLineIsLost()
    ensures RelayStream(["data: A\n"], ExampleExtract) == [Frame("hi")]
    ensures RelayStream(["data", ": A\n"], ExampleExtract) == []
  {
    WholeLineRelayed();
    HalvesDropped();
  }

  lemma WholeLineRelayed()
    ensures RelayStream(["data: A\n"], ExampleExtract) == [Frame("hi")]
  {
    var whole := "data: A";
    var chunk := whole + "\n" + "";
    assert chunk == "data: A\n";
    LaterLinesStillProcessed(whole, "", ExampleExtract);
    DataLineRelayed();
    IgnoredLinesYieldNothing("", ExampleExtract);
    assert TransformChunk(chunk, ExampleExtract) == [Frame("hi")];
    Seqs.FlatMapSingle(chunk, (c: string) => TransformChunk(c, ExampleExtract));
  }

  lemma DataLineRelayed()
    ensures TransformChunk("data: A", ExampleExtract) == [Frame("hi")]
  {
    var whole := "data: A";
    assert '\n' !in whole;
    assert DataField <= whole;
    assert whole[|DataField|..] == " A";
    assert Trim(whole) != "" by { assert !IsSpace(whole[0]); }
    assert Trim(" A") != DoneMarker by { assert |Trim(" A")| <= 2; }
    DataLineYieldsOneFrame(whole, ExampleExtract, "hi");
  }

  lemma HalvesDropped()
    ensures RelayStream(["data", ": A\n"], ExampleExtract) == []
  {
    HeadHalfDropped();
    TailHalfDropped();
    var cs := ["data", ": A\n"];
    assert cs[1..] == [": A\n"];
    assert [": A\n"][1..] == [];
    assert RelayStream(cs, ExampleExtract)
        == TransformChunk("data", ExampleExtract) + RelayStream([": A\n"], ExampleExtract);
  }

  lemma HeadHalfDropped()
    ensures TransformChunk("data", ExampleExtract) == []
  {
    assert '\n' !in "data";
    assert !(DataField <= "data") by { assert |"data"| < |DataField|; }
    IgnoredLinesYieldNothing("data", ExampleExtract);
  }

  lemma TailHalfDropped()
    ensures TransformChunk(": A\n", ExampleExtract) == []
  {
    var tail := ": A";
    assert tail + "\n" + "" == ": A\n";
    LaterLinesStillProcessed(tail, "", ExampleExtract);
    assert '\n' !in tail;
    assert !(DataField <= tail) by { assert tail[0] != DataField[0]; }
    IgnoredLinesYieldNothing(tail, ExampleExtract);
    IgnoredLinesYieldNothing("", ExampleExtract);
  }

  /** An extractor that reads the payload `" A"` as the delta "hi" and nothing else. */
  function ExampleExtract(d: string): Option<string> {
    if d == " A" then Some("hi") else None
  }

  /** A prompt that is absent or empty is refused. */
  predicate PromptMissing(req: RelayRequest) {
    req.prompt.None? || req.prompt.value == ""
  }

  function UserContent(req: RelayRequest): string
    requires !PromptMissing(req)
  {
    match req.projectContext
    case Some(ctx) => "Project: " + ctx + "\n\n" + req.prompt.value
    case None => req.prompt.value
  }

  function Compose(req: RelayRequest): UpstreamRequest
    requires !PromptMissing(req)
  {
    UpstreamRequest("deepseek-chat", req.systemPrompt, UserContent(req), 0.7, Streams(req.stream))
  }

  /**
   * The whole handler. `body` is the parsed request (Err with the message
   * when the body is not JSON), `upstream` the provider and `extract` the
   * per-line delta extractor.
   */
  function Post(body: Result<RelayRequest, string>,
                upstream: UpstreamRequest -> UpstreamReply,
                extract: string -> Option<string>): (r: Exchange)
    ensures body.Err? ==> r == Exchange(JsonReply(500, ErrorBody(body.error)), None)
    ensures body.Ok? && PromptMissing(body.value)
            ==> r == Exchange(JsonReply(400, ErrorBody("Prompt is required")), None)
    ensures r.sent.Some? <==> body.Ok? && !PromptMissing(body.value)
    ensures r.sent.Some? ==>
              var req := body.value;
              && r.sent.value.stream == Streams(req.stream)
              && r.sent.value.systemContent == req.systemPrompt
              && (req.projectContext.None? ==> r.sent.value.userContent == req.prompt.value)
              && (req.projectContext.Some? ==>
                    r.sent.value.userContent
                    == "Project: " + req.projectContext.value + "\n\n" + req.prompt.value)
    ensures r.sent.Some? ==>
              match upstream(r.sent.value)
              case Unreachable(m) => r.response == JsonReply(500, ErrorBody(m))
              case Response(status, chunks, readError, content) =>
                if !(200 <= status <= 299) then r.response == JsonReply(status, ErrorBody("API error"))
                else if r.sent.value.stream then
                  (chunks.None? ==> r.response == JsonReply(500, ErrorBody("No response body from API")))
                  && (chunks.Some? ==>
                        r.response == EventStream(Frames(StreamDeltas(chunks.value, extract)), readError.Some?))
                else
                  (content.Ok? ==> r.response == JsonReply(200, OutputBody(content.value)))
                  && (content.Err? ==> r.response == JsonReply(500, ErrorBody(content.error)))
  {
    match body
    case Err(m) => Exchange(JsonReply(500, ErrorBody(m)), None)
    case Ok(req) =>
      if PromptMissing(req) then Exchange(JsonReply(400, ErrorBody("Prompt is required")), None)
      else
        var sent := Compose(req);
        var response :=
          match upstream(sent)
          case Unreachable(m) => JsonReply(500, ErrorBody(m))
          case Response(status, chunks, readError, content) =>
            if !(200 <= status <= 299) then JsonReply(status, ErrorBody("API error"))
            else if sent.stream then
              match chunks
              case None => JsonReply(500, ErrorBody("No response body from API"))
              case Some(cs) =>
                RelayStreamFrames(cs, extract);
                EventStream(RelayStream(cs, extract), readError.Some?)
            else
              match content
              case Ok(text) => JsonReply(200, OutputBody(text))
              case Err(m) => JsonReply(500, ErrorBody(m));
        Exchange(response, Some(sent))
  }

  /**
   * Only a missing `stream` field defaults to streaming: the JSON values
   * `null`, `false`, `0` and `""` ask for the whole answer, and every other
   * value for the stream.
   */
  lemma StreamUnlessFalsy(req: RelayRequest, upstream: UpstreamRequest -> UpstreamReply,
                          extract: string -> Option<string>)
    requires !PromptMissing(req)
    ensures var r := Post(Ok(req), upstream, extract);
            r.sent.Some?
            && (r.sent.value.stream <==> req.stream !in {Null, Boolean(false), Number(0.0), Str("")})
  {
  }
}

=== FILE: routes.dfy ===
/**
 * The application's paths: the fixed pages, the builders for the pages
 * of a profile, a project, a tool and a conversation, and the links of
 * the top navigation.
 */
module Routes {
  const Home: string := "/"
  const AdsLibrary: string := "/ads"
  const ReeveCollection: string := "/reeve-collection"

  const ProfilePrefix: string := "/profile/"
  const ProjectPrefix: string := "/projects/"

  function Profile(id: string): (r: string)
    ensures ProfilePrefix <= r && r[|ProfilePrefix|..] == id
  {
    ProfilePrefix + id
  }

  function Project(projectId: string): (r: string)
    ensures ProjectPrefix <= r && r[|ProjectPrefix|..] == projectId
  {
    ProjectPrefix + projectId
  }

  /** A tool page lies under its project's page. */
  function Tool(projectId: string, toolSlug: string): (r: string)
    ensures Project(projectId) <= r && r[|Project(projectId)|..] == "/tools/" + toolSlug
  {
    Project(projectId) + "/tools/" + toolSlug
  }

  /** A conversation page lies under its tool's page. */
  function Conversation(projectId: string, toolSlug: string, conversationId: string): (r: string)
    ensures Tool(projectId, toolSlug) <= r
    ensures r[|Tool(projectId, toolSlug)|..] == "/conversations/" + conversationId
  {
    Tool(projectId, toolSlug) + "/conversations/" + conversationId
  }

  /** Strings that agree after a common prefix agree. */
  lemma DropPrefix(pre: string, x: string, y: string)
    requires pre + x == pre + y
    ensures x == y
  {
    assert x == (pre + x)[|pre|..];
    assert y == (pre + y)[|pre|..];
  }

  /** In a slash-free segment followed by a slash, that slash is the first one. */
  lemma FirstSlash(a: string, x: string)
    requires '/' !in a
    ensures (a + "/" + x)[|a|] == '/'
    ensures forall k :: 0 <= k < |a| ==> (a + "/" + x)[k] != '/'
  {
    forall k | 0 <= k < |a|
      ensures (a + "/" + x)[k] != '/'
    {
      assert (a + "/" + x)[k] == a[k];
      assert a[k] in a;
    }
  }

  /** A slash-free segment followed by a slash is read back unambiguously. */
  lemma SegmentCut(a: string, x: string, b: string, y: string)
    requires '/' !in a && '/' !in b
    requires a + "/" + x == b + "/" + y
    ensures a == b && x == y
  {
    var s := a + "/" + x;
    FirstSlash(a, x);
    FirstSlash(b, y);
    assert |a| == |b|;
    assert a == s[..|a|] == (b + "/" + y)[..|b|] == b;
    DropPrefix(a + "/", x, y);
  }

  lemma ProfileInjective(id1: string, id2: string)
    ensures Profile(id1) == Profile(id2) ==> id1 == id2
  {
    if Profile(id1) == Profile(id2) {
      DropPrefix(ProfilePrefix, id1, id2);
    }
  }

  lemma ProjectInjective(p1: string, p2: string)
    ensures Project(p1) == Project(p2) ==> p1 == p2
  {
    if Project(p1) == Project(p2) {
      DropPrefix(ProjectPrefix, p1, p2);
    }
  }

  /** For project ids without a slash, a tool path names one project and one tool. */
  lemma ToolInjective(p1: string, t1: string, p2: string, t2: string)
    requires '/' !in p1 && '/' !in p2
    ensures Tool(p1, t1) == Tool(p2, t2) ==> p1 == p2 && t1 == t2
  {
    if Tool(p1, t1) == Tool(p2, t2) {
      assert Tool(p1, t1) == ProjectPrefix + (p1 + "/" + ("tools/" + t1));
      assert Tool(p2, t2) == ProjectPrefix + (p2 + "/" + ("tools/" + t2));
      DropPrefix(ProjectPrefix, p1 + "/" + ("tools/" + t1), p2 + "/" + ("tools/" + t2));
      SegmentCut(p1, "tools/" + t1, p2, "tools/" + t2);
      DropPrefix("tools/", t1, t2);
    }
  }

  /** A conversation path is the tool path whose slug runs on into the conversation. */
  lemma ConversationIsTool(p: string, t: string, c: string)
    ensures Conversation(p, t, c) == Tool(p, t + "/" + ("conversations/" + c))
  {
  }

  /** For project ids and tool slugs without a slash, a conversation path names one of each. */
  lemma ConversationInjective(p1: string, t1: string, c1: string, p2: string, t2: string, c2: string)
    requires '/' !in p1 && '/' !in p2 && '/' !in t1 && '/' !in t2
    ensures Conversation(p1, t1, c1) == Conversation(p2, t2, c2) ==> p1 == p2 && t1 == t2 && c1 == c2
  {
    if Conversation(p1, t1, c1) == Conversation(p2, t2, c2) {
      var r1 := t1 + "/" + ("conversations/" + c1);
      var r2 := t2 + "/" + ("conversations/" + c2);
      ConversationIsTool(p1, t1, c1);
      ConversationIsTool(p2, t2, c2);
      ToolInjective(p1, r1, p2, r2);
      SegmentCut(t1, "conversations/" + c1, t2, "conversations/" + c2);
      DropPrefix("conversations/", c1, c2);
    }
  }

  /** With a slash in the project id, two different tools share one path. */
  lemma ToolNeedsSlashFreeIds()
    ensures Tool("a/tools/b", "c") == Tool("a", "b/tools/c")
  {
  }

  /** An entry of `NAV_LINKS`. */
  datatype NavLink = NavLink(href: string, title: string)

  const NavLinks: seq<NavLink> := [
    NavLink(Home, "Projects"),
    NavLink(AdsLibrary, "My Ads"),
    NavLink(ReeveCollection, "Reeve's Collection")
  ]

  /** The three fixed pages, in order, each linked once. */
  lemma NavLinksDistinct()
    ensures |NavLinks| == 3
    ensures NavLinks[0].href == Home && NavLinks[1].href == AdsLibrary && NavLinks[2].href == ReeveCollection
    ensures forall i, j :: 0 <= i < j < |NavLinks| ==> NavLinks[i].href != NavLinks[j].href
  {
  }
}

/**
 * The navigation links of the sidebar: which one is active for the current
 * path, and the profile link, which needs the user's id.
 */
module NavLinks {
  import opened Wrappers
  import opened Text
  import Routes

  /** An entry of `navbarLinks`. */
  datatype Link = Link(route: string, title: string)

  const NavbarLinks: seq<Link> := [
    Link(Routes.Home, "Home"),
    Link(Routes.AdsLibrary, "Ads Library"),
    Link(Routes.ReeveCollection, "Reeves Collection")
  ]

  const ProfileRoute: string := "/profile"

  /** `isActive`: the path contains the route and the route is more than "/", or the path is the route. */
  predicate IsActive(pathname: string, route: string) {
    (Contains(pathname, route) && |route| > 1) || pathname == route
  }

  /** A link as rendered. */
  datatype Shown = Shown(href: string, title: string, active: bool)

  /**
   * One item: the profile link is dropped without a truthy user id and
   * otherwise pointed at that user's profile, and the new route is written
   * back into the item. Activity is judged on the route as it was.
   */
  function Item(item: Link, pathname: string, userId: Option<string>): (r: (Option<Shown>, Link))
    ensures item.route != ProfileRoute ==>
              r == (Some(Shown(item.route, item.title, IsActive(pathname, item.route))), item)
    ensures item.route == ProfileRoute && Truthy(userId) ==>
              r.1 == item.(route := Routes.Profile(userId.value))
              && r.0 == Some(Shown(Routes.Profile(userId.value), item.title, IsActive(pathname, ProfileRoute)))
    ensures item.route == ProfileRoute && !Truthy(userId) ==> r == (None, item)
  {
    var active := IsActive(pathname, item.route);
    if item.route == ProfileRoute then
      if Truthy(userId) then
        var moved := item.(route := item.route + "/" + userId.value);
        assert moved.route == Routes.Profile(userId.value);
        (Some(Shown(moved.route, item.title, active)), moved)
      else (None, item)
    else (Some(Shown(item.route, item.title, active)), item)
  }

  /** A render: the elements, `null` for a dropped one, and the items as they are left. */
  function Render(links: seq<Link>, pathname: string, userId: Option<string>): (r: (seq<Option<Shown>>, seq<Link>))
    ensures |r.0| == |links| && |r.1| == |links|
    ensures forall i :: 0 <= i < |links| ==> (r.0[i], r.1[i]) == Item(links[i], pathname, userId)
  {
    (seq(|links|, i requires 0 <= i < |links| => Item(links[i], pathname, userId).0),
     seq(|links|, i requires 0 <= i < |links| => Item(links[i], pathname, userId).1))
  }

  /** The root link is active on the root alone. */
  lemma HomeActiveOnlyAtRoot(pathname: string)
    ensures IsActive(pathname, Routes.Home) <==> pathname == Routes.Home
  {
  }

  /** Any longer route is active exactly where the path contains it, anywhere in the path. */
  lemma ActiveIffContains(pathname: string, route: string)
    requires |route| > 1
    ensures IsActive(pathname, route) <==> Contains(pathname, route)
  {
    if pathname == route {
      ContainsSelf(route);
    }
  }

  /** So the ads link is also active on pages below other sections that merely contain "/ads". */
  lemma AdsActiveUnderOtherPaths(prefix: string, rest: string)
    ensures IsActive(prefix + Routes.AdsLibrary + rest, Routes.AdsLibrary)
  {
    var s := prefix + Routes.AdsLibrary + rest;
    assert s[|prefix|..][..|Routes.AdsLibrary|] == Routes.AdsLibrary;
    assert OccursAt(s, Routes.AdsLibrary, |prefix|);
  }

  /** The shipped links all render, untouched, in order, and render the same again. */
  lemma ShippedLinksRender(pathname: string, userId: Option<string>)
    ensures var (shown, after) := Render(NavbarLinks, pathname, userId);
            after == NavbarLinks
            && forall i :: 0 <= i < |NavbarLinks| ==>
                 shown[i] == Some(Shown(NavbarLinks[i].route, NavbarLinks[i].title, IsActive(pathname, NavbarLinks[i].route)))
  {
    var (shown, after) := Render(NavbarLinks, pathname, userId);
    forall i | 0 <= i < |NavbarLinks|
      ensures after[i] == NavbarLinks[i]
    {
      assert NavbarLinks[i].route != ProfileRoute;
    }
  }

  /**
   * A profile link, once rewritten, keeps the first user's id: the rewrite
   * is written into the item, so a later render for another user, or for
   * none, still links to the first user's profile.
   */
  lemma ProfileRewriteSticks(title: string, u1: string, later: Option<string>, p1: string, p2: string)
    requires u1 != ""
    ensures var first := Render([Link(ProfileRoute, title)], p1, Some(u1));
            var second := Render(first.1, p2, later);
            second.0[0].Some? && second.0[0].value.href == Routes.Profile(u1)
  {
    var first := Render([Link(ProfileRoute, title)], p1, Some(u1));
    assert first.1[0].route == Routes.Profile(u1) != ProfileRoute;
  }
}

=== FILE: seqs.dfy ===
/** Sequence helpers shared by the list-handling modules: `filter`, `find`, `map` and `flatMap`. */
module Seqs {
  import opened Wrappers

  /** Appending is associative; stated once so long chains need not rediscover it. */
  lemma AppendAssoc<T>(x: seq<T>, y: seq<T>, z: seq<T>)
    ensures x + (y + z) == (x + y) + z
  {
  }

  /** `xs.filter(p)`: the elements satisfying `p`, in their original order. */
  function Filter<T>(xs: seq<T>, p: T -> bool): (r: seq<T>)
    ensures |r| <= |xs|
    ensures forall i :: 0 <= i < |r| ==> p(r[i]) && r[i] in xs
    ensures forall i :: 0 <= i < |xs| && p(xs[i]) ==> xs[i] in r
  {
    if |xs| == 0 then []
    else if p(xs[0]) then [xs[0]] + Filter(xs[1..], p)
    else Filter(xs[1..], p)
  }

  lemma {:induction false} FilterAppend<T>(a: seq<T>, b: seq<T>, p: T -> bool)
    ensures Filter(a + b, p) == Filter(a, p) + Filter(b, p)
  {
    if |a| > 0 {
      assert (a + b)[0] == a[0];
      assert (a + b)[1..] == a[1..] + b;
      FilterAppend(a[1..], b, p);
    } else {
      assert a + b == b;
    }
  }

  /** Filtering keeps a sequence whose elements all pass unchanged. */
  lemma {:induction false} FilterAll<T>(xs: seq<T>, p: T -> bool)
    requires forall i :: 0 <= i < |xs| ==> p(xs[i])
    ensures Filter(xs, p) == xs
  {
    if |xs| > 0 {
      FilterAll(xs[1..], p);
      assert xs == [xs[0]] + xs[1..];
    }
  }

  /** Filtering is idempotent. */
  lemma FilterIdempotent<T>(xs: seq<T>, p: T -> bool)
    ensures Filter(Filter(xs, p), p) == Filter(xs, p)
  {
    FilterAll(Filter(xs, p), p);
  }

  /** Nothing passes exactly when the filtered sequence is empty. */
  lemma FilterEmpty<T>(xs: seq<T>, p: T -> bool)
    ensures |Filter(xs, p)| == 0 <==> forall i :: 0 <= i < |xs| ==> !p(xs[i])
  {
    var r := Filter(xs, p);
    if |r| > 0 {
      assert p(r[0]) && r[0] in xs;
    }
  }

  /** Index `i` holds the one element of `xs` that passes `p`. */
  predicate OnlyAt<T>(xs: seq<T>, p: T -> bool, i: int) {
    0 <= i < |xs| && p(xs[i]) && forall j :: 0 <= j < |xs| && j != i ==> !p(xs[j])
  }

  /** When a single element passes, filtering leaves just that element. */
  lemma FilterOnlyAt<T>(xs: seq<T>, p: T -> bool, i: int)
    requires OnlyAt(xs, p, i)
    ensures Filter(xs, p) == [xs[i]]
  {
    assert xs == xs[..i] + [xs[i]] + xs[i + 1..];
    FilterAppend(xs[..i] + [xs[i]], xs[i + 1..], p);
    FilterAppend(xs[..i], [xs[i]], p);
    FilterEmpty(xs[..i], p);
    FilterEmpty(xs[i + 1..], p);
    assert [xs[i]][1..] == [];
  }

  /** Two passing elements at different indices leave at least two after filtering. */
  lemma FilterTwo<T>(xs: seq<T>, p: T -> bool, i: int, j: int)
    requires 0 <= i < j < |xs| && p(xs[i]) && p(xs[j])
    ensures |Filter(xs, p)| >= 2
  {
    assert xs == xs[..j] + xs[j..];
    FilterAppend(xs[..j], xs[j..], p);
    assert xs[..j][i] == xs[i];
    assert xs[j..][0] == xs[j];
    FilterEmpty(xs[..j], p);
    FilterEmpty(xs[j..], p);
  }

  /** Exactly one element is left after filtering exactly when a single index passes. */
  lemma FilterOne<T>(xs: seq<T>, p: T -> bool)
    ensures |Filter(xs, p)| == 1 <==> exists i :: OnlyAt(xs, p, i)
    ensures forall i :: OnlyAt(xs, p, i) ==> Filter(xs, p) == [xs[i]]
  {
    forall i | OnlyAt(xs, p, i)
      ensures Filter(xs, p) == [xs[i]]
    {
      FilterOnlyAt(xs, p, i);
    }
    if |Filter(xs, p)| == 1 {
      var x := Filter(xs, p)[0];
      var i :| 0 <= i < |xs| && xs[i] == x;
      forall j | 0 <= j < |xs| && j != i
        ensures !p(xs[j])
      {
        if p(xs[j]) {
          if i < j { FilterTwo(xs, p, i, j); } else { FilterTwo(xs, p, j, i); }
        }
      }
      assert OnlyAt(xs, p, i);
    }
    if exists i :: OnlyAt(xs, p, i) {
      var i :| OnlyAt(xs, p, i);
      FilterOnlyAt(xs, p, i);
    }
  }

  /** `xs.find(p)`: the first element satisfying `p`, None when there is none. */
  function Find<T>(xs: seq<T>, p: T -> bool): (r: Option<T>)
    ensures r.Some? ==> p(r.value) && r.value in xs
    ensures r.None? <==> forall i :: 0 <= i < |xs| ==> !p(xs[i])
  {
    if |xs| == 0 then None
    else if p(xs[0]) then Some(xs[0])
    else Find(xs[1..], p)
  }

  /** The element `Find` returns comes before every other match. */
  lemma {:induction false} FindFirst<T>(xs: seq<T>, p: T -> bool) returns (k: nat)
    requires Find(xs, p).Some?
    ensures k < |xs| && xs[k] == Find(xs, p).value
    ensures forall i :: 0 <= i < k ==> !p(xs[i])
  {
    if p(xs[0]) {
      k := 0;
    } else {
      var j := FindFirst(xs[1..], p);
      k := j + 1;
    }
  }

  /** `xs.some(p)`. */
  predicate Any<T>(xs: seq<T>, p: T -> bool) {
    exists i :: 0 <= i < |xs| && p(xs[i])
  }

  /** `xs.map(f)`. */
  function Map<T, U>(xs: seq<T>, f: T -> U): (r: seq<U>)
    ensures |r| == |xs|
    ensures forall i :: 0 <= i < |xs| ==> r[i] == f(xs[i])
  {
    seq(|xs|, i requires 0 <= i < |xs| => f(xs[i]))
  }

  /** `xs.flatMap(f)`: the outputs of `f` for each element, joined in order. */
  function FlatMap<T, U>(xs: seq<T>, f: T -> seq<U>): seq<U>
  {
    if |xs| == 0 then [] else f(xs[0]) + FlatMap(xs[1..], f)
  }

  /** The flat map of one element is that element's output. */
  lemma FlatMapSingle<T, U>(x: T, f: T -> seq<U>)
    ensures FlatMap([x], f) == f(x)
  {
    assert [x][1..] == [];
    assert f(x) + [] == f(x);
  }

  lemma {:induction false} FlatMapAppend<T, U>(a: seq<T>, b: seq<T>, f: T -> seq<U>)
    ensures FlatMap(a + b, f) == FlatMap(a, f) + FlatMap(b, f)
  {
    if |a| > 0 {
      assert (a + b)[0] == a[0];
      assert (a + b)[1..] == a[1..] + b;
      FlatMapAppend(a[1..], b, f);
      AppendAssoc(f(a[0]), FlatMap(a[1..], f), FlatMap(b, f));
    } else {
      assert a + b == b;
    }
  }

  /** When every output element of `f` satisfies `p`, so does every element of the flat map. */
  lemma {:induction false} FlatMapAll<T, U>(xs: seq<T>, f: T -> seq<U>, p: U -> bool)
    requires forall x, k :: 0 <= k < |f(x)| ==> p(f(x)[k])
    ensures forall k :: 0 <= k < |FlatMap(xs, f)| ==> p(FlatMap(xs, f)[k])
  {
    if |xs| > 0 {
      FlatMapAll(xs[1..], f, p);
      var head := f(xs[0]);
      var rest := FlatMap(xs[1..], f);
      forall k | 0 <= k < |head + rest|
        ensures p((head + rest)[k])
      {
        if k < |head| {
          assert (head + rest)[k] == head[k];
        } else {
          assert (head + rest)[k] == rest[k - |head|];
        }
      }
    }
  }
}

=== FILE: sidebar.dfy ===
/**
 * The sidebar's part in a generation: the framework selected at first, the
 * system prompt taken from the selected framework, and the submit handler
 * that hands the prompt to the provider and clears it afterwards.
 */
module Sidebar {
  import opened Wrappers
  import opened Text
  import opened Seqs
  import opened Entities

  const DefaultSystemPrompt: string := "You are a helpful assistant."

  predicate IsDefaultFramework(f: Framework) {
    f.isDefault
  }

  /**
   * The framework selected at first: the first default one when its name is
   * not empty, otherwise the first framework's name, otherwise the empty
   * name.
   */
  function InitialFramework(frameworks: seq<Framework>): (r: string)
    ensures r == "" || exists i :: 0 <= i < |frameworks| && frameworks[i].name == r
    ensures |frameworks| == 0 ==> r == ""
    ensures |frameworks| > 0 && frameworks[0].name != "" ==> r != ""
  {
    match Find(frameworks, IsDefaultFramework)
    case Some(f) =>
      if f.name != "" then f.name
      else if frameworks[0].name != "" then frameworks[0].name
      else ""
    case None =>
      if |frameworks| > 0 && frameworks[0].name != "" then frameworks[0].name else ""
  }

  /** The first default framework with a name is the one selected at first. */
  lemma InitialIsFirstDefault(frameworks: seq<Framework>, k: nat)
    requires k < |frameworks| && frameworks[k].isDefault && frameworks[k].name != ""
    requires forall j :: 0 <= j < k ==> !frameworks[j].isDefault
    ensures InitialFramework(frameworks) == frameworks[k].name
  {
    var i := FindFirst(frameworks, IsDefaultFramework);
    assert i == k;
  }

  predicate Named(f: Framework, name: string) {
    f.name == name
  }

  /**
   * The system prompt of the selected framework, or the fixed default when
   * no framework has that name or its prompt is missing or empty.
   */
  function SystemPrompt(frameworks: seq<Framework>, selected: string): (r: string)
    ensures r != ""
    ensures r == DefaultSystemPrompt
            || exists i :: 0 <= i < |frameworks| && frameworks[i].name == selected
                           && frameworks[i].systemPrompt == Some(r)
  {
    match Find(frameworks, (f: Framework) => Named(f, selected))
    case Some(f) => if f.systemPrompt.Some? && f.systemPrompt.value != "" then f.systemPrompt.value else DefaultSystemPrompt
    case None => DefaultSystemPrompt
  }

  /** The prompt comes from the first framework carrying the selected name. */
  lemma SystemPromptOfFirstMatch(frameworks: seq<Framework>, selected: string, k: nat)
    requires k < |frameworks| && frameworks[k].name == selected
    requires forall j :: 0 <= j < k ==> frameworks[j].name != selected
    ensures SystemPrompt(frameworks, selected)
         == (if frameworks[k].systemPrompt.Some? && frameworks[k].systemPrompt.value != ""
             then frameworks[k].systemPrompt.value else DefaultSystemPrompt)
  {
    var i := FindFirst(frameworks, (f: Framework) => Named(f, selected));
    assert i == k;
  }

  /** What a submit does: the call it makes, if any, and the prompt left in the input. */
  datatype Submission = Submission(call: Option<(string, string)>, promptAfter: string)

  /**
   * `handleGenerate`. `rejects` says whether the provider's `generateContent`
   * rejects; its own errors are caught there, so in this application it
   * resolves.
   */
  function HandleGenerate(prompt: string, isGenerating: bool, selected: string,
                          frameworks: seq<Framework>, rejects: bool): (r: Submission)
    ensures Trim(prompt) == "" || isGenerating ==> r == Submission(None, prompt)
    ensures Trim(prompt) != "" && !isGenerating ==>
              r.call == Some((prompt, SystemPrompt(frameworks, selected)))
    ensures r.promptAfter == "" <==> prompt == "" || (r.call.Some? && !rejects)
    ensures r.promptAfter != "" ==> r.promptAfter == prompt
  {
    if Trim(prompt) == "" || isGenerating then Submission(None, prompt)
    else
      var call := Some((prompt, SystemPrompt(frameworks, selected)));
      if rejects then Submission(call, prompt) else Submission(call, "")
  }
}

=== FILE: tags.dfy ===
/**
 * The server actions on tags, over three in-memory tables: `tags`,
 * `facebook_ads` (only the id and the owner matter here) and `ad_tags`.
 * The signed-in user is a parameter (None when nobody is signed in). The
 * duplicate-name checks are `ilike` pattern matches (module Patterns);
 * `.single()` and `.maybeSingle()` fail on more than one row, and
 * `.single()` also on none.
 */
module TagActions {
  import opened Wrappers
  import opened Text
  import opened Seqs
  import opened Patterns

  datatype TagRow = TagRow(id: string, name: string, color: string, userId: string, createdAt: string)
  datatype AdRow = AdRow(id: string, userId: string)
  datatype Link = Link(adId: string, tagId: string)
  datatype Db = Db(tags: seq<TagRow>, ads: seq<AdRow>, links: seq<Link>)

  /**
   * How an action fails: an error thrown with a message, a row-count error
   * of `.single()`/`.maybeSingle()`, or reading a property of a missing user.
   */
  datatype Failure = Thrown(message: string) | RowCount | NoUser

  const AuthRequired: string := "Authentication required"
  const DuplicateName: string := "A tag with this name already exists"
  const TagNoAccess: string := "Tag not found or no access"
  const CannotTagAd: string := "Cannot tag ad: no access or ad not found"
  const AdNoAccess: string := "Ad not found or no access"

  /** Two names equal up to case: what the duplicate-name check is for. */
  predicate SameName(a: string, b: string) {
    Lower(a) == Lower(b)
  }

  predicate HasTag(tags: seq<TagRow>, id: string) {
    exists i :: 0 <= i < |tags| && tags[i].id == id
  }

  predicate HasAd(ads: seq<AdRow>, id: string) {
    exists i :: 0 <= i < |ads| && ads[i].id == id
  }

  predicate UniqueIds(tags: seq<TagRow>) {
    forall i, j :: 0 <= i < j < |tags| ==> tags[i].id != tags[j].id
  }

  /** No user owns two tags whose names are equal up to case. */
  predicate DistinctNames(tags: seq<TagRow>) {
    forall i, j :: 0 <= i < j < |tags| && tags[i].userId == tags[j].userId ==> !SameName(tags[i].name, tags[j].name)
  }

  /** Every link refers to an existing tag and an existing ad. */
  predicate NoDangling(db: Db) {
    forall k :: 0 <= k < |db.links| ==> HasTag(db.tags, db.links[k].tagId) && HasAd(db.ads, db.links[k].adId)
  }

  predicate Valid(db: Db) {
    UniqueIds(db.tags) && DistinctNames(db.tags) && NoDangling(db)
  }

  function MaxLength(ids: seq<string>): (m: nat)
    ensures forall i :: 0 <= i < |ids| ==> |ids[i]| <= m
  {
    if |ids| == 0 then 0
    else
      var rest := MaxLength(ids[1..]);
      if |ids[0]| > rest then |ids[0]| else rest
  }

  /** The id the database gives a new row: one no existing row carries. */
  function FreshId(tags: seq<TagRow>): (r: string)
    ensures !HasTag(tags, r)
  {
    var ids := Map(tags, (t: TagRow) => t.id);
    seq(MaxLength(ids) + 1, _ => 'x')
  }

  /**
   * Whether the duplicate-name check finds the stored name for `name`. As
   * written the check is `.ilike('name', name)`, a pattern match; corrected,
   * it is equality up to case.
   */
  predicate NameMatches(corrected: bool, stored: string, name: string) {
    if corrected then SameName(stored, name) else ILike(stored, name)
  }

  /** The user's tags that the duplicate check finds for `name`. */
  function Clashing(corrected: bool, tags: seq<TagRow>, user: string, name: string): (r: seq<TagRow>)
    ensures |r| == 0 <==> forall i :: 0 <= i < |tags| ==> !(tags[i].userId == user && NameMatches(corrected, tags[i].name, name))
    ensures forall i :: 0 <= i < |r| ==> r[i] in tags && r[i].userId == user && NameMatches(corrected, r[i].name, name)
    ensures forall i :: 0 <= i < |tags| && tags[i].userId == user && NameMatches(corrected, tags[i].name, name) ==> tags[i] in r
  {
    var p := (t: TagRow) => t.userId == user && NameMatches(corrected, t.name, name);
    FilterEmpty(tags, p);
    Filter(tags, p)
  }

  /** The user's tags other than `id` that the duplicate check finds for `name`. */
  function ClashingOthers(corrected: bool, tags: seq<TagRow>, user: string, id: string, name: string): (r: seq<TagRow>)
    ensures |r| == 0 <==> forall i :: 0 <= i < |tags| ==> !(tags[i].userId == user && tags[i].id != id && NameMatches(corrected, tags[i].name, name))
  {
    var p := (t: TagRow) => t.userId == user && t.id != id && NameMatches(corrected, t.name, name);
    FilterEmpty(tags, p);
    Filter(tags, p)
  }

  /** A `maybeSingle` check: no row passes, one does, or the query fails. */
  function MaybeSingle<T>(rows: seq<T>): Result<bool, Failure> {
    if |rows| == 0 then Ok(false) else if |rows| == 1 then Ok(true) else Err(RowCount)
  }

  /** A `single` ownership check. */
  predicate OwnsTag(tags: seq<TagRow>, user: string, id: string) {
    |Filter(tags, (t: TagRow) => t.id == id && t.userId == user)| == 1
  }

  predicate OwnsAd(ads: seq<AdRow>, user: string, id: string) {
    |Filter(ads, (a: AdRow) => a.id == id && a.userId == user)| == 1
  }

  /**
   * `createTag`: the trimmed name, owned by the user, unless the duplicate
   * check finds one of the user's tags for it. `corrected` picks the check:
   * the `ilike` pattern as written, or equality up to case.
   */
  function CreateTag(corrected: bool, db: Db, user: Option<string>, name: string, color: string, now: string)
    : (r: Result<(Db, TagRow), Failure>)
    ensures user.None? ==> r == Err(Thrown(AuthRequired))
    ensures user.Some? && |Clashing(corrected, db.tags, user.value, Trim(name))| == 1 ==> r == Err(Thrown(DuplicateName))
    ensures user.Some? && |Clashing(corrected, db.tags, user.value, Trim(name))| > 1 ==> r == Err(RowCount)
    ensures user.Some? ==>
              (r.Ok? <==> forall i :: 0 <= i < |db.tags| ==>
                            !(db.tags[i].userId == user.value && NameMatches(corrected, db.tags[i].name, Trim(name))))
    ensures r.Ok? ==> user.Some?
                      && r.value.1 == TagRow(r.value.1.id, Trim(name), color, user.value, now)
                      && !HasTag(db.tags, r.value.1.id)
                      && r.value.0 == db.(tags := db.tags + [r.value.1])
  {
    match user
    case None => Err(Thrown(AuthRequired))
    case Some(u) =>
      var normalized := Trim(name);
      var clashes := Clashing(corrected, db.tags, u, normalized);
      match MaybeSingle(clashes)
      case Err(e) => Err(e)
      case Ok(true) => Err(Thrown(DuplicateName))
      case Ok(false) =>
        var row := TagRow(FreshId(db.tags), normalized, color, u, now);
        Ok((db.(tags := db.tags + [row]), row))
  }

  /** A new row with a fresh id and a name none of its owner's tags has keeps the tables valid. */
  lemma AppendKeepsValid(db: Db, row: TagRow)
    requires Valid(db) && !HasTag(db.tags, row.id)
    requires forall i :: 0 <= i < |db.tags| && db.tags[i].userId == row.userId ==> !SameName(db.tags[i].name, row.name)
    ensures Valid(db.(tags := db.tags + [row]))
  {
    var db2 := db.(tags := db.tags + [row]);
    var tags := db2.tags;
    assert tags[|db.tags|] == row;
    forall i, j | 0 <= i < j < |tags| && tags[i].userId == tags[j].userId
      ensures !SameName(tags[i].name, tags[j].name)
    {
      if j == |db.tags| {
        assert tags[i] == db.tags[i];
      }
    }
    forall k | 0 <= k < |db2.links|
      ensures HasTag(tags, db2.links[k].tagId)
    {
      var i :| 0 <= i < |db.tags| && db.tags[i].id == db.links[k].tagId;
      assert tags[i] == db.tags[i];
    }
  }

  /** The corrected create keeps the tables valid. */
  lemma CreateKeepsValid(db: Db, user: Option<string>, name: string, color: string, now: string)
    requires Valid(db) && CreateTag(true, db, user, name, color, now).Ok?
    ensures Valid(CreateTag(true, db, user, name, color, now).value.0)
  {
    var (db2, row) := CreateTag(true, db, user, name, color, now).value;
    AppendKeepsValid(db, row);
  }

  /**
   * For a name with none of `%`, `_`, `*` and `\` the `ilike` check is
   * equality up to case, so the create as written keeps the tables valid.
   */
  lemma PlainCreateKeepsValid(db: Db, user: Option<string>, name: string, color: string, now: string)
    requires Valid(db) && Plain(Trim(name)) && CreateTag(false, db, user, name, color, now).Ok?
    ensures Valid(CreateTag(false, db, user, name, color, now).value.0)
  {
    var (db2, row) := CreateTag(false, db, user, name, color, now).value;
    forall i | 0 <= i < |db.tags|
      ensures ILike(db.tags[i].name, Trim(name)) <==> SameName(db.tags[i].name, Trim(name))
    {
      PlainILike(db.tags[i].name, Trim(name));
    }
    AppendKeepsValid(db, row);
  }

  /** Two tags of one user with the same name break `DistinctNames`. */
  lemma NamedAlike(tags: seq<TagRow>, i: nat, j: nat)
    requires i < |tags| && j < |tags| && i != j
    requires tags[i].userId == tags[j].userId && tags[i].name == tags[j].name
    ensures !DistinctNames(tags)
  {
    if j < i {
      NamedAlike(tags, j, i);
    }
  }

  /**
   * As written, a name the `ilike` check does not find in itself, such as
   * `a\b` (the value escapes the `b` and matches only "ab"; see
   * `Patterns.WildcardExamples`), passes the check when the user's tags
   * already carry it, so the new tag joins them under the same name.
   */
  lemma UnmatchedNameTwice(db: Db, user: string, name: string, k: nat, color: string, now: string)
    requires Trim(name) == name && !ILike(name, name)
    requires k < |db.tags| && db.tags[k].userId == user
    requires forall i :: 0 <= i < |db.tags| && db.tags[i].userId == user ==> db.tags[i].name == name
    ensures CreateTag(false, db, Some(user), name, color, now).Ok?
    ensures !DistinctNames(CreateTag(false, db, Some(user), name, color, now).value.0.tags)
  {
    assert |Clashing(false, db.tags, user, name)| == 0;
    CreateLeavesAlike(db, user, name, k, color, now);
  }

  /** A created tag is named like every tag of the user already carrying its trimmed name. */
  lemma CreateLeavesAlike(db: Db, user: string, name: string, k: nat, color: string, now: string)
    requires k < |db.tags| && db.tags[k].userId == user && db.tags[k].name == Trim(name)
    requires CreateTag(false, db, Some(user), name, color, now).Ok?
    ensures !DistinctNames(CreateTag(false, db, Some(user), name, color, now).value.0.tags)
  {
    var tags := CreateTag(false, db, Some(user), name, color, now).value.0.tags;
    assert tags == db.tags + [tags[|db.tags|]];
    assert tags[k] == db.tags[k];
    NamedAlike(tags, k, |db.tags|);
  }

  /** The name "a_c" finds a tag named "abc". */
  lemma UnderscoreFindsAbc(tags: seq<TagRow>, user: string, k: nat)
    requires k < |tags| && tags[k].userId == user && tags[k].name == "abc"
    ensures |Clashing(false, tags, user, "a_c")| > 0
  {
    WildcardExamples();
    assert tags[k] in Clashing(false, tags, user, "a_c");
  }

  /** Compared for equality up to case, "a_c" is not "abc". */
  lemma AbcIsNotAC(tags: seq<TagRow>, user: string)
    requires forall i :: 0 <= i < |tags| && tags[i].userId == user ==> tags[i].name == "abc"
    ensures |Clashing(true, tags, user, "a_c")| == 0
  {
    assert Lower("abc")[1] != Lower("a_c")[1];
  }

  /**
   * As written, `_` in a new name is a wildcard: "a_c" is refused once the
   * user has a tag named "abc".
   */
  lemma UnderscoreNameRefused(db: Db, user: string, k: nat, color: string, now: string)
    requires k < |db.tags| && db.tags[k].userId == user && db.tags[k].name == "abc"
    ensures CreateTag(false, db, Some(user), "a_c", color, now).Err?
  {
    TrimOfTrimmed("a_c");
    UnderscoreFindsAbc(db.tags, user, k);
  }

  /** The corrected check accepts "a_c" next to tags named "abc". */
  lemma UnderscoreNameAccepted(db: Db, user: string, color: string, now: string)
    requires forall i :: 0 <= i < |db.tags| && db.tags[i].userId == user ==> db.tags[i].name == "abc"
    ensures CreateTag(true, db, Some(user), "a_c", color, now).Ok?
  {
    TrimOfTrimmed("a_c");
    AbcIsNotAC(db.tags, user);
  }

  /** The name "%" finds every tag of the user. */
  lemma PercentFindsAll(tags: seq<TagRow>, user: string, i: nat, j: nat)
    requires i < j < |tags| && tags[i] != tags[j]
    requires tags[i].userId == user && tags[j].userId == user
    ensures |Clashing(false, tags, user, "%")| > 1
  {
    WildcardValue(tags[i].name);
    WildcardValue(tags[j].name);
    var r := Clashing(false, tags, user, "%");
    assert tags[i] in r && tags[j] in r;
  }

  /**
   * As written, a new name "%" finds every tag of the user, so once the
   * user has two tags `maybeSingle` fails on the row count.
   */
  lemma PercentNameRefused(db: Db, user: string, i: nat, j: nat, color: string, now: string)
    requires i < j < |db.tags| && db.tags[i] != db.tags[j]
    requires db.tags[i].userId == user && db.tags[j].userId == user
    ensures CreateTag(false, db, Some(user), "%", color, now) == Err(RowCount)
  {
    TrimOfTrimmed("%");
    PercentFindsAll(db.tags, user, i, j);
  }

  /** The fields a tag update sets; an absent field is left alone. */
  datatype TagUpdate = TagUpdate(name: Option<string>, color: Option<string>)

  function Apply(t: TagRow, name: Option<string>, color: Option<string>): TagRow {
    t.(name := name.GetOr(t.name), color := color.GetOr(t.color))
  }

  /** The rows with that id and owner get the update; the others are unchanged. */
  function UpdateRows(tags: seq<TagRow>, user: string, id: string, name: Option<string>, color: Option<string>)
    : (r: seq<TagRow>)
    ensures |r| == |tags|
    ensures forall i :: 0 <= i < |tags| ==>
              r[i] == (if tags[i].id == id && tags[i].userId == user then Apply(tags[i], name, color) else tags[i])
  {
    Map(tags, (t: TagRow) => if t.id == id && t.userId == user then Apply(t, name, color) else t)
  }

  /**
   * Whether an update's name is checked for clashes and trimmed. As written
   * only a truthy name is; the comment above the check describes every name
   * being set, which the corrected update does.
   */
  predicate NameChecked(name: Option<string>, corrected: bool) {
    name.Some? && (corrected || name.value != "")
  }

  /**
   * The shared body of `updateTag`. As written (`corrected` false) a truthy
   * name is checked with the `ilike` pattern; corrected, every name being
   * set is checked for equality up to case.
   */
  function UpdateWith(corrected: bool, db: Db, user: Option<string>, id: string, updates: TagUpdate)
    : (r: Result<Db, Failure>)
    ensures user.None? ==> r == Err(Thrown(AuthRequired))
    ensures r.Ok? ==> user.Some? && r.value.ads == db.ads && r.value.links == db.links
    ensures user.Some? && NameChecked(updates.name, corrected) ==>
              (r.Ok? <==> |ClashingOthers(corrected, db.tags, user.value, id, Trim(updates.name.value))| == 0)
    ensures r.Ok? ==> r.value.tags == UpdateRows(db.tags, user.value, id,
                        if NameChecked(updates.name, corrected) then Some(Trim(updates.name.value)) else updates.name,
                        updates.color)
  {
    match user
    case None => Err(Thrown(AuthRequired))
    case Some(u) =>
      if NameChecked(updates.name, corrected) then
        var normalized := Trim(updates.name.value);
        match MaybeSingle(ClashingOthers(corrected, db.tags, u, id, normalized))
        case Err(e) => Err(e)
        case Ok(true) => Err(Thrown(DuplicateName))
        case Ok(false) => Ok(db.(tags := UpdateRows(db.tags, u, id, Some(normalized), updates.color)))
      else
        Ok(db.(tags := UpdateRows(db.tags, u, id, updates.name, updates.color)))
  }

  /** `updateTag` as written: only a truthy name is checked, with the `ilike` pattern. */
  function UpdateTag(db: Db, user: Option<string>, id: string, updates: TagUpdate): (r: Result<Db, Failure>)
    ensures user.None? ==> r == Err(Thrown(AuthRequired))
    ensures r.Ok? ==> user.Some?
    ensures user.Some? && updates.name.Some? && updates.name.value != ""
            && |ClashingOthers(false, db.tags, user.value, id, Trim(updates.name.value))| == 1
            ==> r == Err(Thrown(DuplicateName))
    ensures user.Some? && !(updates.name.Some? && updates.name.value != "")
            ==> r == Ok(db.(tags := UpdateRows(db.tags, user.value, id, updates.name, updates.color)))
  {
    UpdateWith(false, db, user, id, updates)
  }

  /** `updateTag` with every name being set checked, for equality up to case, and trimmed. */
  function UpdateTagChecked(db: Db, user: Option<string>, id: string, updates: TagUpdate): (r: Result<Db, Failure>)
    ensures user.None? ==> r == Err(Thrown(AuthRequired))
    ensures user.Some? && updates.name.Some?
            && |ClashingOthers(true, db.tags, user.value, id, Trim(updates.name.value))| == 1
            ==> r == Err(Thrown(DuplicateName))
    ensures user.Some? && updates.name.None?
            ==> r == Ok(db.(tags := UpdateRows(db.tags, user.value, id, None, updates.color)))
  {
    UpdateWith(true, db, user, id, updates)
  }

  /**
   * An update touches only the row with that id owned by the user: every
   * other row is unchanged, and that row keeps its id, owner and creation
   * time.
   */
  lemma UpdateTouchesOnlyOwnedRow(corrected: bool, db: Db, user: Option<string>, id: string,
                                  updates: TagUpdate, i: nat)
    requires UpdateWith(corrected, db, user, id, updates).Ok? && i < |db.tags|
    ensures var tags := UpdateWith(corrected, db, user, id, updates).value.tags;
            |tags| == |db.tags|
            && (db.tags[i].id != id || db.tags[i].userId != user.value ==> tags[i] == db.tags[i])
            && tags[i].id == db.tags[i].id && tags[i].userId == db.tags[i].userId
            && tags[i].createdAt == db.tags[i].createdAt
  {
  }

  /** The corrected update always keeps the tables valid. */
  lemma UpdateCheckedKeepsValid(db: Db, user: Option<string>, id: string, updates: TagUpdate)
    requires Valid(db) && UpdateTagChecked(db, user, id, updates).Ok?
    ensures Valid(UpdateTagChecked(db, user, id, updates).value)
  {
    var u := user.value;
    var db2 := UpdateTagChecked(db, user, id, updates).value;
    var name := if updates.name.Some? then Some(Trim(updates.name.value)) else None;
    assert NameChecked(updates.name, true) <==> updates.name.Some?;
    assert db2.tags == UpdateRows(db.tags, u, id, name, updates.color);
    UpdateKeepsValid(db, db2, u, id, name, updates.color);
  }

  /**
   * The update as written keeps the tables valid when it sets no name, or a
   * non-empty one with none of `%`, `_`, `*` and `\`.
   */
  lemma PlainUpdateKeepsValid(db: Db, user: Option<string>, id: string, updates: TagUpdate)
    requires Valid(db) && UpdateTag(db, user, id, updates).Ok?
    requires updates.name.Some? ==> updates.name.value != "" && Plain(Trim(updates.name.value))
    ensures Valid(UpdateTag(db, user, id, updates).value)
  {
    var u := user.value;
    var db2 := UpdateTag(db, user, id, updates).value;
    var name := if updates.name.Some? then Some(Trim(updates.name.value)) else None;
    assert db2.tags == UpdateRows(db.tags, u, id, name, updates.color);
    if updates.name.Some? {
      forall i | 0 <= i < |db.tags|
        ensures ILike(db.tags[i].name, name.value) <==> SameName(db.tags[i].name, name.value)
      {
        PlainILike(db.tags[i].name, name.value);
      }
    }
    UpdateKeepsValid(db, db2, u, id, name, updates.color);
  }

  /** Renaming the owned row to a name no other tag of the user has keeps the tables valid. */
  lemma UpdateKeepsValid(db: Db, db2: Db, user: string, id: string, name: Option<string>, color: Option<string>)
    requires Valid(db)
    requires db2 == db.(tags := UpdateRows(db.tags, user, id, name, color))
    requires name.Some? ==> forall i :: 0 <= i < |db.tags| && db.tags[i].userId == user && db.tags[i].id != id
                                      ==> !SameName(db.tags[i].name, name.value)
    ensures Valid(db2)
  {
    var tags := db2.tags;
    forall i, j | 0 <= i < j < |tags| && tags[i].userId == tags[j].userId
      ensures !SameName(tags[i].name, tags[j].name)
    {
      assert db.tags[i].id != db.tags[j].id;
    }
    forall k | 0 <= k < |db2.links|
      ensures HasTag(tags, db2.links[k].tagId)
    {
      var i :| 0 <= i < |db.tags| && db.tags[i].id == db.links[k].tagId;
      assert tags[i].id == db.tags[i].id;
    }
  }

  /**
   * As written, an update to the empty name is not checked, so a user can
   * end with two tags named alike.
   */
  lemma EmptyNameSkipsCheck()
    ensures var db := Db([TagRow("a", "", "red", "u", "t0"), TagRow("b", "b", "red", "u", "t0")], [], []);
            && Valid(db)
            && UpdateTag(db, Some("u"), "b", TagUpdate(Some(""), None)).Ok?
            && !Valid(UpdateTag(db, Some("u"), "b", TagUpdate(Some(""), None)).value)
  {
    var db := Db([TagRow("a", "", "red", "u", "t0"), TagRow("b", "b", "red", "u", "t0")], [], []);
    assert Lower("") != Lower("b") by { assert |Lower("b")| == 1; }
    var tags := UpdateTag(db, Some("u"), "b", TagUpdate(Some(""), None)).value.tags;
    assert tags[0].name == "" && tags[1].name == "";
  }

  /**
   * As written, renaming a tag to a name the `ilike` check does not find in
   * itself, such as `a\b`, passes the check when the user's other tags
   * carry that name, and leaves two tags of the same name.
   */
  lemma UnmatchedRenameTwice(db: Db, user: string, name: string, i: nat, j: nat)
    requires name != "" && Trim(name) == name && !ILike(name, name)
    requires i < |db.tags| && j < |db.tags| && db.tags[i].id != db.tags[j].id
    requires db.tags[i].userId == user && db.tags[j].userId == user
    requires forall k :: 0 <= k < |db.tags| && db.tags[k].userId == user && db.tags[k].id != db.tags[j].id
                         ==> db.tags[k].name == name
    ensures UpdateTag(db, Some(user), db.tags[j].id, TagUpdate(Some(name), None)).Ok?
    ensures !DistinctNames(UpdateTag(db, Some(user), db.tags[j].id, TagUpdate(Some(name), None)).value.tags)
  {
    var id := db.tags[j].id;
    assert |ClashingOthers(false, db.tags, user, id, name)| == 0;
    RenameLeavesAlike(db, user, id, name, i, j);
  }

  /** A renamed tag is named like every other tag of the user already carrying its trimmed name. */
  lemma RenameLeavesAlike(db: Db, user: string, id: string, name: string, i: nat, j: nat)
    requires i < |db.tags| && j < |db.tags| && db.tags[j].id == id && db.tags[i].id != id
    requires db.tags[i].userId == user && db.tags[j].userId == user && db.tags[i].name == Trim(name)
    requires UpdateTag(db, Some(user), id, TagUpdate(Some(name), None)).Ok?
    ensures !DistinctNames(UpdateTag(db, Some(user), id, TagUpdate(Some(name), None)).value.tags)
  {
    var tags := UpdateTag(db, Some(user), id, TagUpdate(Some(name), None)).value.tags;
    assert tags == UpdateRows(db.tags, user, id, Some(if name != "" then Trim(name) else name), None);
    assert tags[j].name == Trim(name) || name == "";
    assert tags[i].name == tags[j].name by {
      if name == "" {
        assert Trim(name) == "";
      }
    }
    NamedAlike(tags, i, j);
  }

  /** `deleteTag`: the owner's tag goes, and every link to it before it. */
  function DeleteTag(db: Db, user: Option<string>, id: string): (r: Result<Db, Failure>)
    ensures user.None? ==> r == Err(Thrown(AuthRequired))
    ensures user.Some? ==> (r.Ok? <==> OwnsTag(db.tags, user.value, id))
    ensures user.Some? && !OwnsTag(db.tags, user.value, id) ==> r == Err(Thrown(TagNoAccess))
    ensures r.Ok? ==> r.value.ads == db.ads
                      && (forall k :: 0 <= k < |r.value.links| ==> r.value.links[k].tagId != id && r.value.links[k] in db.links)
                      && (forall k :: 0 <= k < |db.links| && db.links[k].tagId != id ==> db.links[k] in r.value.links)
                      && (forall i :: 0 <= i < |r.value.tags| ==>
                            r.value.tags[i] in db.tags && !(r.value.tags[i].id == id && r.value.tags[i].userId == user.value))
                      && (forall i :: 0 <= i < |db.tags| && db.tags[i].id != id ==> db.tags[i] in r.value.tags)
  {
    match user
    case None => Err(Thrown(AuthRequired))
    case Some(u) =>
      if !OwnsTag(db.tags, u, id) then Err(Thrown(TagNoAccess))
      else
        var links := Filter(db.links, (l: Link) => l.tagId != id);
        var tags := Filter(db.tags, (t: TagRow) => !(t.id == id && t.userId == u));
        Ok(Db(tags, db.ads, links))
  }

  /**
   * `forceDeleteTagWithCascade` runs the same steps as `deleteTag`; the
   * re-read it ends with finds no row left, so that final check never fails.
   */
  lemma ForceDeleteCheckPasses(db: Db, user: Option<string>, id: string)
    requires DeleteTag(db, user, id).Ok?
    ensures |Filter(DeleteTag(db, user, id).value.tags, (t: TagRow) => t.id == id && t.userId == user.value)| == 0
  {
    FilterEmpty(DeleteTag(db, user, id).value.tags, (t: TagRow) => t.id == id && t.userId == user.value);
  }

  /**
   * Deleting a tag keeps the tables valid: no link is left dangling, and no
   * tag with that id is left.
   */
  lemma DeleteKeepsValid(db: Db, user: Option<string>, id: string)
    requires Valid(db) && DeleteTag(db, user, id).Ok?
    ensures Valid(DeleteTag(db, user, id).value)
    ensures !HasTag(DeleteTag(db, user, id).value.tags, id)
  {
    var db2 := DeleteTag(db, user, id).value;
    var owned := Filter(db.tags, (t: TagRow) => t.id == id && t.userId == user.value);
    assert owned[0] in db.tags;
    var n :| 0 <= n < |db.tags| && db.tags[n] == owned[0];
    forall i | 0 <= i < |db2.tags|
      ensures db2.tags[i].id != id
    {
      var m :| 0 <= m < |db.tags| && db.tags[m] == db2.tags[i];
      assert m != n;
    }
    var p := (t: TagRow) => !(t.id == id && t.userId == user.value);
    assert db2.tags == Filter(db.tags, p);
    FilterKeepsUnique(db.tags, p);
    FilterKeepsDistinct(db.tags, p);
    forall k | 0 <= k < |db2.links|
      ensures HasTag(db2.tags, db2.links[k].tagId) && HasAd(db2.ads, db2.links[k].adId)
    {
      var l := db2.links[k];
      var m :| 0 <= m < |db.links| && db.links[m] == l;
      var i :| 0 <= i < |db.tags| && db.tags[i].id == l.tagId;
      assert db.tags[i] in db2.tags;
    }
  }

  lemma {:induction false} FilterKeepsUnique(tags: seq<TagRow>, p: TagRow -> bool)
    requires UniqueIds(tags)
    ensures UniqueIds(Filter(tags, p))
  {
    if |tags| > 0 {
      FilterKeepsUnique(tags[1..], p);
      var rest := Filter(tags[1..], p);
      forall i | 0 <= i < |rest|
        ensures rest[i].id != tags[0].id
      {
        var m :| 0 <= m < |tags[1..]| && tags[1..][m] == rest[i];
        assert tags[m + 1] == rest[i];
      }
    }
  }

  lemma {:induction false} FilterKeepsDistinct(tags: seq<TagRow>, p: TagRow -> bool)
    requires DistinctNames(tags)
    ensures DistinctNames(Filter(tags, p))
  {
    if |tags| > 0 {
      FilterKeepsDistinct(tags[1..], p);
      var rest := Filter(tags[1..], p);
      forall i | 0 <= i < |rest| && rest[i].userId == tags[0].userId
        ensures !SameName(tags[0].name, rest[i].name)
      {
        var m :| 0 <= m < |tags[1..]| && tags[1..][m] == rest[i];
        assert tags[m + 1] == rest[i];
      }
      if p(tags[0]) {
        DistinctCons(tags[0], rest);
      }
    }
  }

  /** A tag named unlike its owner's other tags can be put in front of them. */
  lemma DistinctCons(t: TagRow, rest: seq<TagRow>)
    requires DistinctNames(rest)
    requires forall i :: 0 <= i < |rest| && rest[i].userId == t.userId ==> !SameName(t.name, rest[i].name)
    ensures DistinctNames([t] + rest)
  {
    var all := [t] + rest;
    forall i, j | 0 <= i < j < |all| && all[i].userId == all[j].userId
      ensures !SameName(all[i].name, all[j].name)
    {
      assert all[j] == rest[j - 1];
      if i > 0 {
        assert all[i] == rest[i - 1];
      }
    }
  }

  /** The links between that ad and that tag. */
  function LinksOf(links: seq<Link>, adId: string, tagId: string): seq<Link> {
    Filter(links, (l: Link) => l == Link(adId, tagId))
  }

  /** `tagAd`: both must be the user's; an existing link means nothing to do. */
  function TagAd(db: Db, user: Option<string>, adId: string, tagId: string): (r: Result<Db, Failure>)
    ensures user.None? ==> r == Err(Thrown(AuthRequired))
    ensures user.Some? && !OwnsAd(db.ads, user.value, adId) ==> r == Err(Thrown(CannotTagAd))
    ensures user.Some? && OwnsAd(db.ads, user.value, adId) && !OwnsTag(db.tags, user.value, tagId)
            ==> r == Err(Thrown(TagNoAccess))
    ensures user.Some? && OwnsAd(db.ads, user.value, adId) && OwnsTag(db.tags, user.value, tagId)
            ==> (r.Ok? <==> |LinksOf(db.links, adId, tagId)| <= 1)
    ensures user.Some? && OwnsAd(db.ads, user.value, adId) && OwnsTag(db.tags, user.value, tagId)
            && |LinksOf(db.links, adId, tagId)| > 1
            ==> r == Err(RowCount)
    ensures r.Ok? ==> && OwnsAd(db.ads, user.value, adId) && OwnsTag(db.tags, user.value, tagId)
                      && r.value.tags == db.tags && r.value.ads == db.ads
                      && r.value.links == (if Link(adId, tagId) in db.links then db.links
                                           else db.links + [Link(adId, tagId)])
  {
    match user
    case None => Err(Thrown(AuthRequired))
    case Some(u) =>
      if !OwnsAd(db.ads, u, adId) then Err(Thrown(CannotTagAd))
      else if !OwnsTag(db.tags, u, tagId) then Err(Thrown(TagNoAccess))
      else
        var existing := LinksOf(db.links, adId, tagId);
        match MaybeSingle(existing)
        case Err(e) => Err(e)
        case Ok(true) =>
          assert existing[0] in db.links;
          Ok(db)
        case Ok(false) =>
          assert Link(adId, tagId) !in db.links;
          Ok(db.(links := db.links + [Link(adId, tagId)]))
  }

  /** Each (ad, tag) pair is linked at most once. */
  predicate LinksOnce(links: seq<Link>) {
    forall i, j :: 0 <= i < j < |links| ==> links[i] != links[j]
  }

  lemma SingleLink(links: seq<Link>, l: Link)
    requires LinksOnce(links)
    ensures |Filter(links, (m: Link) => m == l)| <= 1
  {
    var found := Filter(links, (m: Link) => m == l);
    if |found| > 1 {
      assert found[0] == l && found[1] == l;
      FilterTwice(links, l);
    }
  }

  lemma {:induction false} FilterTwice(links: seq<Link>, l: Link)
    requires |Filter(links, (m: Link) => m == l)| > 1
    ensures exists i, j :: 0 <= i < j < |links| && links[i] == l && links[j] == l
  {
    if links[0] == l {
      var rest := Filter(links[1..], (m: Link) => m == l);
      assert Filter(links, (m: Link) => m == l) == [links[0]] + rest;
      assert rest[0] in links[1..];
      var j :| 0 <= j < |links[1..]| && links[1..][j] == rest[0];
      assert links[0] == l && links[j + 1] == l;
    } else {
      FilterTwice(links[1..], l);
      var i, j :| 0 <= i < j < |links[1..]| && links[1..][i] == l && links[1..][j] == l;
      assert links[i + 1] == l && links[j + 1] == l;
    }
  }

  /** Tagging twice is tagging once, when each pair is linked at most once. */
  lemma TagAdIdempotent(db: Db, user: Option<string>, adId: string, tagId: string)
    requires LinksOnce(db.links) && TagAd(db, user, adId, tagId).Ok?
    ensures TagAd(TagAd(db, user, adId, tagId).value, user, adId, tagId) == TagAd(db, user, adId, tagId)
    ensures Link(adId, tagId) in TagAd(db, user, adId, tagId).value.links
    ensures LinksOnce(TagAd(db, user, adId, tagId).value.links)
  {
    var db2 := TagAd(db, user, adId, tagId).value;
    var l := Link(adId, tagId);
    assert db2.links[|db2.links| - 1] == l || l in db.links;
    assert LinksOnce(db2.links);
    SingleLink(db2.links, l);
    assert l in LinksOf(db2.links, adId, tagId);
  }

  /** Tagging keeps the tables valid: the new link's ad and tag exist. */
  lemma TagAdKeepsValid(db: Db, user: Option<string>, adId: string, tagId: string)
    requires Valid(db) && TagAd(db, user, adId, tagId).Ok?
    ensures Valid(TagAd(db, user, adId, tagId).value)
  {
    var db2 := TagAd(db, user, adId, tagId).value;
    var u := user.value;
    var ownedTag := Filter(db.tags, (t: TagRow) => t.id == tagId && t.userId == u);
    var ownedAd := Filter(db.ads, (a: AdRow) => a.id == adId && a.userId == u);
    assert ownedTag[0] in db.tags && ownedAd[0] in db.ads;
    forall k | 0 <= k < |db2.links|
      ensures HasTag(db2.tags, db2.links[k].tagId) && HasAd(db2.ads, db2.links[k].adId)
    {
      if k == |db.links| {
        var i :| 0 <= i < |db.tags| && db.tags[i] == ownedTag[0];
        var j :| 0 <= j < |db.ads| && db.ads[j] == ownedAd[0];
      }
    }
  }

  /** `untagAd`: both must be the user's; every link of that pair goes. */
  function UntagAd(db: Db, user: Option<string>, adId: string, tagId: string): (r: Result<Db, Failure>)
    ensures user.None? ==> r == Err(Thrown(AuthRequired))
    ensures user.Some? && !OwnsAd(db.ads, user.value, adId) ==> r == Err(Thrown(AdNoAccess))
    ensures user.Some? && OwnsAd(db.ads, user.value, adId) && !OwnsTag(db.tags, user.value, tagId)
            ==> r == Err(Thrown(TagNoAccess))
    ensures user.Some? && OwnsAd(db.ads, user.value, adId) && OwnsTag(db.tags, user.value, tagId) ==> r.Ok?
    ensures r.Ok? ==> && r.value.tags == db.tags && r.value.ads == db.ads
                      && Link(adId, tagId) !in r.value.links
                      && (forall k :: 0 <= k < |db.links| && db.links[k] != Link(adId, tagId) ==> db.links[k] in r.value.links)
                      && (forall k :: 0 <= k < |r.value.links| ==> r.value.links[k] in db.links)
  {
    match user
    case None => Err(Thrown(AuthRequired))
    case Some(u) =>
      if !OwnsAd(db.ads, u, adId) then Err(Thrown(AdNoAccess))
      else if !OwnsTag(db.tags, u, tagId) then Err(Thrown(TagNoAccess))
      else Ok(db.(links := Filter(db.links, (l: Link) => l != Link(adId, tagId))))
  }

  /** Untagging keeps the tables valid. */
  lemma UntagKeepsValid(db: Db, user: Option<string>, adId: string, tagId: string)
    requires Valid(db) && UntagAd(db, user, adId, tagId).Ok?
    ensures Valid(UntagAd(db, user, adId, tagId).value)
  {
    var db2 := UntagAd(db, user, adId, tagId).value;
    forall k | 0 <= k < |db2.links|
      ensures HasTag(db2.tags, db2.links[k].tagId) && HasAd(db2.ads, db2.links[k].adId)
    {
      var m :| 0 <= m < |db.links| && db.links[m] == db2.links[k];
    }
  }

  /** Untagging undoes tagging: a pair that was not linked is unlinked again. */
  lemma UntagUndoesTag(db: Db, user: Option<string>, adId: string, tagId: string)
    requires TagAd(db, user, adId, tagId).Ok? && Link(adId, tagId) !in db.links
    ensures UntagAd(TagAd(db, user, adId, tagId).value, user, adId, tagId) == Ok(db)
  {
    var db2 := TagAd(db, user, adId, tagId).value;
    var l := Link(adId, tagId);
    assert db2.links == db.links + [l];
    var p := (m: Link) => m != l;
    FilterAppend(db.links, [l], p);
    FilterAll(db.links, p);
    assert [l][1..] == [];
    assert Filter([l], p) == Filter([l][1..], p) == [];
    assert Filter(db2.links, p) == db.links;
  }

  /**
   * `getAdsByTag`: the ids of the ads linked to the user's tag; no user, a
   * tag not the user's, or a failing query (`fails`) give no ids.
   */
  function AdsByTag(db: Db, user: Option<string>, tagId: string, fails: bool): (r: seq<string>)
    ensures user.None? || !OwnsTag(db.tags, user.value, tagId) || fails ==> r == []
    ensures forall i :: 0 <= i < |r| ==> r[i] != "" && Link(r[i], tagId) in db.links
    ensures user.Some? && OwnsTag(db.tags, user.value, tagId) && !fails ==>
              forall k :: 0 <= k < |db.links| && db.links[k].tagId == tagId && db.links[k].adId != "" ==> db.links[k].adId in r
  {
    if user.None? || !OwnsTag(db.tags, user.value, tagId) || fails then []
    else
      LinkedAdIds(db.links, tagId);
      Filter(Map(Filter(db.links, (l: Link) => l.tagId == tagId), (l: Link) => l.adId), (a: string) => a != "")
  }

  /** The non-empty ad ids of the links to a tag are exactly those links' ads. */
  lemma LinkedAdIds(links: seq<Link>, tagId: string)
    ensures var r := Filter(Map(Filter(links, (l: Link) => l.tagId == tagId), (l: Link) => l.adId), (a: string) => a != "");
            && (forall i :: 0 <= i < |r| ==> r[i] != "" && Link(r[i], tagId) in links)
            && (forall k :: 0 <= k < |links| && links[k].tagId == tagId && links[k].adId != "" ==> links[k].adId in r)
  {
    var linked := Filter(links, (l: Link) => l.tagId == tagId);
    var ids := Map(linked, (l: Link) => l.adId);
    var r := Filter(ids, (a: string) => a != "");
    forall i | 0 <= i < |r| ensures Link(r[i], tagId) in links {
      var j :| 0 <= j < |ids| && ids[j] == r[i];
      assert linked[j] in links && linked[j] == Link(r[i], tagId);
    }
    forall k | 0 <= k < |links| && links[k].tagId == tagId && links[k].adId != ""
      ensures links[k].adId in r
    {
      var j :| 0 <= j < |linked| && linked[j] == links[k];
      assert ids[j] == links[k].adId;
    }
  }

  /** The tag a link points to, when it exists. */
  function TagById(tags: seq<TagRow>, id: string): Option<TagRow> {
    Find(tags, (t: TagRow) => t.id == id)
  }

  /** The tags the links point to, in link order; a link to no tag gives nothing. */
  function JoinedTags(tags: seq<TagRow>, links: seq<Link>): (r: seq<TagRow>)
    ensures |r| <= |links|
    ensures forall i :: 0 <= i < |r| ==> r[i] in tags
  {
    if |links| == 0 then []
    else
      var rest := JoinedTags(tags, links[1..]);
      match TagById(tags, links[0].tagId)
      case None => rest
      case Some(t) => [t] + rest
  }

  /** Every joined tag is the target of some link. */
  lemma {:induction false} JoinedFromLinks(tags: seq<TagRow>, links: seq<Link>)
    ensures forall i :: 0 <= i < |JoinedTags(tags, links)| ==>
              exists k :: 0 <= k < |links| && links[k].tagId == JoinedTags(tags, links)[i].id
  {
    if |links| > 0 {
      JoinedFromLinks(tags, links[1..]);
      var rest := JoinedTags(tags, links[1..]);
      var r := JoinedTags(tags, links);
      var found := TagById(tags, links[0].tagId);
      var offset := if found.Some? then 1 else 0;
      assert found.Some? ==> r == [found.value] + rest && found.value.id == links[0].tagId;
      assert found.None? ==> r == rest;
      forall i | 0 <= i < |r|
        ensures exists k :: 0 <= k < |links| && links[k].tagId == r[i].id
      {
        if i < offset {
          assert links[0].tagId == r[i].id;
        } else {
          assert r[i] == rest[i - offset];
          var k :| 0 <= k < |links[1..]| && links[1..][k].tagId == rest[i - offset].id;
          assert links[k + 1].tagId == r[i].id;
        }
      }
    } else {
      assert JoinedTags(tags, links) == [];
    }
  }

  /** Every link to an existing tag contributes that tag. */
  lemma {:induction false} LinksJoined(tags: seq<TagRow>, links: seq<Link>)
    ensures forall k :: 0 <= k < |links| && HasTag(tags, links[k].tagId) ==>
              exists i :: 0 <= i < |JoinedTags(tags, links)| && JoinedTags(tags, links)[i].id == links[k].tagId
  {
    if |links| > 0 {
      LinksJoined(tags, links[1..]);
      var rest := JoinedTags(tags, links[1..]);
      var r := JoinedTags(tags, links);
      var found := TagById(tags, links[0].tagId);
      var offset := if found.Some? then 1 else 0;
      assert found.Some? ==> r == [found.value] + rest && found.value.id == links[0].tagId;
      assert found.None? ==> r == rest;
      forall k | 0 <= k < |links| && HasTag(tags, links[k].tagId)
        ensures exists i :: 0 <= i < |r| && r[i].id == links[k].tagId
      {
        if k == 0 {
          var j :| 0 <= j < |tags| && tags[j].id == links[0].tagId;
          assert found.Some?;
          assert r[0].id == links[0].tagId;
        } else {
          assert links[1..][k - 1] == links[k];
          var i :| 0 <= i < |rest| && rest[i].id == links[k].tagId;
          assert r[i + offset] == rest[i];
        }
      }
      assert JoinedTags(tags, links) == r;
    }
  }

  /**
   * `getTagsForAd`: the tags linked to the ad, once the ad is found to be
   * owned by `userId` (by the signed-in user when `userId` is empty). The
   * tags themselves are not filtered by owner.
   */
  function TagsForAd(db: Db, user: Option<string>, adId: string, userId: string): (r: Result<seq<TagRow>, Failure>)
    ensures userId == "" && user.None? ==> r == Err(NoUser)
    ensures r.Ok? ==> r.value == JoinedTags(db.tags, Filter(db.links, (l: Link) => l.adId == adId))
    ensures r.Ok? <==> (userId != "" || user.Some?)
                       && OwnsAd(db.ads, if userId != "" then userId else user.value, adId)
  {
    if userId == "" && user.None? then Err(NoUser)
    else
      var owner := if userId != "" then userId else user.value;
      if !OwnsAd(db.ads, owner, adId) then Err(RowCount)
      else Ok(JoinedTags(db.tags, Filter(db.links, (l: Link) => l.adId == adId)))
  }

  /** `getAllTags`: the user's tags; the order by name is left to the database. */
  function AllTags(db: Db, user: Option<string>): (r: Result<seq<TagRow>, Failure>)
    ensures user.None? ==> r == Err(NoUser)
    ensures r.Ok? ==> (forall i :: 0 <= i < |r.value| ==> r.value[i] in db.tags && r.value[i].userId == user.value)
                      && (forall i :: 0 <= i < |db.tags| && db.tags[i].userId == user.value ==> db.tags[i] in r.value)
  {
    match user
    case None => Err(NoUser)
    case Some(u) => Ok(Filter(db.tags, (t: TagRow) => t.userId == u))
  }

  /** `getTagsForAdWithOwner`: as `getTagsForAd`, with the owner given and no session read. */
  function TagsForAdWithOwner(db: Db, adId: string, ownerId: string): (r: Result<seq<TagRow>, Failure>)
    ensures r.Ok? <==> OwnsAd(db.ads, ownerId, adId)
    ensures r.Ok? ==> r.value == JoinedTags(db.tags, Filter(db.links, (l: Link) => l.adId == adId))
  {
    if !OwnsAd(db.ads, ownerId, adId) then Err(RowCount)
    else Ok(JoinedTags(db.tags, Filter(db.links, (l: Link) => l.adId == adId)))
  }

  /** With a non-empty owner the two reads agree, whoever is signed in. */
  lemma WithOwnerMatchesTagsForAd(db: Db, user: Option<string>, adId: string, ownerId: string)
    requires ownerId != ""
    ensures TagsForAdWithOwner(db, adId, ownerId) == TagsForAd(db, user, adId, ownerId)
  {
  }

  /** `getTagsForUser`: the tags owned by the given user, whoever is signed in. */
  function TagsForUser(db: Db, userId: string): (r: seq<TagRow>)
    ensures forall i :: 0 <= i < |r| ==> r[i] in db.tags && r[i].userId == userId
    ensures forall i :: 0 <= i < |db.tags| && db.tags[i].userId == userId ==> db.tags[i] in r
  {
    Filter(db.tags, (t: TagRow) => t.userId == userId)
  }

  /** For the signed-in user's own id, the two reads list the same tags. */
  lemma AllTagsAreOwnTags(db: Db, user: string)
    ensures AllTags(db, Some(user)) == Ok(TagsForUser(db, user))
  {
  }
}

=== FILE: tagstore.dfy ===
/**
 * The client-side tag store: the list the components read, an error
 * message, two flags, and the module-level cache with the time it was
 * filled. Each server call is replaced by its outcome, given as a
 * parameter: the value it resolves to or the message it rejects with.
 * Clock readings are parameters too.
 */
module TagStore {
  import opened Wrappers
  import opened Seqs
  import opened Entities

  /** How long a filled cache counts as fresh, in milliseconds. */
  const CacheDuration: int := 30000

  datatype Store = Store(
    tags: seq<Tag>,
    error: Option<string>,
    isInitialized: bool,
    isLoading: bool,
    cache: Option<seq<Tag>>,
    lastFetchTime: int)

  /** What an action leaves: the store, and the message it rethrows, if any. */
  datatype Outcome = Outcome(store: Store, thrown: Option<string>)

  /** The store before any action, and after `reset`. */
  const Initial: Store := Store([], None, false, false, None, 0)

  /** `reset`. */
  function Reset(s: Store): (r: Store)
    ensures r.tags == [] && r.error.None? && !r.isInitialized && !r.isLoading
    ensures r.cache.None? && r.lastFetchTime == 0
  {
    Initial
  }

  /** The cache is missing or older than the cache duration. */
  predicate Stale(s: Store, now: int) {
    s.cache.None? || now - s.lastFetchTime >= CacheDuration
  }

  /**
   * `initialize`: nothing to do when initialized with a fresh cache;
   * otherwise the tags are fetched (`fetched`, at time `fetchedAt`) only when
   * the cache is stale, and then the store shows the cache.
   */
  function Initialize(s: Store, now: int, fetched: Result<seq<Tag>, string>, fetchedAt: int): (r: Store)
    ensures s.isInitialized && !Stale(s, now) ==> r == s
    ensures !(s.isInitialized && !Stale(s, now)) && !Stale(s, now) ==>
              r == s.(tags := s.cache.value, isInitialized := true, isLoading := false, error := None)
    ensures !(s.isInitialized && !Stale(s, now)) && Stale(s, now) && fetched.Ok? ==>
              r == s.(tags := fetched.value, cache := Some(fetched.value), lastFetchTime := fetchedAt,
                      isInitialized := true, isLoading := false, error := None)
    ensures !(s.isInitialized && !Stale(s, now)) && Stale(s, now) && fetched.Err? ==>
              r == s.(error := Some(fetched.error), isLoading := false)
  {
    if s.isInitialized && !Stale(s, now) then s
    else
      var loading := s.(isLoading := true, error := None);
      if Stale(s, now) then
        match fetched
        case Err(m) => loading.(error := Some(m), isLoading := false)
        case Ok(got) =>
          loading.(cache := Some(got), lastFetchTime := fetchedAt,
                   tags := got, isInitialized := true, isLoading := false, error := None)
      else
        loading.(tags := s.cache.value, isInitialized := true, isLoading := false, error := None)
  }

  /** `initialize` fetches only when the cache is stale: otherwise the fetch outcome does not matter. */
  lemma InitializeFetchesOnlyWhenStale(s: Store, now: int, f1: Result<seq<Tag>, string>, t1: int,
                                       f2: Result<seq<Tag>, string>, t2: int)
    ensures !Stale(s, now) ==> Initialize(s, now, f1, t1) == Initialize(s, now, f2, t2)
    ensures Stale(s, now) && f1.Ok? && f2.Ok? && f1.value != f2.value ==>
              Initialize(s, now, f1, t1).tags != Initialize(s, now, f2, t2).tags
  {
  }

  /** Once initialized, the store shows exactly the cache, when there is one. */
  predicate Synced(s: Store) {
    s.isInitialized && s.cache.Some? ==> s.tags == s.cache.value
  }

  /** After a successful `initialize`, the store shows the cache and is initialized. */
  lemma InitializeShowsCache(s: Store, now: int, fetched: Result<seq<Tag>, string>, fetchedAt: int)
    requires Synced(s)
    requires !Stale(s, now) || fetched.Ok?
    ensures var r := Initialize(s, now, fetched, fetchedAt);
            r.isInitialized && r.cache.Some? && r.tags == r.cache.value
            && (r == s || !r.isLoading)
  {
  }

  /** `refreshTags`: always fetches. */
  function Refresh(s: Store, fetched: Result<seq<Tag>, string>, fetchedAt: int): (r: Store)
    ensures fetched.Ok? ==> r == s.(tags := fetched.value, cache := Some(fetched.value), lastFetchTime := fetchedAt,
                                    isInitialized := true, isLoading := false, error := None)
    ensures fetched.Err? ==> r == s.(error := Some(fetched.error), isLoading := false)
  {
    match fetched
    case Err(m) => s.(error := Some(m), isLoading := false)
    case Ok(got) =>
      s.(tags := got, cache := Some(got), lastFetchTime := fetchedAt,
         isInitialized := true, isLoading := false, error := None)
  }

  /** `addTag`: the created tag goes at the end of the list, and of the cache when there is one. */
  function AddTag(s: Store, created: Result<Tag, string>, now: int): (r: Outcome)
    ensures created.Ok? ==> r.thrown.None? && r.store.tags == s.tags + [created.value]
                            && r.store.cache == (if s.cache.Some? then Some(s.cache.value + [created.value]) else None)
                            && r.store.error.None? && !r.store.isLoading
    ensures created.Err? ==> r.thrown == Some(created.error) && r.store.tags == s.tags && r.store.cache == s.cache
                             && r.store.error == Some(created.error) && !r.store.isLoading
  {
    match created
    case Err(m) => Outcome(s.(error := Some(m), isLoading := false), Some(m))
    case Ok(t) =>
      var cache := if s.cache.Some? then Some(s.cache.value + [t]) else None;
      var last := if s.cache.Some? then now else s.lastFetchTime;
      Outcome(s.(tags := s.tags + [t], cache := cache, lastFetchTime := last, isLoading := false, error := None), None)
  }

  /** The tags with that id get the new name and color. */
  function Rename(tags: seq<Tag>, id: string, name: string, color: string): (r: seq<Tag>)
    ensures |r| == |tags|
    ensures forall i :: 0 <= i < |tags| ==>
              r[i] == (if tags[i].id == id then tags[i].(name := name, color := color) else tags[i])
  {
    Map(tags, (t: Tag) => if t.id == id then t.(name := name, color := color) else t)
  }

  /** `updateTag`: the list and the cache change only once the server call succeeds. */
  function UpdateTag(s: Store, id: string, name: string, color: string, result: Option<string>, now: int): (r: Outcome)
    ensures result.None? ==> r.thrown.None? && r.store.tags == Rename(s.tags, id, name, color)
                             && r.store.cache == (if s.cache.Some? then Some(Rename(s.cache.value, id, name, color)) else None)
    ensures result.Some? ==> r.thrown == result && r.store.tags == s.tags && r.store.cache == s.cache
                             && r.store.error == result
    ensures !r.store.isLoading
  {
    match result
    case Some(m) => Outcome(s.(error := Some(m), isLoading := false), Some(m))
    case None =>
      var cache := if s.cache.Some? then Some(Rename(s.cache.value, id, name, color)) else None;
      var last := if s.cache.Some? then now else s.lastFetchTime;
      Outcome(s.(tags := Rename(s.tags, id, name, color), cache := cache, lastFetchTime := last,
                 isLoading := false, error := None), None)
  }

  /** A successful update keeps the ids, in order, and every other tag as it was. */
  lemma UpdateKeepsIds(s: Store, id: string, name: string, color: string, now: int)
    ensures var r := UpdateTag(s, id, name, color, None, now).store;
            |r.tags| == |s.tags|
            && (forall i :: 0 <= i < |s.tags| ==> r.tags[i].id == s.tags[i].id && r.tags[i].createdAt == s.tags[i].createdAt)
            && (forall i :: 0 <= i < |s.tags| && s.tags[i].id != id ==> r.tags[i] == s.tags[i])
            && (forall i :: 0 <= i < |s.tags| && s.tags[i].id == id ==> r.tags[i].name == name && r.tags[i].color == color)
  {
  }

  /** Without the tag's id. */
  function Without(tags: seq<Tag>, id: string): (r: seq<Tag>)
    ensures forall i :: 0 <= i < |r| ==> r[i].id != id && r[i] in tags
    ensures forall i :: 0 <= i < |tags| && tags[i].id != id ==> tags[i] in r
  {
    Filter(tags, (t: Tag) => t.id != id)
  }

  /**
   * `deleteTag`: the regular delete, then the forced one if it fails (each
   * given by its failure message, None when it succeeds). If either
   * succeeds, the tag leaves the list and the cache; if both fail, the
   * store is refreshed (`refreshed`) and the forced delete's message is set
   * and rethrown.
   */
  function DeleteTag(s: Store, id: string, regular: Option<string>, forced: Option<string>,
                     refreshed: Result<seq<Tag>, string>, now: int, fetchedAt: int): (r: Outcome)
    ensures regular.None? || forced.None? ==>
              r.thrown.None? && r.store.tags == Without(s.tags, id)
              && r.store.cache == (if s.cache.Some? then Some(Without(s.cache.value, id)) else None)
    ensures regular.Some? && forced.Some? ==>
              r.thrown == forced && r.store.error == forced
              && r.store.tags == Refresh(s.(isLoading := true, error := None), refreshed, fetchedAt).tags
    ensures !r.store.isLoading
  {
    var loading := s.(isLoading := true, error := None);
    if regular.None? || forced.None? then
      var cache := if s.cache.Some? then Some(Without(s.cache.value, id)) else None;
      var last := if s.cache.Some? then now else s.lastFetchTime;
      Outcome(loading.(tags := Without(s.tags, id), cache := cache, lastFetchTime := last, isLoading := false), None)
    else
      var m := forced.value;
      Outcome(Refresh(loading, refreshed, fetchedAt).(error := Some(m), isLoading := false), Some(m))
  }

  lemma {:induction false} WithoutAppendNew(tags: seq<Tag>, t: Tag)
    requires forall i :: 0 <= i < |tags| ==> tags[i].id != t.id
    ensures Without(tags + [t], t.id) == tags
  {
    var p := (x: Tag) => x.id != t.id;
    FilterAppend(tags, [t], p);
    FilterAll(tags, p);
    assert [t][1..] == [];
    assert Filter([t], p) == Filter([t][1..], p);
  }

  /**
   * Deleting a tag just added, whose id was new, gives back the list and
   * the cache as they were.
   */
  lemma DeleteUndoesAdd(s: Store, t: Tag, now: int, later: int, forced: Option<string>,
                        refreshed: Result<seq<Tag>, string>, fetchedAt: int)
    requires forall i :: 0 <= i < |s.tags| ==> s.tags[i].id != t.id
    requires s.cache.Some? ==> forall i :: 0 <= i < |s.cache.value| ==> s.cache.value[i].id != t.id
    ensures var added := AddTag(s, Ok(t), now).store;
            var deleted := DeleteTag(added, t.id, None, forced, refreshed, later, fetchedAt).store;
            deleted.tags == s.tags && deleted.cache == s.cache
  {
    WithoutAppendNew(s.tags, t);
    if s.cache.Some? {
      WithoutAppendNew(s.cache.value, t);
    }
  }

  /** Every action keeps the list in step with the cache once the store is initialized. */
  lemma ActionsKeepSynced(s: Store, now: int, later: int, fetched: Result<seq<Tag>, string>,
                          created: Result<Tag, string>, id: string, name: string, color: string,
                          result: Option<string>, regular: Option<string>, forced: Option<string>)
    requires Synced(s)
    ensures Synced(Reset(s))
    ensures Synced(Initialize(s, now, fetched, later))
    ensures Synced(Refresh(s, fetched, later))
    ensures Synced(AddTag(s, created, now).store)
    ensures Synced(UpdateTag(s, id, name, color, result, now).store)
    ensures Synced(DeleteTag(s, id, regular, forced, fetched, now, later).store)
  {
  }
}

=== FILE: text.dfy ===
/**
 * String operations of the JavaScript standard library as the application uses
 * them: `trim`, ASCII `toLowerCase`/`toUpperCase`, `startsWith`/`endsWith`,
 * `includes`, `split` with a string separator, `join`, a global literal
 * `replace`, and decimal rendering of a number.
 */
module Text {
  import Seqs

  /** JavaScript's WhiteSpace and LineTerminator characters, which `trim` removes. */
  predicate IsSpace(c: char) {
    || c == ' ' || c == '\t' || c == '\n' || c == '\r'
    || c == '\U{000B}' || c == '\U{000C}' || c == '\U{00A0}' || c == '\U{1680}'
    || ('\U{2000}' <= c <= '\U{200A}')
    || c == '\U{2028}' || c == '\U{2029}' || c == '\U{202F}' || c == '\U{205F}'
    || c == '\U{3000}' || c == '\U{FEFF}'
  }

  predicate AllSpace(s: string) {
    forall k :: 0 <= k < |s| ==> IsSpace(s[k])
  }

  function TrimStart(s: string): (r: string)
    ensures |r| <= |s| && r == s[|s| - |r|..]
    ensures |r| == 0 || !IsSpace(r[0])
    ensures forall k :: 0 <= k < |s| - |r| ==> IsSpace(s[k])
  {
    if |s| > 0 && IsSpace(s[0]) then TrimStart(s[1..]) else s
  }

  function TrimEnd(s: string): (r: string)
    ensures |r| <= |s| && r == s[..|r|]
    ensures |r| == 0 || !IsSpace(r[|r| - 1])
    ensures forall k :: |r| <= k < |s| ==> IsSpace(s[k])
  {
    if |s| > 0 && IsSpace(s[|s| - 1]) then TrimEnd(s[..|s| - 1]) else s
  }

  /** `s.trim()`: the text between the leading and the trailing white space. */
  function Trim(s: string): (r: string)
    ensures |r| <= |s|
    ensures |r| == 0 || (!IsSpace(r[0]) && !IsSpace(r[|r| - 1]))
    ensures |r| == 0 <==> AllSpace(s)
  {
    var t := TrimStart(s);
    var r := TrimEnd(t);
    assert |r| > 0 ==> r[0] == t[0];
    r
  }

  lemma TrimOfTrimmed(s: string)
    requires |s| == 0 || (!IsSpace(s[0]) && !IsSpace(s[|s| - 1]))
    ensures Trim(s) == s
  {
  }

  /** `trim` is idempotent. */
  lemma TrimIdempotent(s: string)
    ensures Trim(Trim(s)) == Trim(s)
  {
    TrimOfTrimmed(Trim(s));
  }

  /** Leading white space does not change what `trimStart` leaves. */
  lemma {:induction false} TrimStartSpaces(ws: string, x: string)
    requires AllSpace(ws)
    ensures TrimStart(ws + x) == TrimStart(x)
    decreases |ws|
  {
    if |ws| > 0 {
      assert (ws + x)[0] == ws[0];
      assert (ws + x)[1..] == ws[1..] + x;
      TrimStartSpaces(ws[1..], x);
    } else {
      assert ws + x == x;
    }
  }

  /** Trailing white space does not change what `trimEnd` leaves. */
  lemma {:induction false} TrimEndSpaces(x: string, ws: string)
    requires AllSpace(ws)
    ensures TrimEnd(x + ws) == TrimEnd(x)
    decreases |ws|
  {
    if |ws| > 0 {
      var y := x + ws;
      assert y[|y| - 1] == ws[|ws| - 1];
      assert y[..|y| - 1] == x + ws[..|ws| - 1];
      TrimEndSpaces(x, ws[..|ws| - 1]);
    } else {
      assert x + ws == x;
    }
  }

  /** `trimStart` stops at the first non-space character, so text after it is kept. */
  lemma {:induction false} TrimStartAppend(a: string, b: string)
    requires |b| > 0 && !IsSpace(b[0])
    ensures TrimStart(a + b) == TrimStart(a) + b
    decreases |a|
  {
    if |a| > 0 {
      assert (a + b)[0] == a[0];
      if IsSpace(a[0]) {
        assert (a + b)[1..] == a[1..] + b;
        TrimStartAppend(a[1..], b);
      }
    } else {
      assert a + b == b;
    }
  }

  /** Leading white space does not change the trimmed text. */
  lemma TrimLeadingSpaces(ws: string, x: string)
    requires AllSpace(ws)
    ensures Trim(ws + x) == Trim(x)
  {
    TrimStartSpaces(ws, x);
  }

  lemma TrimIsBothEnds(s: string)
    ensures Trim(s) == TrimEnd(TrimStart(s))
  {
  }

  lemma TrimEndNonSpace(s: string)
    requires |s| > 0 && !IsSpace(s[|s| - 1])
    ensures TrimEnd(s) == s
  {
  }

  lemma TrimStartBefore(a: string, b: string, ws: string)
    requires |b| > 0 && !IsSpace(b[0])
    ensures TrimStart(a + b + ws) == (TrimStart(a) + b) + ws
  {
    var bw := b + ws;
    Seqs.AppendAssoc(a, b, ws);
    assert bw[0] == b[0];
    TrimStartAppend(a, bw);
    Seqs.AppendAssoc(TrimStart(a), b, ws);
  }

  /** Trailing white space after a non-space part is trimmed off, and only it. */
  lemma TrimBeforeSpaces(a: string, b: string, ws: string)
    requires |b| > 0 && !IsSpace(b[0]) && !IsSpace(b[|b| - 1]) && AllSpace(ws)
    ensures Trim(a + b + ws) == TrimStart(a) + b
  {
    TrimStartBefore(a, b, ws);
    var kept := TrimStart(a) + b;
    TrimEndSpaces(kept, ws);
    assert kept[|kept| - 1] == b[|b| - 1];
    TrimEndNonSpace(kept);
    TrimIsBothEnds(a + b + ws);
  }

  /** A prefix ending in a non-space character survives `trimEnd`. */
  lemma PrefixSurvivesTrimEnd(p: string, x: string)
    requires p <= x && |p| > 0 && !IsSpace(p[|p| - 1])
    ensures p <= TrimEnd(x)
  {
    var r := TrimEnd(x);
    assert !IsSpace(x[|p| - 1]);
    assert |r| >= |p|;
    assert r == x[..|r|];
    assert r[..|p|] == x[..|p|];
  }

  function LowerChar(c: char): char {
    if 'A' <= c <= 'Z' then (c as int + 32) as char else c
  }

  function UpperChar(c: char): char {
    if 'a' <= c <= 'z' then (c as int - 32) as char else c
  }

  /** `toLowerCase` restricted to ASCII letters. */
  function Lower(s: string): (r: string)
    ensures |r| == |s|
    ensures forall k :: 0 <= k < |s| ==> r[k] == LowerChar(s[k])
  {
    seq(|s|, k requires 0 <= k < |s| => LowerChar(s[k]))
  }

  /** `toUpperCase` restricted to ASCII letters. */
  function Upper(s: string): (r: string)
    ensures |r| == |s|
    ensures forall k :: 0 <= k < |s| ==> r[k] == UpperChar(s[k])
  {
    seq(|s|, k requires 0 <= k < |s| => UpperChar(s[k]))
  }

  predicate EndsWith(s: string, suffix: string) {
    |suffix| <= |s| && s[|s| - |suffix|..] == suffix
  }

  /** `sub` occurs in `s` starting at index `i`. */
  predicate OccursAt(s: string, sub: string, i: int) {
    0 <= i <= |s| && sub <= s[i..]
  }

  /** `s.includes(sub)`. */
  predicate Contains(s: string, sub: string) {
    exists i | 0 <= i <= |s| :: OccursAt(s, sub, i)
  }

  lemma ContainsSelf(s: string)
    ensures Contains(s, s)
  {
    assert OccursAt(s, s, 0);
  }

  /**
   * `s.split(sep)` for a non-empty literal separator, with `cur` the piece read
   * so far: occurrences are found left to right and do not overlap.
   */
  function SplitFrom(s: string, sep: string, cur: string): (r: seq<string>)
    requires |sep| > 0
    ensures |r| >= 1
    decreases |s|
  {
    if |s| == 0 then [cur]
    else if sep <= s then [cur] + SplitFrom(s[|sep|..], sep, "")
    else SplitFrom(s[1..], sep, cur + [s[0]])
  }

  function Split(s: string, sep: string): seq<string>
    requires |sep| > 0
  {
    SplitFrom(s, sep, "")
  }

  /** `parts.join(sep)`. */
  function Join(parts: seq<string>, sep: string): string {
    if |parts| == 0 then ""
    else if |parts| == 1 then parts[0]
    else parts[0] + sep + Join(parts[1..], sep)
  }

  /** The concatenation of all parts, in order. */
  function Concat(parts: seq<string>): string {
    if |parts| == 0 then "" else parts[0] + Concat(parts[1..])
  }

  lemma ConcatAppend(a: seq<string>, b: seq<string>)
    ensures Concat(a + b) == Concat(a) + Concat(b)
  {
    if |a| > 0 {
      assert (a + b)[0] == a[0];
      assert (a + b)[1..] == a[1..] + b;
      ConcatAppend(a[1..], b);
      assert Concat(a + b) == a[0] + Concat(a[1..] + b);
    } else {
      assert a + b == b;
    }
  }

  /** Joining a first part onto at least one more puts the separator between them. */
  lemma JoinCons(first: string, rest: seq<string>, sep: string)
    requires |rest| >= 1
    ensures Join([first] + rest, sep) == first + sep + Join(rest, sep)
  {
    assert ([first] + rest)[0] == first && ([first] + rest)[1..] == rest;
  }

  lemma {:induction false} JoinSplitFrom(s: string, sep: string, cur: string)
    requires |sep| > 0
    ensures Join(SplitFrom(s, sep, cur), sep) == cur + s
    decreases |s|
  {
    if |s| == 0 {
    } else if sep <= s {
      var tail := s[|sep|..];
      var rest := SplitFrom(tail, sep, "");
      JoinSplitFrom(tail, sep, "");
      assert SplitFrom(s, sep, cur) == [cur] + rest;
      JoinCons(cur, rest, sep);
      assert s == sep + tail;
      Seqs.AppendAssoc(cur, sep, tail);
    } else {
      JoinSplitFrom(s[1..], sep, cur + [s[0]]);
      assert SplitFrom(s, sep, cur) == SplitFrom(s[1..], sep, cur + [s[0]]);
      assert (cur + [s[0]]) + s[1..] == cur + s;
    }
  }

  /** Joining the pieces of a split with the same separator gives the text back. */
  lemma JoinSplit(s: string, sep: string)
    requires |sep| > 0
    ensures Join(Split(s, sep), sep) == s
  {
    JoinSplitFrom(s, sep, "");
  }

  lemma {:induction false} SplitFromSingleAppend(a: string, c: char, b: string, cur: string)
    ensures SplitFrom(a + [c] + b, [c], cur) == SplitFrom(a, [c], cur) + SplitFrom(b, [c], "")
    decreases |a|
  {
    if |a| == 0 {
      assert a + [c] + b == [c] + b;
      assert ([c] + b)[1..] == b;
    } else {
      var s := a + [c] + b;
      assert s[0] == a[0];
      assert s[1..] == a[1..] + [c] + b;
      if a[0] == c {
        assert [c] <= s && [c] <= a;
        SplitFromSingleAppend(a[1..], c, b, "");
      } else {
        assert !([c] <= s) && !([c] <= a);
        SplitFromSingleAppend(a[1..], c, b, cur + [a[0]]);
      }
    }
  }

  /**
   * With a one-character separator, splitting `a + sep + b` splits `a` and `b`
   * independently: nothing read before the separator reaches a later piece.
   */
  lemma SplitSingleAppend(a: string, c: char, b: string)
    ensures Split(a + [c] + b, [c]) == Split(a, [c]) + Split(b, [c])
  {
    SplitFromSingleAppend(a, c, b, "");
  }

  /**
   * A piece free of the separator's first character, followed by the
   * separator, is split off whole.
   */
  lemma {:induction false} SplitFromPiece(d: string, sep: string, rest: string, cur: string)
    requires |sep| > 0 && sep[0] !in d
    ensures SplitFrom(d + sep + rest, sep, cur) == [cur + d] + SplitFrom(rest, sep, "")
    decreases |d|
  {
    var s := d + sep + rest;
    if |d| == 0 {
      assert s == sep + rest;
      assert sep <= s && |s| > 0;
      assert s[|sep|..] == rest;
      assert cur + d == cur;
    } else {
      assert s[0] == d[0] && d[0] != sep[0];
      assert s[1..] == d[1..] + sep + rest;
      SplitFromPiece(d[1..], sep, rest, cur + [d[0]]);
      assert cur + [d[0]] + d[1..] == cur + d;
    }
  }

  /** Text free of the separator's first character is one piece. */
  lemma {:induction false} SplitFromAbsent(s: string, sep: string, cur: string)
    requires |sep| > 0 && sep[0] !in s
    ensures SplitFrom(s, sep, cur) == [cur + s]
    decreases |s|
  {
    if |s| > 0 {
      assert s[0] in s && !(sep <= s);
      assert cur + [s[0]] + s[1..] == cur + s;
      SplitFromAbsent(s[1..], sep, cur + [s[0]]);
    } else {
      assert cur + s == cur;
    }
  }

  lemma SplitAbsent(s: string, sep: string)
    requires |sep| > 0 && sep[0] !in s
    ensures Split(s, sep) == [s]
  {
    SplitFromAbsent(s, sep, "");
    assert "" + s == s;
  }

  /**
   * `s.replace(/pat/g, rep)` for a literal pattern: occurrences are replaced
   * left to right and do not overlap.
   */
  function ReplaceAll(s: string, pat: string, rep: string): string
    requires |pat| > 0
    decreases |s|
  {
    if |s| == 0 then ""
    else if pat <= s then rep + ReplaceAll(s[|pat|..], pat, rep)
    else [s[0]] + ReplaceAll(s[1..], pat, rep)
  }

  /** Text in which the pattern's first character never occurs is left as it is. */
  lemma {:induction false} ReplaceAllAbsent(s: string, pat: string, rep: string)
    requires |pat| > 0 && pat[0] !in s
    ensures ReplaceAll(s, pat, rep) == s
    decreases |s|
  {
    if |s| > 0 {
      assert s[0] != pat[0];
      ReplaceAllAbsent(s[1..], pat, rep);
      assert s == [s[0]] + s[1..];
    }
  }

  /** Text free of the pattern's first character passes through as a prefix. */
  lemma {:induction false} ReplaceAllAppendAbsent(a: string, b: string, pat: string, rep: string)
    requires |pat| > 0 && pat[0] !in a
    ensures ReplaceAll(a + b, pat, rep) == a + ReplaceAll(b, pat, rep)
    decreases |a|
  {
    if |a| > 0 {
      assert (a + b)[0] == a[0] && a[0] != pat[0];
      assert (a + b)[1..] == a[1..] + b;
      ReplaceAllAppendAbsent(a[1..], b, pat, rep);
      assert a == [a[0]] + a[1..];
    } else {
      assert a + b == b;
    }
  }

  /**
   * Replacing a one-character pattern by text that does not contain it leaves
   * no occurrence of that character.
   */
  lemma {:induction false} ReplaceAllRemoves(s: string, c: char, rep: string)
    requires c !in rep
    ensures c !in ReplaceAll(s, [c], rep)
    decreases |s|
  {
    if |s| > 0 {
      if [c] <= s {
        ReplaceAllRemoves(s[|[c]|..], c, rep);
      } else {
        assert s[0] != c;
        ReplaceAllRemoves(s[1..], c, rep);
      }
    }
  }

  /** `s.replace(pat, rep)` for a literal pattern: only the leftmost occurrence is replaced. */
  function ReplaceFirst(s: string, pat: string, rep: string): string
    requires |pat| > 0
    decreases |s|
  {
    if pat <= s then rep + s[|pat|..]
    else if |s| == 0 then ""
    else [s[0]] + ReplaceFirst(s[1..], pat, rep)
  }

  /** The leftmost occurrence lies after any text free of the pattern's first character. */
  lemma {:induction false} ReplaceFirstAfterAbsent(a: string, b: string, pat: string, rep: string)
    requires |pat| > 0 && pat[0] !in a
    ensures ReplaceFirst(a + b, pat, rep) == a + ReplaceFirst(b, pat, rep)
    decreases |a|
  {
    if |a| > 0 {
      assert (a + b)[0] == a[0] && a[0] != pat[0];
      assert (a + b)[1..] == a[1..] + b;
      ReplaceFirstAfterAbsent(a[1..], b, pat, rep);
      assert a == [a[0]] + a[1..];
    } else {
      assert a + b == b;
    }
  }

  /** `s.replace(/suffix$/, '')`: the suffix is removed only at the very end of the text. */
  function StripSuffix(s: string, suffix: string): (r: string)
    ensures EndsWith(s, suffix) ==> r + suffix == s
    ensures !EndsWith(s, suffix) ==> r == s
  {
    if EndsWith(s, suffix) then s[..|s| - |suffix|] else s
  }

  lemma StripAppended(s: string, suffix: string)
    ensures StripSuffix(s + suffix, suffix) == s
  {
    assert EndsWith(s + suffix, suffix) by {
      assert (s + suffix)[|s|..] == suffix;
    }
  }

  /** `s.replace(/^prefix/, '')`: the prefix is removed only at index 0. */
  function StripPrefix(s: string, prefix: string): (r: string)
    ensures prefix <= s ==> prefix + r == s
    ensures !(prefix <= s) ==> r == s
  {
    if prefix <= s then s[|prefix|..] else s
  }

  function DigitChar(d: nat): char
    requires d < 10
  {
    "0123456789"[d]
  }

  /** The decimal rendering of a natural number, as `String(n)` prints it. */
  function NatToString(n: nat): (r: string)
    ensures |r| >= 1
    ensures forall k :: 0 <= k < |r| ==> '0' <= r[k] <= '9'
    decreases n
  {
    if n < 10 then [DigitChar(n)] else NatToString(n / 10) + [DigitChar(n % 10)]
  }

  /** The decimal rendering of an integer, with a leading minus sign when negative. */
  function IntToString(i: int): string {
    if i < 0 then "-" + NatToString(-i) else NatToString(i)
  }
}

=== FILE: transcript.dfy ===
/**
 * The transcript button under a video ad: the label it shows, and what a
 * click does. The transcript call is replaced by its outcome, given as a
 * parameter: the reply it resolves to, or `Err` when it throws.
 */
module TranscriptUi {
  import opened Wrappers

  /** The component's state; a `null` transcript or error is None. */
  datatype Panel = Panel(transcript: Option<string>, isLoading: bool, error: Option<string>, isOpen: bool)

  /** What `getVideoTranscript` resolves to: an error message, or the text. */
  datatype Reply = Reply(error: Option<string>, text: Option<string>)

  const Processing: string := "Processing..."
  const Hide: string := "Hide transcript"
  const Show: string := "Show transcript"
  const Generate: string := "1 Generate Video transcript"
  const LoadFailed: string := "Failed to load transcript"

  /** The state on mount. */
  function Mount(initialTranscript: Option<string>): (r: Panel)
    ensures r.transcript == initialTranscript && !r.isLoading && r.error.None? && !r.isOpen
  {
    Panel(initialTranscript, false, None, false)
  }

  /** `hasTranscript`: the transcript is truthy. */
  predicate HasTranscript(s: Panel) {
    Truthy(s.transcript)
  }

  /** `buttonText`. */
  function Label(s: Panel): (r: string)
    ensures r == Processing <==> s.isLoading
    ensures r == Hide <==> !s.isLoading && HasTranscript(s) && s.isOpen
    ensures r == Show <==> !s.isLoading && HasTranscript(s) && !s.isOpen
    ensures r == Generate <==> !s.isLoading && !HasTranscript(s)
  {
    if s.isLoading then Processing
    else if HasTranscript(s) then (if s.isOpen then Hide else Show)
    else Generate
  }

  /** What renders: nothing unless the ad is a video, otherwise the button with its label. */
  function Render(s: Panel, mediaType: Option<string>): (r: Option<string>)
    ensures r.None? <==> mediaType != Some("video")
    ensures r.Some? ==> r.value == Label(s)
  {
    if mediaType != Some("video") then None else Some(Label(s))
  }

  /** `toggleTranscript`. */
  function Toggle(s: Panel): (r: Panel)
    ensures r.isOpen == !s.isOpen
    ensures r.(isOpen := s.isOpen) == s
  {
    s.(isOpen := !s.isOpen)
  }

  /** The state while the call is pending: loading, with the error cleared. */
  function StartFetch(s: Panel): (r: Panel)
    ensures r.isLoading && r.error.None?
    ensures r.transcript == s.transcript && r.isOpen == s.isOpen
  {
    s.(isLoading := true, error := None)
  }

  /**
   * The state once the call settles: an error reply sets the error, a
   * throw sets the fixed message, anything else stores the text and opens
   * the panel; loading is cleared whatever happened.
   */
  function FinishFetch(s: Panel, outcome: Result<Reply, string>): (r: Panel)
    ensures !r.isLoading
    ensures outcome.Err? ==> r == s.(error := Some(LoadFailed), isLoading := false)
    ensures outcome.Ok? && Truthy(outcome.value.error) ==>
              r == s.(error := outcome.value.error, isLoading := false)
    ensures outcome.Ok? && !Truthy(outcome.value.error) ==>
              r == s.(transcript := outcome.value.text, isOpen := true, isLoading := false)
  {
    match outcome
    case Err(_) => s.(error := Some(LoadFailed), isLoading := false)
    case Ok(reply) =>
      if Truthy(reply.error) then s.(error := reply.error, isLoading := false)
      else s.(transcript := reply.text, isOpen := true, isLoading := false)
  }

  /** `handleGetTranscript`: toggles when a transcript is there, otherwise fetches. The flag says whether it fetched. */
  function GetTranscript(s: Panel, outcome: Result<Reply, string>): (r: (Panel, bool))
    ensures r.1 <==> !HasTranscript(s)
    ensures HasTranscript(s) ==> r.0 == Toggle(s)
    ensures !HasTranscript(s) ==> r.0 == FinishFetch(StartFetch(s), outcome)
  {
    if HasTranscript(s) then (Toggle(s), false)
    else (FinishFetch(StartFetch(s), outcome), true)
  }

  /** The button's click: ignored while it is disabled by loading, otherwise as `handleGetTranscript`. */
  function Click(s: Panel, outcome: Result<Reply, string>): (r: (Panel, bool))
    ensures s.isLoading ==> r == (s, false)
    ensures !s.isLoading ==> r == GetTranscript(s, outcome)
  {
    if s.isLoading then (s, false) else GetTranscript(s, outcome)
  }

  /** A mouse-down outside the panel closes it; one inside changes nothing. */
  function MouseDown(s: Panel, inside: bool): (r: Panel)
    ensures inside ==> r == s
    ensures !inside ==> !r.isOpen && r.(isOpen := s.isOpen) == s
  {
    if inside then s else s.(isOpen := false)
  }

  /** With a transcript, a click only flips the panel open or closed; it never fetches. */
  lemma TranscriptClickOnlyToggles(s: Panel, o1: Result<Reply, string>, o2: Result<Reply, string>)
    requires !s.isLoading && HasTranscript(s)
    ensures Click(s, o1) == Click(s, o2)
    ensures var (r, fetched) := Click(s, o1);
            !fetched && r.transcript == s.transcript && r.error == s.error && r.isOpen == !s.isOpen
            && Label(r) == (if s.isOpen then Show else Hide)
  {
  }

  /** Two clicks with a transcript give back the state, and the label, the panel started with. */
  lemma ToggleTwice(s: Panel, o: Result<Reply, string>)
    requires !s.isLoading && HasTranscript(s)
    ensures Click(Click(s, o).0, o).0 == s
  {
  }

  /** An error reply or a throw leaves the transcript unset, sets an error and shows the generate label again. */
  lemma FailedFetchKeepsGenerate(s: Panel, o: Result<Reply, string>)
    requires !s.isLoading && !HasTranscript(s)
    requires o.Err? || Truthy(o.value.error)
    ensures var (r, fetched) := Click(s, o);
            fetched && r.transcript == s.transcript && Truthy(r.error) && r.isOpen == s.isOpen
            && Label(r) == Generate
  {
  }

  /** A reply with text stores it, clears the error and opens the panel: the label becomes "Hide transcript". */
  lemma FetchedTextOpens(s: Panel, text: string)
    requires !s.isLoading && !HasTranscript(s) && text != ""
    ensures var (r, fetched) := Click(s, Ok(Reply(None, Some(text))));
            fetched && r.transcript == Some(text) && r.error.None? && r.isOpen && !r.isLoading
            && Label(r) == Hide
  {
  }

  /**
   * A reply with neither error nor text still opens the panel, but the
   * transcript stays falsy, so the next click fetches again.
   */
  lemma EmptyReplyFetchesAgain(s: Panel, o: Result<Reply, string>)
    requires !s.isLoading && !HasTranscript(s)
    ensures var r := Click(s, Ok(Reply(None, None))).0;
            r.isOpen && Label(r) == Generate && Click(r, o).1
  {
  }

  /** From mount, the button shows the generate label exactly when no transcript was given. */
  lemma MountLabel(initialTranscript: Option<string>)
    ensures Label(Mount(initialTranscript)) == (if Truthy(initialTranscript) then Show else Generate)
  {
  }
}

=== FILE: wrapper.dfy ===
/**
 * The wrapper around the content panel: it keeps a list of temporary chats
 * that mirrors the streaming text, and hands the panel either that list or
 * the conversation's stored chats, depending on whether a streaming
 * conversation id is set.
 */
module PanelWrapper {
  import opened Wrappers
  import opened Seqs
  import opened Entities
  import ContentPanel

  predicate AllSystem(chats: seq<Chat>) {
    forall i :: 0 <= i < |chats| ==> chats[i].role == SystemRole
  }

  /** The temporary chats of a conversation, in the shape the wrapper keeps them. */
  predicate WellFormed(temp: seq<Chat>) {
    |temp| <= 1 && AllSystem(temp)
  }

  /** The chats whose id is `id` get `content`; the others are left as they are. */
  function WithContent(chats: seq<Chat>, id: string, content: string): (r: seq<Chat>)
    ensures |r| == |chats|
    ensures forall i :: 0 <= i < |chats| ==>
              r[i] == (if chats[i].id == id then chats[i].(content := content) else chats[i])
  {
    Map(chats, (c: Chat) => if c.id == id then c.(content := content) else c)
  }

  /**
   * The effect run when the streaming text or the streaming id changes.
   * `freshId` stands for `crypto.randomUUID()` and `now` for the current
   * time in ISO form.
   */
  function Effect(temp: seq<Chat>, content: string, streamingId: Option<string>,
                  freshId: string, now: string): (r: seq<Chat>)
    ensures !(content != "" && Truthy(streamingId)) ==> r == temp
  {
    if content != "" && Truthy(streamingId) then
      match Find(temp, (c: Chat) => c.conversationId == streamingId.value)
      case Some(existing) => WithContent(temp, existing.id, content)
      case None => [Chat(freshId, streamingId.value, SystemRole, content, now, false)]
    else temp
  }

  /**
   * With text streaming for an id, the effect leaves a system chat of that
   * conversation holding exactly the streaming text; a chat of another
   * conversation is replaced by a new one.
   */
  lemma EffectMirrorsStream(temp: seq<Chat>, content: string, streamingId: Option<string>,
                            freshId: string, now: string) returns (k: nat)
    requires WellFormed(temp)
    requires content != "" && Truthy(streamingId)
    ensures var r := Effect(temp, content, streamingId, freshId, now);
            k < |r| && r[k].conversationId == streamingId.value && r[k].content == content
            && r[k].role == SystemRole
    ensures (forall i :: 0 <= i < |temp| ==> temp[i].conversationId != streamingId.value) ==>
            Effect(temp, content, streamingId, freshId, now)
            == [Chat(freshId, streamingId.value, SystemRole, content, now, false)]
  {
    var p := (c: Chat) => c.conversationId == streamingId.value;
    match Find(temp, p)
    case Some(existing) =>
      k := FindFirst(temp, p);
    case None =>
      k := 0;
  }

  /** The effect keeps the temporary chats well formed. */
  lemma EffectKeepsShape(temp: seq<Chat>, content: string, streamingId: Option<string>,
                         freshId: string, now: string)
    requires WellFormed(temp)
    ensures WellFormed(Effect(temp, content, streamingId, freshId, now))
  {
    var r := Effect(temp, content, streamingId, freshId, now);
    if content != "" && Truthy(streamingId) {
      match Find(temp, (c: Chat) => c.conversationId == streamingId.value)
      case Some(existing) =>
        assert forall i :: 0 <= i < |r| ==> r[i].role == temp[i].role;
      case None =>
    }
  }

  /** `allChats`: the temporary chats while a streaming id is set, the stored ones otherwise. */
  function AllChats(temp: seq<Chat>, conversationChats: seq<Chat>, streamingId: Option<string>): (r: seq<Chat>)
    ensures Truthy(streamingId) ==> r == temp
    ensures !Truthy(streamingId) ==> r == conversationChats
  {
    if Truthy(streamingId) then temp else conversationChats
  }

  /** The panel's inputs: the active conversation is the streaming one. */
  function Input(isGenerating: bool, content: string, streamingId: Option<string>,
                 temp: seq<Chat>, conversationChats: seq<Chat>): (p: ContentPanel.PanelInput)
    ensures p.activeId == p.streamingId == streamingId
    ensures ContentPanel.ShowStreaming(p) <==> content != ""
  {
    ContentPanel.PanelInput(isGenerating, content, streamingId, streamingId,
                            AllChats(temp, conversationChats, streamingId))
  }

  /**
   * While text streams for an id, after the effect the panel lists a card
   * showing exactly the streaming text, whatever the stored chats are.
   */
  lemma StreamReachesPanel(isGenerating: bool, temp: seq<Chat>, content: string,
                           streamingId: Option<string>, freshId: string, now: string,
                           conversationChats: seq<Chat>, collapse: string -> string)
    requires WellFormed(temp)
    requires content != "" && Truthy(streamingId)
    ensures var v := ContentPanel.Render(Input(isGenerating, content, streamingId,
                                               Effect(temp, content, streamingId, freshId, now),
                                               conversationChats), collapse);
            exists i :: 0 <= i < |v.cards| && v.cards[i].text == content && !v.cards[i].streamed
  {
    var r := Effect(temp, content, streamingId, freshId, now);
    var k := EffectMirrorsStream(temp, content, streamingId, freshId, now);
    EffectKeepsShape(temp, content, streamingId, freshId, now);
    var ai := ContentPanel.AiChats(r);
    assert r[k] in ai;
    var j :| 0 <= j < |ai| && ai[j] == r[k];
    var v := ContentPanel.Render(Input(isGenerating, content, streamingId, r, conversationChats), collapse);
    assert v.cards[j].text == content;
  }

  /**
   * Once a streaming id is set, which the provider keeps after a generation
   * ends, the stored chats of the conversation no longer reach the panel.
   */
  lemma StoredChatsHidden(isGenerating: bool, content: string, streamingId: Option<string>,
                          temp: seq<Chat>, stored1: seq<Chat>, stored2: seq<Chat>)
    requires Truthy(streamingId)
    ensures Input(isGenerating, content, streamingId, temp, stored1)
         == Input(isGenerating, content, streamingId, temp, stored2)
  {
  }
}

=== FILE: wrappers.dfy ===
/** Failure-carrying datatypes shared by every module of the model. */
module Wrappers {

  /** A value that may be absent: JavaScript's `undefined`/`null`. */
  datatype Option<+T> = None | Some(value: T) {

    /** The carried value, or `default` when absent (the `??` operator). */
    function GetOr(default: T): T {
      match this
      case Some(v) => v
      case None => default
    }
  }

  /** The outcome of an operation that either yields a value or fails with an error. */
  datatype Result<+R, +E> = Ok(value: R) | Err(error: E) {

    predicate IsFailure() {
      Err?
    }

    function PropagateFailure<U>(): Result<U, E>
      requires Err?
    {
      Err(error)
    }

    function Extract(): R
      requires Ok?
    {
      value
    }
  }

  /** A JavaScript string test: `null`, `undefined` and the empty string are falsy. */
  predicate Truthy(s: Option<string>) {
    s.Some? && s.value != ""
  }
}
